=== FILE: README.md ===
# RAGnarok upload ingestion, modelled in Dafny

This project models the part of the RAGnarok Node server that takes uploaded
files in and keeps track of them. It also models the web client's route gate.

**Upload path:**

1. **Type detection.** The magic-number table and `detectFileType` decide a
   file's real type from its first 64 bytes. They compare that type with the
   claimed file-name extension and MIME type, and flag a mismatch as a
   security risk.
2. **Validation middleware.** `secureFileValidation` sorts every file of a
   request into validated or rejected. In strict mode one rejection fails
   the whole request with 400. In lenient mode the request always proceeds.
3. **Folder placement.** `getFolderHashAndFileCount` finds the folder a new
   file goes into. It walks a five-level tree of six-character folder
   names from the deepest level up, renames every full level, creates the
   path and persists the new names.
4. **Intake.** `processIndividualSecureFile` builds the encrypted id as the
   folder hash followed by a 70-character token. It then inserts the
   document row, derives the stored file name, checks the size ceiling for
   the file's type and queues a conversion job. The job id has the form
   `fileType-documentId-time`.

**Registry side:**

- **Queries.** The registry of documents is queried by page, by name and by
  encrypted id. A file or thumbnail path is resolved with the sentinels -1
  (not found), -2 (not processed) and -3 (bad id or lookup error).
- **Deletion.** Documents are deleted by numeric or encrypted id.
- **Schemas.** The zod request schemas say which request bodies and queries
  are accepted.
- **Rate limiter.** A fixed-window limiter keyed by client address counts
  requests per window.
- **Route gate.** The client's Next.js middleware sends a page request
  without an `access_token` cookie to `/login`.

**Modelling approach.**

- Everything is a pure function of explicit state:
  - the document registry;
  - the folder tree;
  - the counter store;
  - the job queues.
- Whether a processing step's temporary-file write or queue add throws, and
  what it throws, is a parameter.
- The clock, the random bytes, the MIME lookup, the date parser, the domain
  name and the environment's size limits are parameters.
- JavaScript's loose values (`undefined`, `null`, numbers with NaN and the
  infinities, strings, objects) are a datatype. `parseInt`, `parseFloat` and
  `Number()` are modelled on it, as far as the core relies on them.

`safeDeleteFile` waits `attempt * 1000` ms between tries. That is a linear
backoff, although its comment calls it exponential; the model follows the
code.

## Model

| member | source | states |
|---|---|---|
| MagicNumber.CategoryId | node_server/src/lib/magicNumberDetection.ts:67-72 | known categories get the ids -1..-4 and Unknown gets 0; no other value occurs |
| MagicNumber.Header | node_server/src/lib/magicNumberDetection.ts:105 | detection looks at a prefix of the buffer of at most 64 bytes, and at exactly 64 bytes when the buffer is that long |
| MagicNumber.FirstMatch | node_server/src/lib/magicNumberDetection.ts:110-142 | the scan reports a row index inside the signature table |
| MagicNumber.FirstMatchSpec | node_server/src/lib/magicNumberDetection.ts:110-142 | the reported row matches the header and no earlier row does; no report means no row matches |
| MagicNumber.FirstMatchUnique | node_server/src/lib/magicNumberDetection.ts:110-142 | the first matching row is unique, so detection is a function of the header |
| MagicNumber.GenerateMismatchDetails | node_server/src/lib/magicNumberDetection.ts:236-260 | mismatch details name the detected category as the actual one and "as_claimed" as the expected one |
| MagicNumber.MismatchReason | node_server/src/lib/magicNumberDetection.ts:242-258 | no differing claim gives an empty reason; a differing extension puts the "Filename suggests" sentence first; otherwise a differing MIME puts the "User-provided MIME type" sentence first |
| MagicNumber.NameSentence | node_server/src/lib/magicNumberDetection.ts:247 | the extension sentence starts with "F" and ends with a full stop, so trimming keeps it |
| MagicNumber.MimeSentence | node_server/src/lib/magicNumberDetection.ts:252 | the MIME sentence starts with "U" and ends with a full stop, so trimming keeps it |
| MagicNumber.CheckSecurityRisk | node_server/src/lib/magicNumberDetection.ts:190-231 | a risk exactly when the claimed extension is neither the detected one nor an alias, or the claimed MIME is neither the detected one nor of its category; no claims, no risk |
| MagicNumber.UnknownResult | node_server/src/lib/magicNumberDetection.ts:145-161 | an unrecognised file echoes the claims, is Unknown with id 0, risky and invalid, with details |
| MagicNumber.MatchedResult | node_server/src/lib/magicNumberDetection.ts:163-184 | a matched file echoes the claims and reports the row's MIME, category, extension and id; it is risky exactly on a mismatch, valid exactly when not risky, with details exactly when risky |
| MagicNumber.DetectFileType | node_server/src/lib/magicNumberDetection.ts:98-185 | every result is well formed; it is Unknown iff no signature row matches the first 64 bytes, and otherwise the matched result of the first matching row |
| MagicNumber.DefaultCategoriesAdmitRecognised | node_server/src/lib/magicNumberDetection.ts:265-270 | with the four default categories, a file passes the category check iff some signature row matches its header |
| MagicNumber.MatchedResultFacts | node_server/src/lib/magicNumberDetection.ts:164-184 | a matched file reports the row's MIME, category, extension and id; risk holds iff the extension or the MIME disagrees; valid iff no risk; details present iff risk; no claims means no risk |
| MagicNumber.DetectFacts | node_server/src/lib/magicNumberDetection.ts:98-185 | every result echoes the claims, is valid exactly when it carries no risk, has details exactly when risky, and has the id of its category |
| MagicNumber.DetectMatched | node_server/src/lib/magicNumberDetection.ts:110-142 | when row k is the first match, the result is the one built from row k |
| MagicNumber.DetectUnmatched | node_server/src/lib/magicNumberDetection.ts:145-161 | when no row matches, the result is application/octet-stream, "bin", Unknown, id 0, invalid and risky |
| MagicNumber.DetectCategories | node_server/src/lib/magicNumberDetection.ts:98-185 | the category is Unknown iff no signature matches; a known category has an id in -4..-1 and its details carry that category |
| MagicNumber.TableIsConsistent | node_server/src/lib/magicNumberDetection.ts:21-62 | every signature row has a known category, a MIME listed for that category and bytes that fit in the 64-byte header |
| MagicNumber.RiffRowsCoincide | node_server/src/lib/magicNumberDetection.ts:27-37 | the webp row and the wav row carry the same RIFF bytes at the same offset |
| MagicNumber.RiffIsWebp | node_server/src/lib/magicNumberDetection.ts:27 | any buffer beginning with RIFF is reported as image/webp |
| MagicNumber.RiffShadow | node_server/src/lib/magicNumberDetection.ts:27-37 | any header the wav row matches is matched by the earlier webp row |
| MagicNumber.WavRow | node_server/src/lib/magicNumberDetection.ts:37 | the wav row is the only row with MIME audio/wav |
| MagicNumber.WavIsUnreachable | node_server/src/lib/magicNumberDetection.ts:27-37 | no buffer is ever detected as audio/wav |
| MagicNumber.DetectionReadsOnlyHeader | node_server/src/lib/magicNumberDetection.ts:105 | bytes after the first 64 never change the result |
| MagicNumber.MimeMapsAreDisjoint | node_server/src/lib/magicNumberDetection.ts:57-62 | no MIME type is listed under two categories |
| MagicNumber.ForeignMimeIsRisk | node_server/src/lib/magicNumberDetection.ts:220-228 | a claimed MIME that belongs to a different known category always makes the file a security risk |
| MagicNumber.ForeignMimeMismatch | node_server/src/lib/magicNumberDetection.ts:220-228 | a MIME listed under a category other than the signature's counts as a MIME mismatch |
| MagicNumber.SameCategoryMimeIsNoRisk | node_server/src/lib/magicNumberDetection.ts:220-228 | a claimed MIME from the detected category adds no risk beyond what the file name causes |
| MagicNumber.ExtensionRule | node_server/src/lib/magicNumberDetection.ts:201-217 | with a name and no MIME, the file is risky iff the lower-cased text after the last dot is non-empty and is neither the detected extension nor one of its aliases |
| MagicNumber.AgreeingClaimsAreValid | node_server/src/lib/magicNumberDetection.ts:190-231 | claiming the detected extension and MIME never raises a risk and does not change the category |
| MagicNumber.TableExtensionsArePlain | node_server/src/lib/magicNumberDetection.ts:21-52 | every extension in the table is lower case and has no dot |
| MagicNumber.PdfNameExtension | node_server/src/lib/magicNumberDetection.ts:201 | the claimed extension of "important_document.pdf" is "pdf" |
| MagicNumber.PngClaimedAsPdfIsRisk | node_server/src/middlewares/secureFileValidation.ts:176-183 | the PNG bytes named important_document.pdf with MIME application/pdf are detected as image/png, id -1, risky and invalid |
| SecureValidation.Inspect | node_server/src/middlewares/secureFileValidation.ts:46-62 | a file is inspected by detection exactly when it has a buffer |
| SecureValidation.InspectAll | node_server/src/middlewares/secureFileValidation.ts:45-62 | one inspection per file, in order, each the detection of that file |
| SecureValidation.SomeRejected | node_server/src/middlewares/secureFileValidation.ts:118-119 | the rejection list is non-empty iff some file is rejected |
| SecureValidation.Decide | node_server/src/middlewares/secureFileValidation.ts:118-142 | strict mode answers 400 with the rejections' brief iff some file is rejected; otherwise the request proceeds with exactly the accepted files, counts that add up to the number of files, the rejection details and a risk flag set iff some rejection is a security risk |
| SecureValidation.Validate | node_server/src/middlewares/secureFileValidation.ts:20-142 | a request without files passes straight through; otherwise it is refused iff strict and some file is rejected, and the counts add up to the files received |
| SecureValidation.Classify | node_server/src/middlewares/secureFileValidation.ts:45-116 | a file is accepted iff it has a buffer, its category is allowed and it is not (risky and strict); accepted files carry the detected MIME, category and extension and `isSecure` is the negated risk; rejections carry the name, the claimed type or "unknown", and the detection's risk and MIME |
| SecureValidation.Brief | node_server/src/middlewares/secureFileValidation.ts:123-127 | the 400 body lists every rejection in order with its name, reason and risk flag |
| SecureValidation.PartitionStep | node_server/src/middlewares/secureFileValidation.ts:45-116 | each file appends its verdict to exactly one of the two lists and its name to the alerts when it is risky and logging is on |
| SecureValidation.Partition | node_server/src/middlewares/secureFileValidation.ts:45-116 | the loop produces the accepted and rejected files and the alerts in input order, and the two lists together account for every file |
| SecureValidation.HasSecurityRisks | node_server/src/middlewares/secureFileValidation.ts:141 | the summary flag is set iff some rejection is a security risk |
| SecureValidation.SecureFileValidation | node_server/src/middlewares/secureFileValidation.ts:20-153 | no files passes straight through with no alerts; otherwise the alerts are those of the risky files and the outcome is the 400 or the summary the middleware builds |
| SecureValidation.CountsAddUp | node_server/src/middlewares/secureFileValidation.ts:136-142 | validated plus rejected equals the number of files |
| SecureValidation.SplitsOverConcat | node_server/src/middlewares/secureFileValidation.ts:45-116 | classifying two batches one after the other gives the concatenation of the results |
| SecureValidation.AcceptedMembership | node_server/src/middlewares/secureFileValidation.ts:103-115 | a file is among the validated iff some input file was accepted as it |
| SecureValidation.AcceptedAreSafe | node_server/src/middlewares/secureFileValidation.ts:103-113 | every validated file has its MIME overridden by the detected one and an allowed category, and in strict mode it is secure |
| SecureValidation.UnknownIsRejected | node_server/src/middlewares/secureFileValidation.ts:23-27 | under the default, upload and lenient settings, an unrecognised file is rejected |
| SecureValidation.RiskyRejectedIffStrict | node_server/src/middlewares/secureFileValidation.ts:91-100 | a risky file of an allowed category is rejected iff rejectOnMismatch is set |
| SecureValidation.LenientAcceptsKnown | node_server/src/middlewares/secureFileValidation.ts:167-171 | the lenient validator accepts every recognised file, risky or not |
| SecureValidation.DisguisedPngIsRefused | node_server/src/middlewares/secureFileValidation.ts:158-162 | the upload validator rejects PNG bytes claimed as a PDF, as a security risk detected as image/png |
| SecureValidation.StrictIsAllOrNothing | node_server/src/middlewares/secureFileValidation.ts:118-130 | in strict mode the request either proceeds with every file or fails with at least one rejection |
| SecureValidation.LenientAlwaysProceeds | node_server/src/middlewares/secureFileValidation.ts:132-144 | in lenient mode the request proceeds and its summary counts add up to the number of files |
| SecureValidation.EmptyInputs | node_server/src/middlewares/secureFileValidation.ts:29-34 | no files or an empty array passes through; an empty field map proceeds with an all-zero summary |
| FileStructure.ItemCount | node_server/src/lib/fileStructure.ts:85-94 | a folder's item count is known iff the folder exists and is readable |
| FileStructure.Hash6 | node_server/src/lib/fileStructure.ts:99-120 | a folder name is six alphanumeric characters |
| FileStructure.Candidate | node_server/src/lib/fileStructure.ts:99-120 | every candidate name drawn is six alphanumeric characters |
| FileStructure.GenerateUniqueHash | node_server/src/lib/fileStructure.ts:99-120 | the returned name is the first drawn candidate not taken under the parent and is six alphanumeric characters; failure means every candidate the bytes allow is taken |
| FileStructure.UpdateLayer | node_server/src/lib/fileStructure.ts:41-56 | persisting a new name at a level fails iff there is no record, and otherwise changes only that level |
| FileStructure.Walk | node_server/src/lib/fileStructure.ts:41-56 | the bottom-up walk stops at a level that is not full; every deeper level it passed was full and renamed to a free name; the record and cache hold the new names; it succeeds whenever the deepest level is not full, and fails only at a full level where every name the remaining bytes offer is taken (RandomnessExhausted) or where there is no record to write to (RecordMissing) |
| FileStructure.WalkAdvance | node_server/src/lib/fileStructure.ts:43-54 | one renaming step keeps the walk's invariant and moves one level up |
| FileStructure.RehashStep | node_server/src/lib/fileStructure.ts:43-50 | renaming a full level to a free name keeps the levels above it and the renamed levels below it as they were |
| FileStructure.PersistStep | node_server/src/lib/fileStructure.ts:51-54 | after writing a new name, the record, the cache and the latest copy all carry it |
| FileStructure.ConcatOfGoodNames | node_server/src/lib/fileStructure.ts:70-75 | joining six-character alphanumeric names gives an alphanumeric string of six characters per name |
| FileStructure.AddDir | node_server/src/lib/fileStructure.ts:58-68 | creating a folder adds exactly it, with no items, and adds one item to its parent |
| FileStructure.MkdirP | node_server/src/lib/fileStructure.ts:58-68 | the recursive mkdir only adds folders |
| FileStructure.MkdirPCreatesPrefixes | node_server/src/lib/fileStructure.ts:58-68 | after mkdir every prefix of the path exists, and every new folder is a prefix of the path |
| FileStructure.MkdirPOnExisting | node_server/src/lib/fileStructure.ts:58-68 | mkdir of an existing path changes nothing |
| FileStructure.MkdirPIdempotent | node_server/src/lib/fileStructure.ts:58-68 | running mkdir twice is the same as once |
| FileStructure.StartRecord | node_server/src/lib/fileStructure.ts:9-29 | the cache wins over the database record; with neither, a fresh record with five random names and no files is made when enough random bytes are given |
| FileStructure.GetFolderHashAndFileCount | node_server/src/lib/fileStructure.ts:8-80 | the names handed out, the stored record and the cache are those of a bottom-up walk from the cached, stored or fresh record: every full level below the stopping level got a fresh free name and the stopping level is not full; the resulting path exists and only its prefixes were created; folderHash is the 30 alphanumeric characters of the five names; it succeeds whenever the start record's deepest folder is not full; it fails only when there are too few bytes for a fresh record (RandomnessExhausted) or the walk is stuck as above, and a RecordMissing error implies a cache with no record |
| FileStructure.WalkOutcome | node_server/src/lib/fileStructure.ts:41-77 | after the walk the cache holds the latest record, each level keeps its name or gets a fresh good one, and a consistent store stays consistent |
| FileStructure.NotFullKeepsAll | node_server/src/lib/fileStructure.ts:41-56 | when the deepest folder is not full, nothing is renamed or written |
| FileStructure.UnsetLimitRenamesEveryLevel | node_server/src/lib/fileStructure.ts:41-56 | with no per-layer limit set and the whole path existing, every level counts as full and is renamed |
| FileStructure.AllocFromWalk | node_server/src/lib/fileStructure.ts:8-80 | any walk from the start record, followed by creating its path when missing, meets the allocation contract, and good stored names give a 30-character alphanumeric folderHash |
| FileStructure.AllocKeepsNamesWhenNotFull | node_server/src/lib/fileStructure.ts:8-56 | any allocation whose starting folder is not full hands out the starting names unchanged and leaves the record and cache as loaded |
| FileStructure.AllocRenamesEveryLevelWhenUnset | node_server/src/lib/fileStructure.ts:8-56 | any allocation with no per-layer limit over an existing, readable path renames every level |
| Crypto.CharsetIsAlnum | node_server/src/lib/crypto.ts:22 | the charset is the 62 distinct letters and digits |
| Crypto.PositionOf | node_server/src/lib/crypto.ts:22 | every letter or digit has a position in the charset |
| Crypto.GenerateHash | node_server/src/lib/crypto.ts:15-32 | an invalid length gives ""; otherwise the token has floor(length) characters, the i-th being charset[byte i mod 62], all alphanumeric |
| Crypto.TokenSpec | node_server/src/lib/crypto.ts:28-30 | the token of n bytes has n characters, each charset[byte mod 62] and alphanumeric |
| Crypto.GenerateHashIsToken | node_server/src/lib/crypto.ts:28-30 | the loop's output is the token of the bytes it consumed |
| Crypto.EveryCharReachable | node_server/src/lib/crypto.ts:22-30 | every letter and digit can be produced by some byte |
| DbOperations.IndexOfEncrypted | node_server/src/lib/dbOperations.ts:108-111 | the lookup by encrypted id finds a row with that id, or reports none iff no row has it |
| DbOperations.IndexOfId | node_server/src/lib/dbOperations.ts:167-182 | the lookup by numeric id finds a row with that id, or reports none iff no row has it |
| DbOperations.EncryptedIsUnique | node_server/src/lib/dbOperations.ts:13-31 | in a valid registry the row with an encrypted id is the one the lookup finds |
| DbOperations.AsInt | node_server/src/lib/dbOperations.ts:13-31 | a value is an integer argument iff it is a finite whole number, and then it is that number |
| DbOperations.Insert | node_server/src/lib/dbOperations.ts:13-31 | the insert succeeds iff the arguments have the column types and the encrypted id is new; it appends one row with the next id and keeps the rows before it; failures are a bad argument or a unique violation |
| DbOperations.InsertedRow | node_server/src/lib/dbOperations.ts:13-31 | with well-typed arguments the insert fails iff the encrypted id exists (a unique violation), and otherwise appends the unprocessed row with the next id and returns that id |
| DbOperations.InsertKeepsValid | node_server/src/lib/dbOperations.ts:13-31 | inserting keeps ids and encrypted ids unique and below the next id |
| DbOperations.CoerceFileSize | node_server/src/lib/dbOperations.ts:46-52 | a number passes unchanged; any other value fails iff parseFloat gives NaN |
| DbOperations.CoerceIsProcessed | node_server/src/lib/dbOperations.ts:54-64 | a boolean passes unchanged; a number means processed iff it is 1 |
| DbOperations.NewDate | node_server/src/lib/dbOperations.ts:66-71 | `new Date(undefined)` is invalid, `new Date(null)` is time 0, and a number is valid iff it is a finite time within the Date range |
| DbOperations.CoerceDate | node_server/src/lib/dbOperations.ts:66-71 | a Date object passes unchanged; any other value succeeds iff it makes a valid Date |
| DbOperations.UpdateDocumentStatus | node_server/src/lib/dbOperations.ts:43-89 | the size, the processed flag and the date are checked in that order, with their own errors; when every coercion passes and the arguments are well typed, success holds iff a row has the integer id, and otherwise the error is RecordNotFound; an ill-typed id, size, date or path is InvalidArgument; success writes the coerced size, flag and date, a string or null path as given, and keeps an undefined path; success rewrites the row with the given id and nothing else |
| DbOperations.UpdateKeepsValid | node_server/src/lib/dbOperations.ts:73-82 | updating a row keeps the registry valid |
| DbOperations.Sentinel | node_server/src/lib/dbOperations.ts:101-127 | the failure codes are -1, -2 and -3 |
| DbOperations.Resolve | node_server/src/lib/dbOperations.ts:101-127 | a non-string or a string with characters outside letters, digits and `_` is -3, as is a lookup error; a missing row is -1; an unprocessed row is -2; a processed row gives its path |
| DbOperations.GetFilePath | node_server/src/lib/dbOperations.ts:101-127 | a path is only returned for a safe id whose row exists, is processed and holds that document path |
| DbOperations.GetThumbFilePath | node_server/src/lib/dbOperations.ts:138-164 | a thumbnail path is only returned for a safe id whose row exists, is processed and holds that thumbnail path |
| DbOperations.DeleteDocumentById | node_server/src/lib/dbOperations.ts:167-182 | a non-number or NaN id is refused, as is a finite non-integer id; for an integer id, success holds iff a row has that id, and otherwise the error is RecordNotFound; success removes exactly the row with that id and returns it |
| DbOperations.DeleteKeepsValid | node_server/src/lib/dbOperations.ts:167-182 | deleting keeps the registry valid and leaves no row with the deleted id |
| DbOperations.RemoveAtKeepsValid | node_server/src/lib/dbOperations.ts:167-182 | removing any row keeps the registry valid and removes its id |
| DbOperations.InsertThenResolve | node_server/src/lib/dbOperations.ts:13-31 | a freshly inserted document resolves to -2, not processed |
| DbOperations.UpdateThenResolve | node_server/src/lib/dbOperations.ts:73-82 | a row updated to processed resolves to its new path |
| DbOperations.UpdatedRowResolves | node_server/src/lib/dbOperations.ts:118-122 | a processed row in an updated registry resolves to its path |
| DbOperations.DeleteThenResolve | node_server/src/lib/dbOperations.ts:167-182 | a deleted document resolves to -1, not found |
| DbOperations.RemoveAtDropsEncrypted | node_server/src/lib/dbOperations.ts:167-182 | after removal no row carries the removed encrypted id |
| DbOperations.IsProcessedLeadingInteger | node_server/src/lib/dbOperations.ts:58-60 | the string "1.9" counts as processed, because parseInt reads its leading 1 |
| DbOperations.IsProcessedWordRefused | node_server/src/lib/dbOperations.ts:61-63 | the string "true" is refused as an isProcessed value |
| DbOperations.ObjectCallUpdateFails | node_server/src/lib/dbOperations.ts:43-52 | calling the positional update with one object leaves the size undefined and fails as an invalid file size |
| DbOperations.ObjectCallInsertFails | node_server/src/lib/dbOperations.ts:13-31 | calling the positional insert with one object fails as an invalid argument |
| DbOperations.PositionalUpdateMarksProcessed | node_server/src/lib/dbOperations.ts:43-89 | a positional update with well-typed values marks the row processed with the new path, size, time and thumbnail and changes nothing else |
| FileService.SafeDeleteFile | node_server/src/services/file.ts:39-59 | at most maxRetries attempts; only failed attempts are retried; an early stop means success or a missing file; the waits before retries are 1000, 2000, … ms |
| FileService.TypeNumber | node_server/src/services/file.ts:311-331 | the type numbers 1..4 are the negated category ids |
| FileService.GetSecureFileType | node_server/src/services/file.ts:311-331 | a non-zero category id gives its absolute value; otherwise, in order, image/… gives 1, audio/… 2, application/pdf 3, a MIME containing "word" or one of the two Word types 4, and anything else 1 |
| FileService.SecureTypeFollowsDetection | node_server/src/services/file.ts:311-331 | a recognised file's type number is its detected category's, whatever MIME was claimed |
| FileService.FallbackAgreesWithMimeMap | node_server/src/services/file.ts:318-330 | the MIME fallback puts every MIME of a category's list into that category's type |
| FileService.FallbackAgreesWithTable | node_server/src/services/file.ts:318-330 | the MIME fallback and the signature table agree on every row |
| FileService.WordTestSubsumesExactTypes | node_server/src/services/file.ts:318-330 | both Word MIME types contain "word", so the substring test covers them |
| FileService.ExtName | node_server/src/services/file.ts:351 | an extension has no slash and starts with a dot when non-empty |
| FileService.DetectedExtension | node_server/src/services/file.ts:351 | the detected extension when there is a non-empty one, otherwise the extension of the original name |
| FileService.Stem | node_server/src/services/file.ts:364-365 | a base name has no slash |
| FileService.Take | node_server/src/services/file.ts:365 | `slice(0, n)` is the prefix of exactly n characters of a longer string and the whole string otherwise |
| FileService.SanitizedName | node_server/src/services/file.ts:364-366 | the stem of at most 50 characters with no whitespace and no slash, a dot, and the extension with its first dot removed |
| FileService.StoredName | node_server/src/services/file.ts:367 | the stored name splits at its first dash into the time's digits, which read back as the time, and the sanitised name |
| FileService.SanitizedNameShape | node_server/src/services/file.ts:364-367 | the sanitised stem has at most 50 characters, no whitespace and no slash; the stored name has no slash |
| FileService.CollapseKeepsSlashFree | node_server/src/services/file.ts:365 | replacing whitespace runs does not introduce a slash |
| FileService.ExtNameOfJoin | node_server/src/services/file.ts:351-366 | `stem.ext` with a plain extension has the extension `.ext` |
| FileService.DecimalHasNoMarks | node_server/src/services/file.ts:367 | a rendered timestamp has no dash, slash or dot |
| FileService.StoredJoinExtension | node_server/src/services/file.ts:366-367 | prefixing the time keeps the extension of `stem.ext` |
| FileService.StoredNameKeepsExtension | node_server/src/services/file.ts:364-367 | the stored file name carries the detected extension |
| FileService.Fifty | node_server/src/services/file.ts:486 | the default ceiling text "50" parses as 50 |
| FileService.TwentyFive | node_server/src/services/file.ts:572 | the default ceiling text "25" parses as 25 |
| FileService.SettingOr | node_server/src/services/file.ts:486-572 | an unset or empty setting reads as the default; a non-empty one is parsed |
| FileService.Ceiling | node_server/src/services/file.ts:437-572 | an unset or unparsable image ceiling is NaN; audio and PDF default to 50 MB and documents to 25 MB when unset or empty |
| FileService.TooLarge | node_server/src/services/file.ts:437-572 | a size is too large iff it exceeds a finite ceiling; a NaN or infinite ceiling refuses nothing |
| FileService.DefaultCeilings | node_server/src/services/file.ts:486-572 | with nothing configured, audio and PDF allow 50 MB and documents 25 MB |
| FileService.UnsetImageCeiling | node_server/src/config/envExports.ts:6 | an unset image ceiling is NaN, and no size is too large for it |
| FileService.ConfiguredCeiling | node_server/src/services/file.ts:437-572 | a configured ceiling of m MB is read as m for every type |
| FileService.FirstIndex | node_server/src/services/file.ts:729-731 | the first occurrence of a character, or none iff it does not occur |
| FileService.DecimalDigits | node_server/src/services/file.ts:729-731 | a rendered number reads back as itself |
| FileService.FirstDashAfterDigits | node_server/src/services/file.ts:729-731 | the first dash of `n-rest` is right after the digits |
| FileService.SplitAfterDigits | node_server/src/services/file.ts:729-731 | `n-rest` splits into the digits of n and rest |
| FileService.GenerateJobId | node_server/src/services/file.ts:729-731 | the job id parses back into the file type, the document id and the time |
| FileService.ParseJobId | node_server/src/services/file.ts:729-731 | a parsed id has two dashes with none before or between them, and its three pieces are the digits of the three numbers |
| FileService.JobIdRoundTrip | node_server/src/services/file.ts:729-731 | a job id parses back into the file type, the document id and the time |
| FileService.DispatchQueue | node_server/src/services/file.ts:375-390 | types 1 to 4 have a queue and no other type does |
| FileService.StatusQueue | node_server/src/services/file.ts:607-622 | a type text other than "1" to "4" falls back to the image queue |
| FileService.GetJobStatus | node_server/src/services/file.ts:604-640 | the status is found iff the job is in the queue the type selects; otherwise "Job not found" |
| FileService.StatusOfDispatched | node_server/src/services/file.ts:375-390 | the status lookup picks the same queue the job was sent to |
| FileService.PollFindsDispatchedJob | node_server/src/services/file.ts:604-640 | polling a queued job with its type finds it |
| UploadIntake.IntakeRecordsRow | node_server/src/services/file.ts:336-419 | with the insert made positional (the corrected call; the one-object call at line 355 is refused, see DbOperations.ObjectCallInsertFails), the intake fails iff the encrypted id is already taken; otherwise it appends the row for the upload and returns what the type's processing step returns |
| UploadIntake.IntakeFile | node_server/src/services/file.ts:336-419 | the intake with the insert made positional (the corrected call; as written the one-object call at line 355 is refused): it fails with a unique violation iff the encrypted id is taken; otherwise it appends the upload's row and returns the dispatch entry |
| UploadIntake.Dispatch | node_server/src/services/file.ts:374-419 | the entry carries the sanitised name; it is an error iff the type's step refuses or its temporary-file write or queue add throws, with the refusal's message first and otherwise the thrown message ("Processing failed" for a non-Error throw); a queued entry has the type 1..4, a job id that parses back, the type's queue, the file and thumbnail links and an output path under uploads/ and the folder names |
| UploadIntake.Refusal | node_server/src/services/file.ts:375-576 | a type outside 1..4 is "Unsupported file type"; a supported type is refused, with "File too large", exactly when the size exceeds its type's ceiling |
| UploadIntake.RefusalWithoutSettings | node_server/src/services/file.ts:437-576 | with nothing configured images of any size pass, audio and PDFs pass iff at most 50 MB and documents iff at most 25 MB |
| UploadIntake.EncryptedId | node_server/src/services/file.ts:348 | the folder hash followed by 70 characters, each the alphabet character its random byte selects |
| UploadIntake.OutputName | node_server/src/services/file.ts:445-599 | only images and audio are renamed, and a plain stored name then ends in .webp or .wav |
| UploadIntake.ReplacedExtension | node_server/src/services/file.ts:494-496 | swapping a plain stored name's extension gives the new one |
| UploadIntake.InsertUploadFacts | node_server/src/services/file.ts:355-361 | the insert of the corrected, positional call (the call as written is refused, see DbOperations.ObjectCallInsertFails) fails iff the encrypted id exists, and otherwise appends exactly the upload's row with the next id |
| UploadIntake.EncryptedIdShape | node_server/src/services/file.ts:348 | an encrypted id is 100 alphanumeric characters and so passes the path lookup's character check |
| UploadIntake.IntakeThenResolve | node_server/src/services/file.ts:348-361 | with the insert made positional (the corrected intake; as written no row is inserted), right after intake the new document resolves to not processed |
| UploadIntake.IntakeLeavesOrphanRow | node_server/src/services/file.ts:355-361 | with the insert made positional, an oversized upload is answered "File too large" but its unprocessed row stays in the registry |
| UploadIntake.CheckedFirstLeavesNoRow | node_server/src/services/file.ts:437-439 | with the size checked before the insert, a refused upload leaves the registry as it was, and an accepted one behaves as before; only a throwing write or queue add can still leave a row behind an error entry |
| UploadIntake.QueuedJobIsFound | node_server/src/services/file.ts:392-406 | a queued upload's job id parses back to its type, document and time, and the status lookup reaches its queue |
| UploadIntake.OutputKeepsExtension | node_server/src/services/file.ts:445-599 | the output lives under uploads/ and the folder names; images end in .webp, audio in .wav and PDFs and documents keep the detected extension |
| UploadIntake.StoredNameFacts | node_server/src/services/file.ts:364-367 | the stored name is non-empty, does not start with a dot, has no slash and carries the detected extension |
| UploadIntake.OutputNameExtension | node_server/src/services/file.ts:445-599 | conversion changes the extension only for images and audio |
| UploadIntake.ConvertedName | node_server/src/services/file.ts:494-496 | converted images and audio get the .webp and .wav extensions |
| UploadIntake.StemExtension | node_server/src/services/file.ts:494-496 | swapping the extension of a stored name gives the new one |
| DocumentQueries.Select | node_server/src/services/file.ts:92-119 | a row is selected iff it is in the registry and matches the filter |
| DocumentQueries.SelectCounts | node_server/src/services/file.ts:92-119 | each matching row is selected as many times as it occurs and no other row at all |
| DocumentQueries.Newest | node_server/src/services/file.ts:92-119 | newest first is the reversed insertion order |
| DocumentQueries.Window | node_server/src/services/file.ts:92-119 | skip/take gives at most `take` rows, the slice from `skip`, and none past the end |
| DocumentQueries.PageCount | node_server/src/services/file.ts:92-119 | the page count is the least number of pages of 20 that holds the total |
| DocumentQueries.PageOf | node_server/src/services/file.ts:92-159 | a page below 1 is an error; otherwise its documents are the newest-first matches after skipping (pageNo - 1) * 20, at most 20 of them; it echoes the page and the size 20 and counts the matches of the counted filter in pages of 20; when the counted filter is the listed one, a page up to the last is non-empty and one past it empty |
| DocumentQueries.GetDocumentByPage | node_server/src/services/file.ts:92-119 | a page below 1 is an error; otherwise the page is the window of 20 rows of the type (all rows for type 0), newest first, that starts after (pageNo - 1) * 20 of them; the count is every such row, and the page is non-empty iff it is not past the last |
| DocumentQueries.GetDocumentsByName | node_server/src/services/file.ts:122-159 | a page below 1 is an error; otherwise the page is the window of 20 rows, newest first, matching both name and type that starts after (pageNo - 1) * 20 of them, while the count is every row whose name contains the search, whatever its type |
| DocumentQueries.PagesArePrefix | node_server/src/services/file.ts:92-119 | the first k pages together are the first 20k rows |
| DocumentQueries.PagesCoverMatches | node_server/src/services/file.ts:92-119 | all pages together hold every match and the page after the last is empty |
| DocumentQueries.ListingPagesArePages | node_server/src/services/file.ts:92-119 | the listing's pages 1..k, one after the other, are the first k windows of the type's rows |
| DocumentQueries.ListingReadsEveryMatch | node_server/src/services/file.ts:92-119 | reading the listing from page 1 to its totalPages yields every row of the type exactly once, newest first |
| DocumentQueries.SearchPagesArePages | node_server/src/services/file.ts:122-159 | the name search's pages 1..k are the first k windows of its matches |
| DocumentQueries.SearchReadsEveryMatch | node_server/src/services/file.ts:122-159 | reading the name search from page 1 to its (possibly overstated) totalPages yields every match exactly once, newest first; the surplus pages are empty |
| DocumentQueries.SelectKeepsOrder | node_server/src/services/file.ts:92-119 | filtering keeps the newest-first order |
| DocumentQueries.DescendingCons | node_server/src/services/file.ts:102 | a row newer than every row of a newest-first sequence can go in front of it |
| DocumentQueries.PageIsNewestFirst | node_server/src/services/file.ts:92-159 | every page lists its rows newest first |
| DocumentQueries.SelectNarrower | node_server/src/services/file.ts:143-150 | a narrower filter never selects more rows |
| DocumentQueries.NameCountIgnoresType | node_server/src/services/file.ts:122-159 | the name search lists the same rows as the corrected one but counts at least as many, and the same number when no type is given |
| DocumentQueries.SelectSame | node_server/src/services/file.ts:122-159 | filters that agree on every row select the same rows |
| DocumentQueries.NameCountCounterexample | node_server/src/services/file.ts:143-150 | two documents named "a" of types 1 and 2: a search for type 1 lists one but counts two |
| DocumentQueries.CountedPagesHoldCount | node_server/src/services/file.ts:122-159 | with the type in the count, the count is the number of matches and its pages hold exactly them |
| DocumentQueries.GetDocumentByEncryptedId | node_server/src/services/file.ts:161-173 | the lookup returns the row with that encrypted id, or 404 "Document not Found" iff there is none |
| DocumentQueries.PresentPaths | node_server/src/services/file.ts:175-205 | the paths unlinked are exactly the row's non-empty documentPath and thumbPath, the document path first |
| DocumentQueries.DeleteDocumentByEncryptedId | node_server/src/services/file.ts:175-205 | "Document not found" iff no row has the id, changing nothing; otherwise that row is removed, its stored files are unlinked and "Deleted Succefully" is returned |
| DocumentQueries.RemoveRow | node_server/src/services/file.ts:175-205 | removing a row keeps the registry valid, removes its encrypted id and keeps every other row |
| DocumentQueries.DeleteThenAbsent | node_server/src/services/file.ts:175-205 | after deletion the id is not found and every other document remains |
| DocumentQueries.Serve | node_server/src/services/file.ts:645-701 | a sentinel is answered with its mapped message; a null or empty path gets the route's null-path message and an inaccessible one its not-accessible message; an accessible path is served with its MIME type or application/octet-stream |
| DocumentQueries.GetFileByEncryptedId | node_server/src/services/file.ts:645-671 | a served file is accessible and is the stored path of a processed row with that id; an unsafe id or failed lookup is "Server error while locating file", a missing row "File not found"; in a valid registry any processed row with an accessible path is served |
| DocumentQueries.GetThumbnailByEncryptedId | node_server/src/services/file.ts:676-701 | with a -1 entry added to the message map (the corrected route): the same as the file route for the thumbnail path, with "Server error while locating thumbnail" and "Thumbnail not found" |
| DocumentQueries.GetThumbnailByEncryptedIdAsWritten | node_server/src/services/file.ts:676-701 | the route as written: a served thumbnail is accessible and the stored thumbnail path of a processed row; an unsafe id or failed lookup is "Server error while locating thumbnail"; an unknown id gets "Unknown error"; in a valid registry any processed row with an accessible thumbnail is served |
| DocumentQueries.ThumbnailRoutesDifferOnlyWhenMissing | node_server/src/services/file.ts:680-684 | the route as written and the corrected one answer differently exactly when the id is not found |
| DocumentQueries.ServedFileIsStoredPath | node_server/src/services/file.ts:645-671 | a served file is the stored path of a processed document with that encrypted id |
| DocumentQueries.FileErrorsAreNamed | node_server/src/services/file.ts:649-654 | -1, -2 and -3 become "File not found", "File not processed" and "Server error while locating file" |
| DocumentQueries.ThumbnailMissingIsUnknown | node_server/src/services/file.ts:680-684 | a missing document's thumbnail is answered "Unknown error", where the file route says "File not found" |
| DocumentQueries.ThumbnailErrorsAreNamed | node_server/src/services/file.ts:676-701 | with a -1 entry every thumbnail sentinel gets its own message and never "Unknown error" |
| DocumentSchemas.AsNumber | node_server/src/schemas/document.ts:7 | `z.number()` accepts any number except NaN |
| DocumentSchemas.AsInteger | node_server/src/schemas/document.ts:4 | `z.number().int()` accepts exactly the finite whole numbers |
| DocumentSchemas.Failing | node_server/src/schemas/document.ts:3-9 | the error lists exactly the fields that failed |
| DocumentSchemas.InsertInitialDocument | node_server/src/schemas/document.ts:3-9 | the insert body is accepted iff docType is an integer, originalSize a number and the three names strings |
| DocumentSchemas.InsertSchemaFitsInsert | node_server/src/schemas/document.ts:3-9 | a body the schema accepts, with a finite size and a new encrypted id, is one the database insert accepts |
| DocumentSchemas.PreprocessCompressed | node_server/src/schemas/document.ts:19-23 | numbers become "is 1", strings become "parseInt gives 1", anything else passes unchanged |
| DocumentSchemas.CoerceCompressed | node_server/src/schemas/document.ts:19-23 | isCompressed is accepted iff it is a number, string or boolean, and a boolean stays itself |
| DocumentSchemas.AsNullableString | node_server/src/schemas/document.ts:24 | thumbFilePath is accepted iff it is a string or null |
| DocumentSchemas.UpdateDocumentStatusInput | node_server/src/schemas/document.ts:12-25 | the status-update body is accepted iff every field passes its preprocessing and type |
| DocumentSchemas.CompressedAgreesWithRegistry | node_server/src/schemas/document.ts:19-23 | the schema and the database coerce booleans, numbers and numeric strings to the same flag |
| DocumentSchemas.CompressedWordIsFalse | node_server/src/schemas/document.ts:21 | the schema reads the string "true" as false, while the database refuses it |
| DocumentSchemas.ParseStatus | node_server/src/schemas/document.ts:29 | only strings can be statuses |
| DocumentSchemas.StatusRoundTrip | node_server/src/schemas/document.ts:29 | a value is accepted iff it is one of the four status names, and it parses back to the status it names |
| DocumentSchemas.OptionalInteger | node_server/src/schemas/document.ts:30 | retriesCount is accepted iff absent or an integer |
| DocumentSchemas.UpdateFileStatusInput | node_server/src/schemas/document.ts:27-31 | accepted iff the id is a string, the status is valid and the retries are absent or integral; absent retries stay absent |
| DocumentSchemas.CoerceInRange | node_server/src/schemas/document.ts:34-47 | a missing value takes the default; otherwise `Number(v)` must be an integer within the bounds, and is then the value |
| DocumentSchemas.FetchDocuments | node_server/src/schemas/document.ts:34-47 | the listing is accepted iff both fields coerce, and then carries the coerced page (at least 1) and type (0..4); a refusal names exactly the fields that failed |
| DocumentSchemas.FailingListsExactly | node_server/src/schemas/document.ts:34-60 | with distinct field names, a field is named in the error iff its own check failed |
| DocumentSchemas.FetchDocumentsDefaults | node_server/src/schemas/document.ts:39-46 | an empty query is page 1 of type 0 |
| DocumentSchemas.AcceptedListingPages | node_server/src/schemas/document.ts:34-47 | every listing the schema accepts is a page the service can serve |
| DocumentSchemas.SearchPage | node_server/src/schemas/document.ts:51 | the page is accepted iff parseInt of its text gives a number of at least 1 |
| DocumentSchemas.NameSearchErrors | node_server/src/schemas/document.ts:50-60 | pageNo, name and docType are each named in the error iff their own check failed |
| DocumentSchemas.FetchDocumentsByName | node_server/src/schemas/document.ts:50-60 | the search is accepted iff the page parses to at least 1, the name is a non-empty string and the type coerces, and then carries those values; a refusal names exactly the fields that failed |
| DocumentSchemas.NameSearchNeedsPage | node_server/src/schemas/document.ts:51 | a search without pageNo is refused, naming pageNo |
| DocumentSchemas.FetchDocumentById | node_server/src/schemas/document.ts:62-64 | the id is accepted iff it is a non-empty string and is then returned; the error names "id" |
| RateLimit.ClientAddress | node_server/src/middlewares/rateLimit.ts:18-21 | the address is the first non-empty of the forwarded header and the socket address, and missing iff both are empty |
| RateLimit.KeyInjective | node_server/src/middlewares/rateLimit.ts:23 | different addresses get different counter keys |
| RateLimit.Handle | node_server/src/middlewares/rateLimit.ts:16-36 | 400 iff no address; the store refuses the request iff the count is zero and the window is not positive; 429 iff the live count is non-zero and at least the maximum, with retry after the window; a passed request opens the window at 1 or adds 1; no other key changes |
| RateLimit.Run | node_server/src/middlewares/rateLimit.ts:16-36 | a run of requests from one address passes at most as many as were made and changes no other address's counter; with no address none passes and nothing changes |
| RateLimit.WindowAdmits | node_server/src/middlewares/rateLimit.ts:24-34 | within one window exactly the first max(max, 1) requests pass and the counter holds that number |
| RateLimit.OtherAddressesUnaffected | node_server/src/middlewares/rateLimit.ts:23-31 | a request never changes another address's count |
| RateLimit.ExpiredWindowReopens | node_server/src/middlewares/rateLimit.ts:26-28 | after its window expires an address's next request passes and opens a new window |
| RouteGate.Gate | client/src/middleware.ts:21-23 | the only redirect is to /login |
| RouteGate.GateDecision | client/src/middleware.ts:4-27 | public paths always pass; other paths pass iff the cookie is sent, whatever its value |
| RouteGate.RedirectTargetPasses | client/src/middleware.ts:9-18 | the login page is public, so the redirect cannot loop |
| RouteGate.Effective | client/src/middleware.ts:29-34 | paths the matcher skips always pass, and a path it matches gets exactly the gate's decision |
| RouteGate.EffectiveCorrected | client/src/middleware.ts:29-34 | with the corrected matcher, skipped paths pass and a matched path gets exactly the gate's decision |
| RouteGate.CorrectedMatcherIsTransparent | client/src/middleware.ts:30-33 | with the matcher the comment describes, every request gets the gate's own decision |
| RouteGate.MatcherSkipsApiLikePage | client/src/middleware.ts:32 | `/apikeys` without a cookie is served, although the gate would redirect it |
| JsValues.ScanDecimal | node_server/src/lib/dbOperations.ts:47 | a numeric prefix is non-empty and starts with a digit or a dot |
| JsValues.DecimalIsPlain | node_server/src/services/file.ts:367 | a rendered number has no whitespace to trim and no sign |
| JsValues.ParseIntDecimal | node_server/src/config/envExports.ts:6 | parseInt reads a rendered whole number back as itself |
| JsValues.ScanDecimalOfDecimal | node_server/src/services/file.ts:486 | the numeric prefix of a rendered whole number is all of it, with its value |
| JsValues.StringToNumberDecimal | node_server/src/schemas/document.ts:35-46 | `Number()` reads a rendered whole number back as itself |
| JsValues.ParseFloatDecimal | node_server/src/services/file.ts:486 | parseFloat reads a rendered whole number back as itself |
| Util.Lower | node_server/src/lib/magicNumberDetection.ts:201 | lower-casing keeps the length and maps A-Z to a-z |
| Util.AfterLast | node_server/src/lib/magicNumberDetection.ts:201 | `split('.').pop()` is the dot-free suffix after the last dot, or the whole name |
| Util.TrimStart | node_server/src/lib/dbOperations.ts:47 | trimming drops only leading whitespace, up to the first other character |
| Util.TrimEndKeepsUpTo | node_server/src/lib/magicNumberDetection.ts:258 | `trimEnd` keeps every character up to the last non-white-space one |
| Util.TrimKeepsHead | node_server/src/lib/magicNumberDetection.ts:258 | trimming keeps a leading phrase that starts and ends with non-white-space |
| Util.TrimKeepsSentence | node_server/src/lib/magicNumberDetection.ts:258 | trimming a sentence followed by a space and more keeps the sentence at the front |
| Util.CollapseWhitespace | node_server/src/services/file.ts:365 | replacing whitespace runs leaves no whitespace and never lengthens |
| Util.CollapseWhitespaceFixes | node_server/src/services/file.ts:365 | a name without whitespace is left unchanged |
| Util.CollapseWhitespaceIdempotent | node_server/src/services/file.ts:365 | replacing whitespace twice is the same as once |
| Util.Decimal | node_server/src/services/file.ts:367 | a rendered whole number is non-empty digits with no leading zero |
| Util.RunLengthAll | node_server/src/lib/dbOperations.ts:47 | a string of digits is read to its end |
| Util.DecimalValue | node_server/src/services/file.ts:729-731 | a rendered number's digits have its value |
| Util.DecimalInjective | node_server/src/services/file.ts:729-731 | different numbers render differently |

## Left out

- Logging, `console` output and the HTTP response bodies are not modelled beyond the fields named above.
- Worker processes, BullMQ internals and the conversion itself (sharp, ffmpeg, PDF compression) are left out: a queued job is its queue, id and paths.
- Redis time-to-live is modelled as an expiry second on each counter. The clock is a parameter.
- `Promise.all` over a batch and any interleaving between uploads are left out. Intake is modelled one file at a time.
- The legacy `processUploadedFiles` and `processIndividualFile` path is not part of this model.
- Controllers and routes are not part of this model. So it is not stated where the rate limiter, the validator or the schemas are mounted.
- `getUnprocessedFiles`, `updateFileStatus` and `getFileNamesByIds` are left out: their database functions are not in the modelled file.
- The image width, height and quality query parameters are left out, because they only reach the image converter.
- `securityInfo` in intake result entries is left out, because it only copies detection fields.
- The `toFixed(2)` rounding of sizes is left out. Sizes are exact reals, and floating point in general is not modelled.
- `slice` counts characters, not UTF-16 code units. Lower-casing is ASCII only.
- Prisma column types are assumed from the calls: integer ids and types, float sizes, string paths. A negative skip is treated as an error.
- A fileContainer made by `create` is assumed to get id 1 with a file count of 0.
- `fs.access` errors other than ENOENT are not modelled (fileStructure.ts line 66).
- `MAX_ITEMS_PER_LAYER` and the cache TTL are not exported by the configuration shown. The per-layer limit is therefore optional, and an unset limit makes every existing folder count as full.
- FileStructure.GenerateUniqueHash: it draws names from a finite supply of random bytes and returns RandomnessExhausted when they run out; the source would loop until it finds a free name.
- FileStructure.Walk: it inherits that finite supply, so it may fail with RandomnessExhausted at a full level once the bytes left run out, where the source would keep drawing.
- FileStructure.GetFolderHashAndFileCount: it fails with RandomnessExhausted in the same way, through its walk or when there are too few bytes for a fresh record.
- Crypto.GenerateHash: its requires excludes non-integer and +Infinity lengths, and lengths longer than the random bytes supplied.
- FileService.SafeDeleteFile: maxRetries is an integer; a fractional or non-numeric count is not modelled.
- DbOperations.NewDate: the date-string parser is a parameter.
- DocumentQueries.Serve: the file-access check and the `mime` package's content-type lookup are parameters; streaming the file is not modelled.
- FileService.GetSecureFileType: a missing MIME type is modelled as the empty string, which the source also treats as absent.
- JsValues.ParseIntDecimal: parseInt of a number value does not model exponent rendering of very large or very small numbers.
- DocumentSchemas.AsNumber: zod 3 semantics are assumed, in which `z.number()` refuses NaN and accepts the infinities.
- The `DOMAIN_NAME` environment value is a parameter.
- RouteGate.Effective: the Next.js matcher is read as a regular expression anchored at both ends of the path; locale and basePath handling are left out.
- RateLimit.Handle: Redis values are stored and read back as integers.
- RateLimit.Handle: each request is one atomic step, whereas the source reads the count and then writes it in separate Redis calls (rateLimit.ts lines 24-30); concurrent requests from one address can all read the same count and exceed the maximum, so RateLimit.WindowAdmits holds only for requests handled one after another.
- RateLimit.Handle: the middleware imports `redis` from `lib/redis.js`, which exports only the cache helpers; the limiter is modelled as if it used the client that `config/redis.ts` exports.

## Findings

| source | as written | input that shows it | evidently intended | confidence | as-written member | corrected member |
|---|---|---|---|---|---|---|
| node_server/src/services/file.ts:143-150 | the total count of a name search filters by name only, not by docType | documents "a" of type 1 and "a" of type 2, searched with docType 1: one row listed, totalCount 2 | count with the same filter as the listing | not executed | DocumentQueries.NameCountCounterexample | DocumentQueries.CountedPagesHoldCount |
| node_server/src/services/file.ts:355-361 | the row is inserted before the size check of the processing step, which then throws "File too large"; with the insert call as it stands the insert itself throws first (the object-call row below), outside the `try` at line 374, so the request fails and no row is left: the wrong order shows once that call is made positional | with the positional insert: a PDF over the ceiling is answered "File too large" and its unprocessed row stays | check the size before inserting | not executed | UploadIntake.IntakeLeavesOrphanRow | UploadIntake.CheckedFirstLeavesNoRow |
| node_server/src/services/file.ts:680-684 | the thumbnail error map has entries for -2 and -3 but none for -1 | a safe encrypted id with no document: "Unknown error" instead of a not-found message | map -1 as the file route does | not executed | DocumentQueries.ThumbnailMissingIsUnknown | DocumentQueries.ThumbnailErrorsAreNamed |
| node_server/src/services/file.ts:355-361 | one object is passed to `insertInitialDocumentData`, which takes five positional arguments (dbOperations.ts line 13) | any upload: docType is the object and the rest undefined, so the insert is refused | pass the five values positionally | not executed | DbOperations.ObjectCallInsertFails | UploadIntake.IntakeRecordsRow |
| client/src/middleware.ts:32 | the matcher skips every path starting `/api` and treats the dot of `favicon.ico` as any character | `/apikeys` without a cookie is served, although it is neither an API route nor public | skip only `/api/` and the literal `/favicon.ico`, as the comment at line 30 says | not executed | RouteGate.MatcherSkipsApiLikePage | RouteGate.CorrectedMatcherIsTransparent |

=== FILE: crypto.dfy ===
/** Random tokens: each random byte picks one character of a 62-character
    alphabet.  The bytes are a parameter; where they come from is not part
    of the model. */
module Crypto {
  import opened Util
  import opened JsValues

  /** Position `i` of the alphabet: upper-case letters, lower-case letters,
      then digits. */
  function AlphabetAt(i: nat): (c: char)
    requires i < 62
    ensures IsAlnum(c)
  {
    if i < 26 then (65 + i) as char
    else if i < 52 then (97 + i - 26) as char
    else (48 + i - 52) as char
  }

  /** The alphabet from position `i` on. */
  function AlphabetFrom(i: nat): (s: string)
    requires i <= 62
    ensures |s| == 62 - i
    ensures forall k :: 0 <= k < |s| ==> s[k] == AlphabetAt(i + k)
    decreases 62 - i
  {
    if i == 62 then "" else [AlphabetAt(i)] + AlphabetFrom(i + 1)
  }

  /** `ABCDEFGHIJKLMNOPQRSTUVWXYZabcdefghijklmnopqrstuvwxyz0123456789` */
  const Charset: string := AlphabetFrom(0)

  /** The token character a random byte selects. */
  function CharFor(b: Byte): char {
    Charset[b % 62]
  }

  /** The alphabet is exactly the ASCII letters and digits, each once. */
  lemma CharsetIsAlnum()
    ensures |Charset| == 62
    ensures forall i :: 0 <= i < |Charset| ==> IsAlnum(Charset[i])
    ensures forall i, j :: 0 <= i < j < |Charset| ==> Charset[i] != Charset[j]
  {
  }

  /** The alphabet position of a letter or digit. */
  function PositionOf(c: char): (k: nat)
    requires IsAlnum(c)
    ensures k < 62 && AlphabetAt(k) == c
  {
    if 'A' <= c <= 'Z' then c as int - 65
    else if 'a' <= c <= 'z' then c as int - 71
    else c as int + 4
  }

  /** A length the generator accepts: NaN and non-positive lengths (which
      give the empty token), or a positive whole number covered by the bytes. */
  predicate ValidRequest(length: Number, available: nat) {
    || length.NaN? || length.NegInf?
    || (length.Fin? && (length.value <= 0.0 || (IsInteger(length) && length.value.Floor <= available)))
  }

  /** `isNaN(length) || length <= 0` */
  predicate Refused(length: Number) {
    length.NaN? || length.NegInf? || (length.Fin? && length.value <= 0.0)
  }

  /** `generateHash(length)` over the given random bytes. */
  method GenerateHash(length: Number, bytes: seq<Byte>) returns (r: string)
    requires ValidRequest(length, |bytes|)
    ensures Refused(length) ==> r == ""
    ensures !Refused(length) ==> |r| == length.value.Floor
    ensures forall i :: 0 <= i < |r| ==> r[i] == Charset[bytes[i] % 62]
    ensures forall i :: 0 <= i < |r| ==> IsAlnum(r[i])
  {
    if Refused(length) {
      return "";
    }
    var n := length.value.Floor;
    CharsetIsAlnum();
    r := "";
    var i := 0;
    while i < n
      invariant 0 <= i <= n
      invariant |r| == i
      invariant forall k :: 0 <= k < i ==> r[k] == Charset[bytes[k] % 62]
    {
      r := r + [CharFor(bytes[i])];
      i := i + 1;
    }
  }

  /** The token a byte string yields, one character per byte. */
  function Token(bytes: seq<Byte>): string {
    if |bytes| == 0 then "" else [CharFor(bytes[0])] + Token(bytes[1..])
  }

  /** Each character of a token is the alphabet character its byte selects,
      so the token is a deterministic function of the bytes and is alphanumeric. */
  lemma {:induction false} TokenSpec(bytes: seq<Byte>)
    ensures |Token(bytes)| == |bytes|
    ensures forall i :: 0 <= i < |bytes| ==> Token(bytes)[i] == Charset[bytes[i] % 62]
    ensures forall i :: 0 <= i < |bytes| ==> IsAlnum(Token(bytes)[i])
  {
    if |bytes| > 0 {
      TokenSpec(bytes[1..]);
      forall i | 1 <= i < |bytes|
        ensures Token(bytes)[i] == Charset[bytes[i] % 62]
      {
        assert Token(bytes)[i] == Token(bytes[1..])[i - 1];
      }
    }
    CharsetIsAlnum();
    forall i | 0 <= i < |bytes| ensures IsAlnum(Token(bytes)[i]) {
      assert Token(bytes)[i] == Charset[bytes[i] % 62];
    }
  }

  /** The method's output for a whole length is the token of the first
      `length` bytes. */
  lemma GenerateHashIsToken(n: nat, bytes: seq<Byte>, r: string)
    requires n <= |bytes| && |r| == n
    requires forall i :: 0 <= i < |r| ==> r[i] == Charset[bytes[i] % 62]
    ensures r == Token(bytes[..n])
  {
    TokenSpec(bytes[..n]);
  }

  /** Every letter and digit can occur: the map from bytes onto the
      alphabet is onto, and each alphabet position is picked by the byte of
      that value. */
  lemma EveryCharReachable(c: char)
    requires IsAlnum(c)
    ensures c in Charset
    ensures exists b: Byte :: CharFor(b) == c
  {
    var k := PositionOf(c);
    var b: Byte := k;
    assert b % 62 == k;
    assert Charset[k] == AlphabetAt(0 + k) == c;
    assert CharFor(b) == c;
  }
}

=== FILE: db_operations.dfy ===
/** The document registry as the ingestion path reads and writes it: the
    initial insert, the status update with its argument coercions, the
    three-way path resolution and deletion by id.

    The registry is the table of documents in ascending id order together
    with the next id the table will hand out.  Arguments arrive as
    untyped JavaScript values; the column types the ORM enforces (an
    integer type and id, strings for names and paths, a finite number for
    sizes) are checked where the ORM would check them. */
module DbOperations {
  import opened Util
  import opened JsValues

  datatype Document = Document(
    id: nat,
    documentType: int,
    displayName: string,
    encryptedId: string,
    originalFileSize: real,
    fileExtension: string,
    isProcessed: bool,
    documentPath: Option<string>,
    currentFileSize: Option<real>,
    processedAt: Option<int>,   // milliseconds since the epoch
    thumbPath: Option<string>)

  datatype Registry = Registry(docs: seq<Document>, nextId: nat)

  datatype DbError =
    | InvalidArgument     // the ORM refused an argument of the wrong type
    | UniqueViolation     // a second row with the same encrypted id
    | RecordNotFound      // update or delete of an id that is not there
    | InvalidFileSize     // `Invalid file size: ...`
    | InvalidIsProcessed  // `Invalid isProcessed: ...`
    | InvalidDate         // `Invalid processedDateTime: ...`
    | InvalidDocumentId   // `Invalid documentId: ...`

  /** Ids ascend strictly and stay below the next id; encrypted ids are
      unique. */
  predicate Valid(r: Registry) {
    && (forall i, j :: 0 <= i < j < |r.docs| ==> r.docs[i].id < r.docs[j].id)
    && (forall i :: 0 <= i < |r.docs| ==> r.docs[i].id < r.nextId)
    && (forall i, j :: 0 <= i < j < |r.docs| ==> r.docs[i].encryptedId != r.docs[j].encryptedId)
  }

  /** Position of the row with encrypted id `e`, searching from the end. */
  function IndexOfEncrypted(docs: seq<Document>, e: string): (r: Option<nat>)
    ensures r.Some? ==> r.value < |docs| && docs[r.value].encryptedId == e
    ensures r.None? <==> forall i :: 0 <= i < |docs| ==> docs[i].encryptedId != e
  {
    if |docs| == 0 then None
    else if docs[|docs| - 1].encryptedId == e then Some(|docs| - 1)
    else IndexOfEncrypted(docs[..|docs| - 1], e)
  }

  /** Position of the row with id `id`, searching from the end. */
  function IndexOfId(docs: seq<Document>, id: int): (r: Option<nat>)
    ensures r.Some? ==> r.value < |docs| && docs[r.value].id == id
    ensures r.None? <==> forall i :: 0 <= i < |docs| ==> docs[i].id != id
  {
    if |docs| == 0 then None
    else if docs[|docs| - 1].id == id then Some(|docs| - 1)
    else IndexOfId(docs[..|docs| - 1], id)
  }

  /** In a valid registry a matching row is the only one. */
  lemma EncryptedIsUnique(r: Registry, e: string, i: nat)
    requires Valid(r) && i < |r.docs| && r.docs[i].encryptedId == e
    ensures IndexOfEncrypted(r.docs, e) == Some(i)
  {
    forall j | 0 <= j < |r.docs| && j != i
      ensures r.docs[j].encryptedId != e
    {
      if j < i {
        assert r.docs[j].encryptedId != r.docs[i].encryptedId;
      } else {
        assert r.docs[i].encryptedId != r.docs[j].encryptedId;
      }
    }
  }

  /** The ORM's reading of an integer column argument. */
  function AsInt(v: JsValue): (r: Option<int>)
    ensures r.Some? <==> v.JsNumber? && IsInteger(v.n)
    ensures r.Some? ==> v.n.value == r.value as real
  {
    if v.JsNumber? && IsInteger(v.n) then Some(v.n.value.Floor) else None
  }

  function AsString(v: JsValue): Option<string> {
    if v.JsString? then Some(v.s) else None
  }

  /** The ORM's reading of a float column argument: a finite number. */
  function AsFloat(v: JsValue): Option<real> {
    if v.JsNumber? && v.n.Fin? then Some(v.n.value) else None
  }

  /** An optional argument of a nullable string column: `undefined` leaves
      the column alone, `null` clears it. */
  datatype FieldArg = Leave | Put(value: Option<string>) | Refused

  function NullableStringArg(v: JsValue): FieldArg {
    match v
    case JsUndefined => Leave
    case JsNull => Put(None)
    case JsString(s) => Put(Some(s))
    case _ => Refused
  }

  function Apply(prev: Option<string>, a: FieldArg): Option<string>
    requires !a.Refused?
  {
    if a.Leave? then prev else a.value
  }

  /** `insertInitialDocumentData(docType, displayName, encryptedId,
      originalSize, fileExt)`: a new unprocessed row with the next id,
      whose id is returned. */
  function Insert(reg: Registry, docType: JsValue, displayName: JsValue, encryptedId: JsValue,
                  originalSize: JsValue, fileExt: JsValue): (r: Result<(Registry, nat), DbError>)
    ensures r.Ok? <==> && AsInt(docType).Some? && displayName.JsString? && encryptedId.JsString?
                       && AsFloat(originalSize).Some? && fileExt.JsString?
                       && forall i :: 0 <= i < |reg.docs| ==> reg.docs[i].encryptedId != encryptedId.s
    ensures r.Err? ==> r.error == InvalidArgument || r.error == UniqueViolation
    ensures r.Ok? ==> && r.value.1 == reg.nextId && r.value.0.nextId == reg.nextId + 1
                      && |r.value.0.docs| == |reg.docs| + 1 && r.value.0.docs[..|reg.docs|] == reg.docs
  {
    var t := AsInt(docType);
    var name := AsString(displayName);
    var enc := AsString(encryptedId);
    var size := AsFloat(originalSize);
    var ext := AsString(fileExt);
    if t.None? || name.None? || enc.None? || size.None? || ext.None? then Err(InvalidArgument)
    else if IndexOfEncrypted(reg.docs, enc.value).Some? then Err(UniqueViolation)
    else
      var d := Document(reg.nextId, t.value, name.value, enc.value, size.value, ext.value,
                        false, None, None, None, None);
      Ok((Registry(reg.docs + [d], reg.nextId + 1), reg.nextId))
  }

  /** The row an insert adds carries the arguments as given, is not
      processed and has no paths yet. */
  lemma InsertedRow(reg: Registry, docType: int, name: string, enc: string, size: real, ext: string)
    ensures var r := Insert(reg, JsNumber(Fin(docType as real)), JsString(name), JsString(enc), JsNumber(Fin(size)), JsString(ext));
            && (r.Err? <==> IndexOfEncrypted(reg.docs, enc).Some?)
            && (r.Err? ==> r.error == UniqueViolation)
            && (r.Ok? ==> r.value == (Registry(reg.docs + [Document(reg.nextId, docType, name, enc, size, ext, false, None, None, None, None)],
                                               reg.nextId + 1), reg.nextId))
  {
    assert IsInteger(Fin(docType as real));
    assert AsInt(JsNumber(Fin(docType as real))) == Some(docType);
  }

  lemma InsertKeepsValid(reg: Registry, docType: JsValue, displayName: JsValue, encryptedId: JsValue,
                         originalSize: JsValue, fileExt: JsValue)
    requires Valid(reg)
    ensures var r := Insert(reg, docType, displayName, encryptedId, originalSize, fileExt);
            r.Ok? ==> Valid(r.value.0)
  {
  }

  /** `Number.isNaN` of the argument after the size coercion. */
  function CoerceFileSize(v: JsValue): (r: Result<Number, DbError>)
    ensures v.JsNumber? ==> r == Ok(v.n)
    ensures !v.JsNumber? ==> (r.Err? <==> ParseFloatOf(v).NaN?)
    ensures r.Err? ==> r.error == InvalidFileSize
  {
    if v.JsNumber? then Ok(v.n)
    else
      var p := ParseFloatOf(v);
      if p.NaN? then Err(InvalidFileSize) else Ok(p)
  }

  /** A boolean is kept, a number means `=== 1`, anything else goes through
      `parseInt` and must not be NaN. */
  function CoerceIsProcessed(v: JsValue): (r: Result<bool, DbError>)
    ensures v.JsBool? ==> r == Ok(v.b)
    ensures v.JsNumber? ==> r == Ok(v.n == Fin(1.0))
    ensures r.Err? ==> r.error == InvalidIsProcessed
  {
    match v
    case JsBool(b) => Ok(b)
    case JsNumber(n) => Ok(n == Fin(1.0))
    case _ =>
      match ParseInt(Text(v))
      case None => Err(InvalidIsProcessed)
      case Some(k) => Ok(k == 1)
  }

  /** The largest time value a `Date` can hold, in milliseconds. */
  const MaxTime: real := 8640000000000000.0

  /** The processed time as the caller hands it over: a `Date` instance
      (whose time may be invalid) or any other value. */
  datatype DateArg = DateObject(time: Option<int>) | Plain(v: JsValue)

  /** `new Date(v)` for a value that is not a `Date`: `None` is an invalid
      date.  `parseDate` stands for the engine's date-string parser. */
  function NewDate(v: JsValue, parseDate: string -> Option<int>): (r: Option<int>)
    ensures v.JsUndefined? ==> r.None?
    ensures v.JsNull? ==> r == Some(0)
    ensures v.JsNumber? ==> (r.Some? <==> v.n.Fin? && -MaxTime <= v.n.value <= MaxTime)
  {
    match v
    case JsUndefined => None
    case JsNull => Some(0)
    case JsBool(b) => Some(if b then 1 else 0)
    case JsNumber(n) => if n.Fin? && -MaxTime <= n.value <= MaxTime then Some(Trunc(n.value)) else None
    case JsString(s) => parseDate(s)
    case JsObject(t) => parseDate(t)
  }

  /** The date step: a `Date` instance passes unchecked, anything else must
      make a valid date. */
  function CoerceDate(d: DateArg, parseDate: string -> Option<int>): (r: Result<Option<int>, DbError>)
    ensures d.DateObject? ==> r == Ok(d.time)
    ensures d.Plain? ==> (r.Ok? <==> NewDate(d.v, parseDate).Some?)
    ensures r.Ok? && d.Plain? ==> r.value.Some?
    ensures r.Err? ==> r.error == InvalidDate
  {
    match d
    case DateObject(t) => Ok(t)
    case Plain(v) =>
      var t := NewDate(v, parseDate);
      if t.None? then Err(InvalidDate) else Ok(t)
  }

  /** The three coercions of `updateDocumentStatus` all succeed. */
  predicate CoercionsPass(currentFileSize: JsValue, isProcessed: JsValue, processedDateTime: DateArg,
                          parseDate: string -> Option<int>) {
    && CoerceFileSize(currentFileSize).Ok?
    && CoerceIsProcessed(isProcessed).Ok?
    && CoerceDate(processedDateTime, parseDate).Ok?
  }

  /** After the coercions, the ORM accepts the update's values: an integer
      id, a finite size, a valid date, and paths that are strings, `null`
      or `undefined`. */
  predicate WellTypedUpdate(documentId: JsValue, documentPath: JsValue, currentFileSize: JsValue,
                            processedDateTime: DateArg, thumbFilePath: JsValue, parseDate: string -> Option<int>) {
    && AsInt(documentId).Some?
    && (CoerceFileSize(currentFileSize).Ok? ==> CoerceFileSize(currentFileSize).value.Fin?)
    && (CoerceDate(processedDateTime, parseDate).Ok? ==> CoerceDate(processedDateTime, parseDate).value.Some?)
    && !NullableStringArg(documentPath).Refused?
    && !NullableStringArg(thumbFilePath).Refused?
  }

  /** `updateDocumentStatus(documentId, documentPath, currentFileSize,
      isProcessed, processedDateTime, thumbFilePath)`: the three coercions
      in order, then the update of the row with that id.  The update writes
      only the path, the current size, the processed flag, the processed
      time and the thumbnail path. */
  function UpdateDocumentStatus(reg: Registry, documentId: JsValue, documentPath: JsValue, currentFileSize: JsValue,
                                isProcessed: JsValue, processedDateTime: DateArg, thumbFilePath: JsValue,
                                parseDate: string -> Option<int>): (r: Result<(Registry, Document), DbError>)
    ensures CoerceFileSize(currentFileSize).Err? ==> r == Err(InvalidFileSize)
    ensures CoerceFileSize(currentFileSize).Ok? && CoerceIsProcessed(isProcessed).Err? ==> r == Err(InvalidIsProcessed)
    ensures (CoerceFileSize(currentFileSize).Ok? && CoerceIsProcessed(isProcessed).Ok?
             && CoerceDate(processedDateTime, parseDate).Err?) ==> r == Err(InvalidDate)
    ensures CoercionsPass(currentFileSize, isProcessed, processedDateTime, parseDate)
            && WellTypedUpdate(documentId, documentPath, currentFileSize, processedDateTime, thumbFilePath, parseDate) ==>
              && (r.Ok? <==> exists i :: 0 <= i < |reg.docs| && reg.docs[i].id == AsInt(documentId).value)
              && (r.Err? ==> r.error == RecordNotFound)
    ensures CoercionsPass(currentFileSize, isProcessed, processedDateTime, parseDate)
            && !WellTypedUpdate(documentId, documentPath, currentFileSize, processedDateTime, thumbFilePath, parseDate) ==>
              r == Err(InvalidArgument)
    ensures r.Ok? ==> Updated(reg, r.value.0, r.value.1, AsInt(documentId), CoerceIsProcessed(isProcessed))
    ensures r.Ok? ==> && CoercionsPass(currentFileSize, isProcessed, processedDateTime, parseDate)
                      && WellTypedUpdate(documentId, documentPath, currentFileSize, processedDateTime, thumbFilePath, parseDate)
                      && r.value.1.currentFileSize == Some(CoerceFileSize(currentFileSize).value.value)
                      && r.value.1.processedAt == CoerceDate(processedDateTime, parseDate).value
                      && (documentPath.JsString? ==> r.value.1.documentPath == Some(documentPath.s))
                      && (documentPath.JsNull? ==> r.value.1.documentPath == None)
                      && (thumbFilePath.JsString? ==> r.value.1.thumbPath == Some(thumbFilePath.s))
                      && (thumbFilePath.JsNull? ==> r.value.1.thumbPath == None)
    ensures r.Ok? && documentPath.JsUndefined? ==> r.value.1.documentPath == reg.docs[IndexOfId(reg.docs, r.value.1.id).value].documentPath
    ensures r.Ok? && thumbFilePath.JsUndefined? ==> r.value.1.thumbPath == reg.docs[IndexOfId(reg.docs, r.value.1.id).value].thumbPath
  {
    match CoerceFileSize(currentFileSize)
    case Err(e) => Err(e)
    case Ok(size) =>
      match CoerceIsProcessed(isProcessed)
      case Err(e) => Err(e)
      case Ok(done) =>
        match CoerceDate(processedDateTime, parseDate)
        case Err(e) => Err(e)
        case Ok(time) =>
          var id := AsInt(documentId);
          var path := NullableStringArg(documentPath);
          var thumb := NullableStringArg(thumbFilePath);
          if id.None? || !size.Fin? || time.None? || path.Refused? || thumb.Refused? then Err(InvalidArgument)
          else match IndexOfId(reg.docs, id.value)
            case None => Err(RecordNotFound)
            case Some(i) =>
              var d := reg.docs[i];
              var d' := d.(documentPath := Apply(d.documentPath, path), currentFileSize := Some(size.value),
                           isProcessed := done, processedAt := time, thumbPath := Apply(d.thumbPath, thumb));
              Ok((Registry(reg.docs[i := d'], reg.nextId), d'))
  }

  /** The row with the given id, and only it, changed; its identity, type,
      names, original size and extension are kept and its flag is the
      coerced one. */
  predicate Updated(before: Registry, after: Registry, d: Document, id: Option<int>, done: Result<bool, DbError>) {
    && id.Some? && done.Ok?
    && after.nextId == before.nextId && |after.docs| == |before.docs|
    && exists i :: 0 <= i < |before.docs| && before.docs[i].id == id.value && after.docs == before.docs[i := d]
                   && d == before.docs[i].(documentPath := d.documentPath, currentFileSize := d.currentFileSize,
                                           isProcessed := done.value, processedAt := d.processedAt,
                                           thumbPath := d.thumbPath)
  }

  lemma UpdateKeepsValid(before: Registry, after: Registry, d: Document, id: Option<int>, done: Result<bool, DbError>)
    requires Valid(before) && Updated(before, after, d, id, done)
    ensures Valid(after)
  {
    var i :| 0 <= i < |before.docs| && before.docs[i].id == id.value && after.docs == before.docs[i := d]
             && d == before.docs[i].(documentPath := d.documentPath, currentFileSize := d.currentFileSize,
                                     isProcessed := done.value, processedAt := d.processedAt,
                                     thumbPath := d.thumbPath);
    forall j | 0 <= j < |after.docs|
      ensures after.docs[j].id == before.docs[j].id && after.docs[j].encryptedId == before.docs[j].encryptedId
    {
    }
  }

  /** The three outcomes of a path lookup besides a path. */
  datatype Resolution = NotFound | NotProcessed | ResolutionError | Found(path: Option<string>)

  /** The numeric code the lookup returns instead of a path. */
  function Sentinel(r: Resolution): (n: int)
    requires !r.Found?
    ensures -3 <= n <= -1
  {
    match r
    case NotFound => -1
    case NotProcessed => -2
    case ResolutionError => -3
  }

  /** The class `[a-zA-Z0-9_]`. */
  predicate IsIdChar(c: char) {
    IsAlnum(c) || c == '_'
  }

  predicate SafeId(s: string) {
    forall i :: 0 <= i < |s| ==> IsIdChar(s[i])
  }

  datatype PathField = DocumentPathField | ThumbPathField

  function PathOf(d: Document, f: PathField): Option<string> {
    if f.DocumentPathField? then d.documentPath else d.thumbPath
  }

  /** The shared body of `getFilePath` and `getThumbFilePath`.
      `lookupFails` stands for an exception thrown by the database. */
  function Resolve(reg: Registry, encryptedId: JsValue, lookupFails: bool, f: PathField): (r: Resolution)
    ensures !encryptedId.JsString? || !SafeId(encryptedId.s) ==> r == ResolutionError
    ensures encryptedId.JsString? && SafeId(encryptedId.s) && lookupFails ==> r == ResolutionError
    ensures encryptedId.JsString? && SafeId(encryptedId.s) && !lookupFails ==>
              match IndexOfEncrypted(reg.docs, encryptedId.s)
              case None => r == NotFound
              case Some(i) => r == if reg.docs[i].isProcessed then Found(PathOf(reg.docs[i], f)) else NotProcessed
  {
    if !encryptedId.JsString? || !SafeId(encryptedId.s) then ResolutionError
    else if lookupFails then ResolutionError
    else match IndexOfEncrypted(reg.docs, encryptedId.s)
      case None => NotFound
      case Some(i) => if reg.docs[i].isProcessed then Found(PathOf(reg.docs[i], f)) else NotProcessed
  }

  /** `getFilePath` */
  function GetFilePath(reg: Registry, encryptedId: JsValue, lookupFails: bool): (r: Resolution)
    ensures r.Found? ==> encryptedId.JsString? && SafeId(encryptedId.s) && !lookupFails
    ensures r.Found? ==> exists i :: 0 <= i < |reg.docs| && reg.docs[i].encryptedId == encryptedId.s
                                     && reg.docs[i].isProcessed && r.path == reg.docs[i].documentPath
  {
    Resolve(reg, encryptedId, lookupFails, DocumentPathField)
  }

  /** `getThumbFilePath` */
  function GetThumbFilePath(reg: Registry, encryptedId: JsValue, lookupFails: bool): (r: Resolution)
    ensures r.Found? ==> encryptedId.JsString? && SafeId(encryptedId.s) && !lookupFails
    ensures r.Found? ==> exists i :: 0 <= i < |reg.docs| && reg.docs[i].encryptedId == encryptedId.s
                                     && reg.docs[i].isProcessed && r.path == reg.docs[i].thumbPath
  {
    Resolve(reg, encryptedId, lookupFails, ThumbPathField)
  }

  /** `deleteDocumentById`: the argument must be a number that is not NaN;
      the ORM then refuses a number that is not a finite integer, and a
      missing row; otherwise the row with that id is removed and returned. */
  function DeleteDocumentById(reg: Registry, documentId: JsValue): (r: Result<(Registry, Document), DbError>)
    ensures !documentId.JsNumber? || documentId.n.NaN? ==> r == Err(InvalidDocumentId)
    ensures documentId.JsNumber? && !documentId.n.NaN? && AsInt(documentId).None? ==> r == Err(InvalidArgument)
    ensures AsInt(documentId).Some? ==>
              && (r.Ok? <==> exists i :: 0 <= i < |reg.docs| && reg.docs[i].id == AsInt(documentId).value)
              && (r.Err? ==> r.error == RecordNotFound)
    ensures r.Ok? ==> && AsInt(documentId).Some? && r.value.1.id == AsInt(documentId).value
                      && r.value.0.nextId == reg.nextId
                      && exists i :: 0 <= i < |reg.docs| && reg.docs[i] == r.value.1
                                     && r.value.0.docs == reg.docs[..i] + reg.docs[i + 1..]
  {
    if !documentId.JsNumber? || documentId.n.NaN? then Err(InvalidDocumentId)
    else match AsInt(documentId)
      case None => Err(InvalidArgument)
      case Some(id) =>
        match IndexOfId(reg.docs, id)
        case None => Err(RecordNotFound)
        case Some(i) => Ok((Registry(reg.docs[..i] + reg.docs[i + 1..], reg.nextId), reg.docs[i]))
  }

  lemma DeleteKeepsValid(reg: Registry, documentId: JsValue)
    requires Valid(reg)
    ensures var r := DeleteDocumentById(reg, documentId);
            r.Ok? ==> Valid(r.value.0) && forall j :: 0 <= j < |r.value.0.docs| ==> r.value.0.docs[j].id != r.value.1.id
  {
    var r := DeleteDocumentById(reg, documentId);
    if r.Ok? {
      var i :| 0 <= i < |reg.docs| && reg.docs[i] == r.value.1 && r.value.0.docs == reg.docs[..i] + reg.docs[i + 1..];
      RemoveAtKeepsValid(reg, i);
    }
  }

  /** Dropping one row keeps the registry valid, and no other row has its id. */
  lemma RemoveAtKeepsValid(reg: Registry, i: nat)
    requires Valid(reg) && i < |reg.docs|
    ensures var ds := reg.docs[..i] + reg.docs[i + 1..];
            && Valid(Registry(ds, reg.nextId))
            && forall j :: 0 <= j < |ds| ==> ds[j].id != reg.docs[i].id
  {
    var ds := reg.docs[..i] + reg.docs[i + 1..];
    assert forall j :: 0 <= j < |ds| ==> ds[j] == reg.docs[if j < i then j else j + 1];
    forall a, b | 0 <= a < b < |ds|
      ensures ds[a].id < ds[b].id && ds[a].encryptedId != ds[b].encryptedId
    {
      var a' := if a < i then a else a + 1;
      var b' := if b < i then b else b + 1;
      assert a' < b' && ds[a] == reg.docs[a'] && ds[b] == reg.docs[b'];
    }
  }

  /** A freshly inserted document resolves to "not processed" (-2) for
      both its file and its thumbnail. */
  lemma InsertThenResolve(reg: Registry, docType: JsValue, displayName: JsValue, enc: string,
                          originalSize: JsValue, fileExt: JsValue, f: PathField)
    requires Valid(reg) && SafeId(enc)
    requires Insert(reg, docType, displayName, JsString(enc), originalSize, fileExt).Ok?
    ensures var reg' := Insert(reg, docType, displayName, JsString(enc), originalSize, fileExt).value.0;
            Resolve(reg', JsString(enc), false, f) == NotProcessed
  {
    var reg' := Insert(reg, docType, displayName, JsString(enc), originalSize, fileExt).value.0;
    InsertKeepsValid(reg, docType, displayName, JsString(enc), originalSize, fileExt);
    EncryptedIsUnique(reg', enc, |reg.docs|);
  }

  /** After an update marks a row processed, its lookup returns the path
      the update left on the row. */
  lemma UpdateThenResolve(reg: Registry, documentId: JsValue, documentPath: JsValue, currentFileSize: JsValue,
                          isProcessed: JsValue, processedDateTime: DateArg, thumbFilePath: JsValue,
                          parseDate: string -> Option<int>, f: PathField)
    requires Valid(reg)
    requires var r := UpdateDocumentStatus(reg, documentId, documentPath, currentFileSize, isProcessed,
                                           processedDateTime, thumbFilePath, parseDate);
             r.Ok? && r.value.1.isProcessed && SafeId(r.value.1.encryptedId)
    ensures var r := UpdateDocumentStatus(reg, documentId, documentPath, currentFileSize, isProcessed,
                                          processedDateTime, thumbFilePath, parseDate);
            Resolve(r.value.0, JsString(r.value.1.encryptedId), false, f) == Found(PathOf(r.value.1, f))
  {
    var r := UpdateDocumentStatus(reg, documentId, documentPath, currentFileSize, isProcessed,
                                  processedDateTime, thumbFilePath, parseDate);
    UpdatedRowResolves(reg, r.value.0, r.value.1, AsInt(documentId), CoerceIsProcessed(isProcessed), f);
  }

  /** The updated row of a valid registry is the one its encrypted id finds. */
  lemma UpdatedRowResolves(before: Registry, after: Registry, d: Document, id: Option<int>,
                           done: Result<bool, DbError>, f: PathField)
    requires Valid(before) && Updated(before, after, d, id, done)
    requires d.isProcessed && SafeId(d.encryptedId)
    ensures Resolve(after, JsString(d.encryptedId), false, f) == Found(PathOf(d, f))
  {
    UpdateKeepsValid(before, after, d, id, done);
    var i :| 0 <= i < |before.docs| && before.docs[i].id == id.value && after.docs == before.docs[i := d]
             && d == before.docs[i].(documentPath := d.documentPath, currentFileSize := d.currentFileSize,
                                     isProcessed := done.value, processedAt := d.processedAt, thumbPath := d.thumbPath);
    EncryptedIsUnique(after, d.encryptedId, i);
  }

  /** Once deleted, a document is not found any more. */
  lemma DeleteThenResolve(reg: Registry, documentId: JsValue, f: PathField)
    requires Valid(reg)
    requires DeleteDocumentById(reg, documentId).Ok?
    requires SafeId(DeleteDocumentById(reg, documentId).value.1.encryptedId)
    ensures var r := DeleteDocumentById(reg, documentId);
            Resolve(r.value.0, JsString(r.value.1.encryptedId), false, f) == NotFound
  {
    var r := DeleteDocumentById(reg, documentId);
    var i :| 0 <= i < |reg.docs| && reg.docs[i] == r.value.1 && r.value.0.docs == reg.docs[..i] + reg.docs[i + 1..];
    RemoveAtDropsEncrypted(reg, i);
  }

  /** After dropping a row of a valid registry no row has its encrypted id. */
  lemma RemoveAtDropsEncrypted(reg: Registry, i: nat)
    requires Valid(reg) && i < |reg.docs|
    ensures IndexOfEncrypted(reg.docs[..i] + reg.docs[i + 1..], reg.docs[i].encryptedId).None?
  {
    var ds := reg.docs[..i] + reg.docs[i + 1..];
    forall j | 0 <= j < |ds|
      ensures ds[j].encryptedId != reg.docs[i].encryptedId
    {
      if j < i {
        assert ds[j] == reg.docs[j];
      } else {
        assert ds[j] == reg.docs[j + 1];
      }
    }
  }

  /** `parseInt` reads a leading integer, so `"1.9"` counts as processed. */
  lemma IsProcessedLeadingInteger()
    ensures CoerceIsProcessed(JsString("1.9")) == Ok(true)
  {
    var t := "1.9";
    assert !IsWhitespace(t[0]);
    assert TrimStart(t) == t;
    assert SplitSign(t) == (false, t);
    assert RunLength(t, 10) == 1 by {
      assert t[1..] == ".9";
      assert DigitValue('.') == -1;
      assert RunLength(".9", 10) == 0;
    }
    assert t[..1] == "1";
    assert RadixValue("1", 10) == 1 by {
      assert "1"[..0] == "";
    }
    assert ParseUnsignedInt(t) == Some(1);
  }

  /** The word `"true"` is not a number, so it is refused. */
  lemma IsProcessedWordRefused()
    ensures CoerceIsProcessed(JsString("true")) == Err(InvalidIsProcessed)
  {
    var t := "true";
    assert !IsWhitespace(t[0]);
    assert TrimStart(t) == t;
    assert SplitSign(t) == (false, t);
    assert DigitValue('t') == 29;
    assert RunLength(t, 10) == 0;
  }

  /** A call that passes one object where the positional parameters are
      expected leaves `currentFileSize` undefined, and `parseFloat` of
      `undefined` is NaN: the update always throws its size error. */
  lemma ObjectCallUpdateFails(reg: Registry, fields: string, parseDate: string -> Option<int>)
    ensures UpdateDocumentStatus(reg, JsObject(fields), JsUndefined, JsUndefined, JsUndefined,
                                 Plain(JsUndefined), JsUndefined, parseDate) == Err(InvalidFileSize)
  {
    var t := "undefined";
    assert !IsWhitespace(t[0]);
    assert TrimStart(t) == t;
    assert SplitSign(t) == (false, t);
    assert !StartsWith(t, "Infinity") by {
      assert t[0] != "Infinity"[0];
    }
    assert RunLength(t, 10) == 0 by {
      assert DigitValue('u') == 30;
    }
    assert ScanDecimal(t) == None;
    assert ParseFloatOf(JsUndefined).NaN?;
  }

  /** The same object passed to the insert lands in the type column and
      leaves every other column undefined, which the ORM refuses. */
  lemma ObjectCallInsertFails(reg: Registry, fields: string)
    ensures Insert(reg, JsObject(fields), JsUndefined, JsUndefined, JsUndefined, JsUndefined) == Err(InvalidArgument)
  {
  }

  /** The positional call the signature asks for marks an existing row
      processed with the given paths, size and time. */
  lemma PositionalUpdateMarksProcessed(reg: Registry, i: nat, path: string, size: real, time: int, thumb: string,
                                       parseDate: string -> Option<int>)
    requires Valid(reg) && i < |reg.docs|
    ensures var r := UpdateDocumentStatus(reg, JsNumber(Fin(reg.docs[i].id as real)), JsString(path), JsNumber(Fin(size)),
                                          JsBool(true), DateObject(Some(time)), JsString(thumb), parseDate);
            && r.Ok?
            && r.value.1 == reg.docs[i].(documentPath := Some(path), currentFileSize := Some(size), isProcessed := true,
                                         processedAt := Some(time), thumbPath := Some(thumb))
            && r.value.0.docs == reg.docs[i := r.value.1]
  {
    var id := reg.docs[i].id;
    assert IsInteger(Fin(id as real));
    assert AsInt(JsNumber(Fin(id as real))) == Some(id);
    var k := IndexOfId(reg.docs, id);
    assert k == Some(i) by {
      forall j | 0 <= j < |reg.docs| && j != i
        ensures reg.docs[j].id != id
      {
        if j < i {
          assert reg.docs[j].id < reg.docs[i].id;
        } else {
          assert reg.docs[i].id < reg.docs[j].id;
        }
      }
    }
  }
}

=== FILE: document_queries.dfy ===
/** The read and delete side of the document service: paged listing,
    search by name, lookup and deletion by encrypted id, and serving a
    file or thumbnail by encrypted id.

    The registry is `DbOperations.Registry`, whose rows ascend by id, so
    "newest first" is the rows in reverse.  File-system access and the
    content-type lookup are parameters. */
module DocumentQueries {
  import opened Util
  import opened JsValues
  import Db = DbOperations

  const PageSize: nat := 20

  /** The conditions a listing puts on a row: an optional name fragment,
      matched without regard to case, and an optional type, where type 0
      (or no type) means every type. */
  datatype Query = Query(name: Option<string>, docType: Option<int>)

  predicate OfType(d: Db.Document, docType: Option<int>) {
    docType.None? || docType.value == 0 || d.documentType == docType.value
  }

  /** `displayName contains name`, insensitive to the case of ASCII letters. */
  predicate NameMatches(d: Db.Document, name: string) {
    Contains(Lower(d.displayName), Lower(name))
  }

  predicate Keep(d: Db.Document, q: Query) {
    (q.name.None? || NameMatches(d, q.name.value)) && OfType(d, q.docType)
  }

  /** The rows a query keeps, in the order given. */
  function Select(docs: seq<Db.Document>, q: Query): (r: seq<Db.Document>)
    ensures |r| <= |docs|
    ensures forall i :: 0 <= i < |r| ==> Keep(r[i], q) && r[i] in docs
    ensures forall d :: d in r <==> d in docs && Keep(d, q)
  {
    if |docs| == 0 then []
    else if Keep(docs[0], q) then [docs[0]] + Select(docs[1..], q)
    else Select(docs[1..], q)
  }

  /** The rows ordered by id, newest first. */
  function Newest(docs: seq<Db.Document>): (r: seq<Db.Document>)
    ensures |r| == |docs|
    ensures forall i :: 0 <= i < |r| ==> r[i] == docs[|docs| - 1 - i]
  {
    if |docs| == 0 then [] else [docs[|docs| - 1]] + Newest(docs[..|docs| - 1])
  }

  predicate Descending(docs: seq<Db.Document>) {
    forall i, j :: 0 <= i < j < |docs| ==> docs[i].id > docs[j].id
  }

  /** `skip` then `take`. */
  function Window(xs: seq<Db.Document>, skip: nat, take: nat): (r: seq<Db.Document>)
    ensures |r| <= take
    ensures skip >= |xs| ==> r == []
    ensures skip < |xs| ==> r == xs[skip..if skip + take <= |xs| then skip + take else |xs|]
  {
    if skip >= |xs| then [] else if skip + take <= |xs| then xs[skip..skip + take] else xs[skip..]
  }

  /** `Math.ceil(count / 20)` */
  function PageCount(count: nat): (n: nat)
    ensures n * PageSize >= count
    ensures n > 0 ==> (n - 1) * PageSize < count
  {
    (count + PageSize - 1) / PageSize
  }

  datatype Page = Page(pageNo: int, pageSize: nat, totalPages: nat, totalCount: nat, documents: seq<Db.Document>)

  /** The page of a query's matches, newest first, with `totalCount`
      taken from `counted`.  A page number below 1 gives a negative skip,
      which the ORM refuses. */
  function PageOf(reg: Db.Registry, q: Query, counted: Query, pageNo: int): (r: Result<Page, Db.DbError>)
    ensures r.Err? <==> pageNo < 1
    ensures r.Ok? ==> && |r.value.documents| <= PageSize
                      && (forall i :: 0 <= i < |r.value.documents| ==> Keep(r.value.documents[i], q))
                      && r.value.totalPages * PageSize >= r.value.totalCount
    ensures r.Ok? ==> && r.value.pageNo == pageNo && r.value.pageSize == PageSize
                      && r.value.totalCount == |Select(Newest(reg.docs), counted)|
                      && r.value.totalPages == PageCount(r.value.totalCount)
                      && forall i :: 0 <= i < |r.value.documents| ==> r.value.documents[i] in reg.docs
    ensures r.Ok? && counted == q && pageNo <= r.value.totalPages ==> |r.value.documents| > 0
    ensures r.Ok? && counted == q && pageNo > r.value.totalPages ==> r.value.documents == []
    ensures r.Ok? ==> r.value.documents == Window(Select(Newest(reg.docs), q), (pageNo - 1) * PageSize, PageSize)
  {
    if pageNo < 1 then Err(Db.InvalidArgument)
    else
      var matching := Select(Newest(reg.docs), q);
      var count := |Select(Newest(reg.docs), counted)|;
      Ok(Page(pageNo, PageSize, PageCount(count), count, Window(matching, (pageNo - 1) * PageSize, PageSize)))
  }

  /** `getDocumentbyPage(pageNo, docType)` */
  function GetDocumentByPage(reg: Db.Registry, pageNo: int, docType: Option<int>): (r: Result<Page, Db.DbError>)
    ensures r.Err? <==> pageNo < 1
    ensures r.Ok? ==> && r.value.totalCount == |Select(Newest(reg.docs), Query(None, docType))|
                      && |r.value.documents| <= PageSize
                      && (forall i :: 0 <= i < |r.value.documents| ==>
                            r.value.documents[i] in reg.docs && OfType(r.value.documents[i], docType))
                      && (pageNo <= r.value.totalPages <==> |r.value.documents| > 0)
    ensures r.Ok? ==> r.value.documents == Window(Select(Newest(reg.docs), Query(None, docType)), (pageNo - 1) * PageSize, PageSize)
  {
    PageOf(reg, Query(None, docType), Query(None, docType), pageNo)
  }

  /** `getDocumentsByName(name, pageNo, docType)` as written: the count
      filters by name only. */
  function GetDocumentsByName(reg: Db.Registry, name: string, pageNo: int, docType: Option<int>): (r: Result<Page, Db.DbError>)
    ensures r.Err? <==> pageNo < 1
    ensures r.Ok? ==> && r.value.totalCount == |Select(Newest(reg.docs), Query(Some(name), None))|
                      && |r.value.documents| <= PageSize
                      && forall i :: 0 <= i < |r.value.documents| ==>
                           && r.value.documents[i] in reg.docs
                           && NameMatches(r.value.documents[i], name) && OfType(r.value.documents[i], docType)
    ensures r.Ok? ==> r.value.documents == Window(Select(Newest(reg.docs), Query(Some(name), docType)), (pageNo - 1) * PageSize, PageSize)
  {
    PageOf(reg, Query(Some(name), docType), Query(Some(name), None), pageNo)
  }

  /** The name search with the count under the same conditions as the
      listing. */
  function GetDocumentsByNameCounted(reg: Db.Registry, name: string, pageNo: int, docType: Option<int>): Result<Page, Db.DbError> {
    PageOf(reg, Query(Some(name), docType), Query(Some(name), docType), pageNo)
  }

  // ---------------------------------------------------------------------
  // Paging covers every match once

  /** Pages 1..k of `xs`, one after the other. */
  function Pages(xs: seq<Db.Document>, k: nat): seq<Db.Document> {
    if k == 0 then [] else Pages(xs, k - 1) + Window(xs, (k - 1) * PageSize, PageSize)
  }

  lemma {:induction false} PagesArePrefix(xs: seq<Db.Document>, k: nat)
    ensures Pages(xs, k) == xs[..if k * PageSize <= |xs| then k * PageSize else |xs|]
  {
    if k > 0 {
      PagesArePrefix(xs, k - 1);
      var a := (k - 1) * PageSize;
      if a < |xs| {
        var b := if a + PageSize <= |xs| then a + PageSize else |xs|;
        assert xs[..a] + xs[a..b] == xs[..b];
      }
    }
  }

  /** Reading pages 1 to `totalPages` yields every match exactly once, in
      order, and the page after the last is empty. */
  lemma PagesCoverMatches(xs: seq<Db.Document>)
    ensures Pages(xs, PageCount(|xs|)) == xs
    ensures Window(xs, PageCount(|xs|) * PageSize, PageSize) == []
  {
    PagesArePrefix(xs, PageCount(|xs|));
  }

  /** The documents of pages 1..k of `getDocumentbyPage`, one after the
      other. */
  function ListingPages(reg: Db.Registry, docType: Option<int>, k: nat): seq<Db.Document> {
    if k == 0 then [] else ListingPages(reg, docType, k - 1) + GetDocumentByPage(reg, k, docType).value.documents
  }

  lemma {:induction false} ListingPagesArePages(reg: Db.Registry, docType: Option<int>, k: nat)
    ensures ListingPages(reg, docType, k) == Pages(Select(Newest(reg.docs), Query(None, docType)), k)
  {
    if k > 0 {
      ListingPagesArePages(reg, docType, k - 1);
    }
  }

  /** Reading `getDocumentbyPage` from page 1 to the `totalPages` it
      reports lists every document of the type exactly once, newest
      first. */
  lemma ListingReadsEveryMatch(reg: Db.Registry, docType: Option<int>)
    ensures var p := GetDocumentByPage(reg, 1, docType).value;
            ListingPages(reg, docType, p.totalPages) == Select(Newest(reg.docs), Query(None, docType))
  {
    var p := GetDocumentByPage(reg, 1, docType).value;
    ListingPagesArePages(reg, docType, p.totalPages);
    PagesCoverMatches(Select(Newest(reg.docs), Query(None, docType)));
  }

  /** The documents of pages 1..k of `getDocumentsByName`, one after the
      other. */
  function SearchPages(reg: Db.Registry, name: string, docType: Option<int>, k: nat): seq<Db.Document> {
    if k == 0 then [] else SearchPages(reg, name, docType, k - 1) + GetDocumentsByName(reg, name, k, docType).value.documents
  }

  lemma {:induction false} SearchPagesArePages(reg: Db.Registry, name: string, docType: Option<int>, k: nat)
    ensures SearchPages(reg, name, docType, k) == Pages(Select(Newest(reg.docs), Query(Some(name), docType)), k)
  {
    if k > 0 {
      SearchPagesArePages(reg, name, docType, k - 1);
    }
  }

  /** The name search's `totalPages` may promise more pages than its
      matches fill, but reading them all still lists every match exactly
      once, newest first: the surplus pages are empty. */
  lemma SearchReadsEveryMatch(reg: Db.Registry, name: string, docType: Option<int>)
    ensures var p := GetDocumentsByName(reg, name, 1, docType).value;
            SearchPages(reg, name, docType, p.totalPages) == Select(Newest(reg.docs), Query(Some(name), docType))
  {
    var p := GetDocumentsByName(reg, name, 1, docType).value;
    var matching := Select(Newest(reg.docs), Query(Some(name), docType));
    NameCountIgnoresType(reg, name, 1, docType);
    assert p.totalPages * PageSize >= |matching|;
    SearchPagesArePages(reg, name, docType, p.totalPages);
    PagesArePrefix(matching, p.totalPages);
  }

  /** The rows a query keeps from a descending sequence descend too. */
  lemma {:induction false} SelectKeepsOrder(docs: seq<Db.Document>, q: Query)
    requires Descending(docs)
    ensures Descending(Select(docs, q))
  {
    if |docs| > 0 {
      var tail := docs[1..];
      assert Descending(tail) by {
        assert forall i :: 0 <= i < |tail| ==> tail[i] == docs[i + 1];
      }
      SelectKeepsOrder(tail, q);
      var rest := Select(tail, q);
      forall i | 0 <= i < |rest|
        ensures rest[i].id < docs[0].id
      {
        var j :| 0 <= j < |tail| && tail[j] == rest[i];
        assert tail[j] == docs[j + 1];
      }
      if Keep(docs[0], q) {
        DescendingCons(docs[0], rest);
      }
    }
  }

  /** A row newer than every row of a descending sequence can go in front
      of it. */
  lemma DescendingCons(d: Db.Document, rest: seq<Db.Document>)
    requires Descending(rest)
    requires forall i :: 0 <= i < |rest| ==> rest[i].id < d.id
    ensures Descending([d] + rest)
  {
    var r := [d] + rest;
    forall a, b | 0 <= a < b < |r|
      ensures r[a].id > r[b].id
    {
      assert r[b] == rest[b - 1];
      if a > 0 {
        assert r[a] == rest[a - 1];
      }
    }
  }

  /** `Select` is a filter: each row occurs in the result as often as in
      the input when the query keeps it, and not at all otherwise. */
  lemma {:induction false} SelectCounts(docs: seq<Db.Document>, q: Query)
    ensures forall d :: multiset(Select(docs, q))[d] == if Keep(d, q) then multiset(docs)[d] else 0
  {
    if |docs| > 0 {
      SelectCounts(docs[1..], q);
      assert docs == [docs[0]] + docs[1..];
      assert multiset(docs) == multiset{docs[0]} + multiset(docs[1..]);
    }
  }

  /** In a valid registry every page lists its documents newest first. */
  lemma PageIsNewestFirst(reg: Db.Registry, q: Query, counted: Query, pageNo: int)
    requires Db.Valid(reg)
    requires PageOf(reg, q, counted, pageNo).Ok?
    ensures Descending(PageOf(reg, q, counted, pageNo).value.documents)
  {
    var n := Newest(reg.docs);
    assert Descending(n);
    SelectKeepsOrder(n, q);
  }

  /** A query with more conditions keeps fewer rows. */
  lemma {:induction false} SelectNarrower(docs: seq<Db.Document>, q: Query, wide: Query)
    requires forall i :: 0 <= i < |docs| && Keep(docs[i], q) ==> Keep(docs[i], wide)
    ensures |Select(docs, q)| <= |Select(docs, wide)|
  {
    if |docs| > 0 {
      assert forall i :: 0 <= i < |docs[1..]| ==> docs[1..][i] == docs[i + 1];
      SelectNarrower(docs[1..], q, wide);
    }
  }

  /** The name search as written counts every name match, whatever the
      type asked for: its count is never below the number of matches it
      can list, and agrees with it only when no type is asked for or the
      type happens not to exclude a name match. */
  lemma NameCountIgnoresType(reg: Db.Registry, name: string, pageNo: int, docType: Option<int>)
    requires pageNo >= 1
    ensures var listed := GetDocumentsByNameCounted(reg, name, pageNo, docType).value;
            var written := GetDocumentsByName(reg, name, pageNo, docType).value;
            && written.documents == listed.documents
            && written.totalCount >= listed.totalCount
            && (docType.None? || docType.value == 0 ==> written.totalCount == listed.totalCount)
  {
    var n := Newest(reg.docs);
    SelectNarrower(n, Query(Some(name), docType), Query(Some(name), None));
    if docType.None? || docType.value == 0 {
      SelectSame(n, Query(Some(name), docType), Query(Some(name), None));
    }
  }

  lemma {:induction false} SelectSame(docs: seq<Db.Document>, q: Query, q': Query)
    requires forall i :: 0 <= i < |docs| ==> (Keep(docs[i], q) <==> Keep(docs[i], q'))
    ensures Select(docs, q) == Select(docs, q')
  {
    if |docs| > 0 {
      assert forall i :: 0 <= i < |docs[1..]| ==> docs[1..][i] == docs[i + 1];
      SelectSame(docs[1..], q, q');
    }
  }

  /** Two documents named `a`, of types 1 and 2: searching `a` among
      type 1 lists one document but reports a total of two. */
  lemma NameCountCounterexample()
    ensures var d1 := Db.Document(0, 1, "a", "x", 1.0, "pdf", false, None, None, None, None);
            var d2 := Db.Document(1, 2, "a", "y", 1.0, "mp3", false, None, None, None, None);
            var reg := Db.Registry([d1, d2], 2);
            var p := GetDocumentsByName(reg, "a", 1, Some(1)).value;
            |p.documents| == 1 && p.totalCount == 2
  {
    var d1 := Db.Document(0, 1, "a", "x", 1.0, "pdf", false, None, None, None, None);
    var d2 := Db.Document(1, 2, "a", "y", 1.0, "mp3", false, None, None, None, None);
    assert Lower("a") == "a";
    assert NameMatches(d1, "a") && NameMatches(d2, "a") by {
      assert StartsWith("a", "a");
    }
    assert Newest([d1, d2]) == [d2, d1];
    assert Select([d2, d1], Query(Some("a"), Some(1))) == [d1];
    assert Select([d2, d1], Query(Some("a"), None)) == [d2, d1];
  }

  /** With the count taken under the listing's own conditions, the
      reported pages hold exactly the reported number of documents. */
  lemma CountedPagesHoldCount(reg: Db.Registry, name: string, docType: Option<int>)
    ensures var p := GetDocumentsByNameCounted(reg, name, 1, docType).value;
            var matching := Select(Newest(reg.docs), Query(Some(name), docType));
            && p.totalCount == |matching|
            && Pages(matching, p.totalPages) == matching
  {
    PagesCoverMatches(Select(Newest(reg.docs), Query(Some(name), docType)));
  }

  // ---------------------------------------------------------------------
  // Lookup and deletion by encrypted id

  /** `getDocumentsByEncrypterID`: the row, or status 404 with
      "Document not Found". */
  function GetDocumentByEncryptedId(reg: Db.Registry, id: string): (r: Result<Db.Document, (int, string)>)
    ensures r.Ok? ==> r.value in reg.docs && r.value.encryptedId == id
    ensures r.Err? <==> forall i :: 0 <= i < |reg.docs| ==> reg.docs[i].encryptedId != id
    ensures r.Err? ==> r.error == (404, "Document not Found")
  {
    match Db.IndexOfEncrypted(reg.docs, id)
    case None => Err((404, "Document not Found"))
    case Some(i) => Ok(reg.docs[i])
  }

  /** What a delete did: the registry after it, the message it returns and
      the paths it tried to unlink, in order. */
  datatype Deletion = Deletion(reg: Db.Registry, message: string, unlinked: seq<string>)

  /** `[documentPath, thumbPath].filter(Boolean)`: the paths that are
      neither null nor empty. */
  function PresentPaths(d: Db.Document): (r: seq<string>)
    ensures forall i :: 0 <= i < |r| ==> |r[i]| > 0
    ensures |r| <= 2
    ensures forall p :: p in r <==> |p| > 0 && (d.documentPath == Some(p) || d.thumbPath == Some(p))
    ensures d.documentPath.Some? && |d.documentPath.value| > 0 ==> r[0] == d.documentPath.value
    ensures |r| == 2 ==> d.documentPath.Some? && d.thumbPath.Some? && r == [d.documentPath.value, d.thumbPath.value]
  {
    (if d.documentPath.Some? && |d.documentPath.value| > 0 then [d.documentPath.value] else [])
    + (if d.thumbPath.Some? && |d.thumbPath.value| > 0 then [d.thumbPath.value] else [])
  }

  /** `deleteDocumentByEncryptedId`: an unknown id changes nothing; a known
      one has its present paths unlinked, each failure only logged, and
      then its row removed. */
  /** The two answers of a delete. */
  const DocumentNotFound := "Document not found"
  const DeletedSuccessfully := "Deleted Succefully"

  lemma DeleteMessagesDiffer()
    ensures DeletedSuccessfully != DocumentNotFound
  {
    assert DeletedSuccessfully[1] != DocumentNotFound[1];
  }

  function DeleteDocumentByEncryptedId(reg: Db.Registry, id: string): (r: Deletion)
    ensures r.message == DocumentNotFound <==> forall i :: 0 <= i < |reg.docs| ==> reg.docs[i].encryptedId != id
    ensures r.message == DocumentNotFound ==> r.reg == reg && r.unlinked == []
    ensures r.message != DocumentNotFound ==>
              && r.message == DeletedSuccessfully && r.reg.nextId == reg.nextId
              && exists i :: 0 <= i < |reg.docs| && reg.docs[i].encryptedId == id
                             && r.reg.docs == reg.docs[..i] + reg.docs[i + 1..]
                             && r.unlinked == PresentPaths(reg.docs[i])
  {
    match Db.IndexOfEncrypted(reg.docs, id)
    case None => Deletion(reg, DocumentNotFound, [])
    case Some(i) =>
      DeleteMessagesDiffer();
      Deletion(Db.Registry(reg.docs[..i] + reg.docs[i + 1..], reg.nextId), DeletedSuccessfully, PresentPaths(reg.docs[i]))
  }

  /** Removing one row of a valid registry leaves a valid registry that
      holds every other row and no row with the removed encrypted id. */
  lemma RemoveRow(reg: Db.Registry, i: nat)
    requires Db.Valid(reg) && i < |reg.docs|
    ensures var ds := reg.docs[..i] + reg.docs[i + 1..];
            && Db.Valid(Db.Registry(ds, reg.nextId))
            && (forall j :: 0 <= j < |ds| ==> ds[j].encryptedId != reg.docs[i].encryptedId)
            && (forall k :: 0 <= k < |reg.docs| && k != i ==> reg.docs[k] in ds)
  {
    var ds := reg.docs[..i] + reg.docs[i + 1..];
    Db.RemoveAtKeepsValid(reg, i);
    Db.RemoveAtDropsEncrypted(reg, i);
    forall k | 0 <= k < |reg.docs| && k != i ensures reg.docs[k] in ds {
      assert reg.docs[k] == ds[if k < i then k else k - 1];
    }
  }

  /** After a delete the id is unknown, the registry is still valid, and
      every other row is still there. */
  lemma DeleteThenAbsent(reg: Db.Registry, id: string)
    requires Db.Valid(reg)
    ensures var r := DeleteDocumentByEncryptedId(reg, id);
            && Db.Valid(r.reg)
            && GetDocumentByEncryptedId(r.reg, id).Err?
            && forall k :: 0 <= k < |reg.docs| && reg.docs[k].encryptedId != id ==> reg.docs[k] in r.reg.docs
  {
    match Db.IndexOfEncrypted(reg.docs, id)
    case None =>
    case Some(i) =>
      RemoveRow(reg, i);
      assert DeleteDocumentByEncryptedId(reg, id).reg == Db.Registry(reg.docs[..i] + reg.docs[i + 1..], reg.nextId);
  }

  // ---------------------------------------------------------------------
  // Serving a file or a thumbnail

  datatype Served = Served(filePath: string, mimeType: string)

  /** The messages of the file lookup's error codes. */
  function FileMessage(code: int): string {
    if code == -1 then "File not found"
    else if code == -2 then "File not processed"
    else if code == -3 then "Server error while locating file"
    else "Unknown error"
  }

  /** The messages of the thumbnail lookup's error codes, as written:
      there is none for -1. */
  function ThumbMessageAsWritten(code: int): string {
    if code == -2 then "Thumbnail not processed"
    else if code == -3 then "Server error while locating thumbnail"
    else "Unknown error"
  }

  /** The thumbnail messages with the missing "not found" case. */
  function ThumbMessage(code: int): string {
    if code == -1 then "Thumbnail not found" else ThumbMessageAsWritten(code)
  }

  /** The texts one kind of lookup answers with. */
  datatype Messages = Messages(codes: int -> string, nullPath: string, inaccessible: string)

  const FileMessages: Messages := Messages(FileMessage, "File path is null or undefined", "File not accessible")
  const ThumbMessagesAsWritten: Messages :=
    Messages(ThumbMessageAsWritten, "Thumbnail path is null or undefined", "Thumbnail not accessible")
  const ThumbMessages: Messages :=
    Messages(ThumbMessage, "Thumbnail path is null or undefined", "Thumbnail not accessible")

  /** The shared shape of `getFileByEncryptedId` and
      `getThumbnailByEncryptedId`: a code becomes its message, an empty
      path and an inaccessible file are errors, and the content type
      falls back to `application/octet-stream`. */
  function Serve(res: Db.Resolution, m: Messages, accessible: string -> bool,
                 lookup: string -> Option<string>): (r: Result<Served, string>)
    ensures !res.Found? ==> r == Err(m.codes(Db.Sentinel(res)))
    ensures r.Ok? ==> res.Found? && res.path == Some(r.value.filePath) && |r.value.filePath| > 0
                      && accessible(r.value.filePath)
    ensures res.Found? && (res.path.None? || |res.path.value| == 0) ==> r == Err(m.nullPath)
    ensures res.Found? && res.path.Some? && |res.path.value| > 0 && !accessible(res.path.value) ==> r == Err(m.inaccessible)
    ensures res.Found? && res.path.Some? && |res.path.value| > 0 && accessible(res.path.value) ==>
              && r.Ok? && r.value.filePath == res.path.value
              && (lookup(res.path.value).Some? ==> r.value.mimeType == lookup(res.path.value).value)
              && (lookup(res.path.value).None? ==> r.value.mimeType == "application/octet-stream")
  {
    match res
    case Found(p) =>
      if p.None? || |p.value| == 0 then Err(m.nullPath)
      else if !accessible(p.value) then Err(m.inaccessible)
      else Ok(Served(p.value, if lookup(p.value).Some? then lookup(p.value).value else "application/octet-stream"))
    case _ => Err(m.codes(Db.Sentinel(res)))
  }

  /** `getFileByEncryptedId`: the stored document path of a processed row,
      if it is accessible; an unsafe id or a failing lookup is a server
      error and an unknown id is "File not found". */
  function GetFileByEncryptedId(reg: Db.Registry, id: string, lookupFails: bool,
                                accessible: string -> bool, lookup: string -> Option<string>): (r: Result<Served, string>)
    ensures r.Ok? ==> && accessible(r.value.filePath)
                      && exists i :: 0 <= i < |reg.docs| && reg.docs[i].encryptedId == id && reg.docs[i].isProcessed
                                     && reg.docs[i].documentPath == Some(r.value.filePath)
    ensures !Db.SafeId(id) || lookupFails ==> r == Err("Server error while locating file")
    ensures Db.SafeId(id) && !lookupFails && (forall i :: 0 <= i < |reg.docs| ==> reg.docs[i].encryptedId != id) ==>
              r == Err("File not found")
    ensures Db.Valid(reg) && Db.SafeId(id) && !lookupFails ==>
              forall i :: 0 <= i < |reg.docs| && reg.docs[i].encryptedId == id && reg.docs[i].isProcessed
                          && reg.docs[i].documentPath.Some? && |reg.docs[i].documentPath.value| > 0
                          && accessible(reg.docs[i].documentPath.value) ==>
                r.Ok? && r.value.filePath == reg.docs[i].documentPath.value
  {
    Serve(Db.GetFilePath(reg, JsString(id), lookupFails), FileMessages, accessible, lookup)
  }

  /** `getThumbnailByEncryptedId` as written: its message map has no entry
      for a missing row, which therefore gets "Unknown error". */
  function GetThumbnailByEncryptedIdAsWritten(reg: Db.Registry, id: string, lookupFails: bool,
                                              accessible: string -> bool, lookup: string -> Option<string>): (r: Result<Served, string>)
    ensures r.Ok? ==> && accessible(r.value.filePath)
                      && exists i :: 0 <= i < |reg.docs| && reg.docs[i].encryptedId == id && reg.docs[i].isProcessed
                                     && reg.docs[i].thumbPath == Some(r.value.filePath)
    ensures !Db.SafeId(id) || lookupFails ==> r == Err("Server error while locating thumbnail")
    ensures Db.SafeId(id) && !lookupFails && (forall i :: 0 <= i < |reg.docs| ==> reg.docs[i].encryptedId != id) ==>
              r == Err("Unknown error")
    ensures Db.Valid(reg) && Db.SafeId(id) && !lookupFails ==>
              forall i :: 0 <= i < |reg.docs| && reg.docs[i].encryptedId == id && reg.docs[i].isProcessed
                          && reg.docs[i].thumbPath.Some? && |reg.docs[i].thumbPath.value| > 0
                          && accessible(reg.docs[i].thumbPath.value) ==>
                r.Ok? && r.value.filePath == reg.docs[i].thumbPath.value
  {
    Serve(Db.GetThumbFilePath(reg, JsString(id), lookupFails), ThumbMessagesAsWritten, accessible, lookup)
  }

  /** `getThumbnailByEncryptedId` with the not-found message in place. */
  function GetThumbnailByEncryptedId(reg: Db.Registry, id: string, lookupFails: bool,
                                     accessible: string -> bool, lookup: string -> Option<string>): (r: Result<Served, string>)
    ensures r.Ok? ==> && accessible(r.value.filePath)
                      && exists i :: 0 <= i < |reg.docs| && reg.docs[i].encryptedId == id && reg.docs[i].isProcessed
                                     && reg.docs[i].thumbPath == Some(r.value.filePath)
    ensures !Db.SafeId(id) || lookupFails ==> r == Err("Server error while locating thumbnail")
    ensures Db.SafeId(id) && !lookupFails && (forall i :: 0 <= i < |reg.docs| ==> reg.docs[i].encryptedId != id) ==>
              r == Err("Thumbnail not found")
    ensures Db.Valid(reg) && Db.SafeId(id) && !lookupFails ==>
              forall i :: 0 <= i < |reg.docs| && reg.docs[i].encryptedId == id && reg.docs[i].isProcessed
                          && reg.docs[i].thumbPath.Some? && |reg.docs[i].thumbPath.value| > 0
                          && accessible(reg.docs[i].thumbPath.value) ==>
                r.Ok? && r.value.filePath == reg.docs[i].thumbPath.value
  {
    Serve(Db.GetThumbFilePath(reg, JsString(id), lookupFails), ThumbMessages, accessible, lookup)
  }

  /** The thumbnail route as written and with the missing message differ
      only for an unknown id. */
  lemma ThumbnailRoutesDifferOnlyWhenMissing(reg: Db.Registry, id: string, lookupFails: bool,
                                             accessible: string -> bool, lookup: string -> Option<string>)
    ensures var written := GetThumbnailByEncryptedIdAsWritten(reg, id, lookupFails, accessible, lookup);
            var fixed := GetThumbnailByEncryptedId(reg, id, lookupFails, accessible, lookup);
            written != fixed <==> Db.GetThumbFilePath(reg, JsString(id), lookupFails) == Db.NotFound
  {
  }

  /** A served file is the stored path of a processed document with that
      encrypted id. */
  lemma ServedFileIsStoredPath(reg: Db.Registry, id: string, lookupFails: bool,
                               accessible: string -> bool, lookup: string -> Option<string>)
    requires GetFileByEncryptedId(reg, id, lookupFails, accessible, lookup).Ok?
    ensures var s := GetFileByEncryptedId(reg, id, lookupFails, accessible, lookup).value;
            exists i :: 0 <= i < |reg.docs| && reg.docs[i].encryptedId == id && reg.docs[i].isProcessed
                        && reg.docs[i].documentPath == Some(s.filePath)
  {
  }

  /** Each lookup code of the file route has its own message. */
  lemma FileErrorsAreNamed(reg: Db.Registry, id: string, lookupFails: bool,
                           accessible: string -> bool, lookup: string -> Option<string>)
    ensures var res := Db.GetFilePath(reg, JsString(id), lookupFails);
            var r := GetFileByEncryptedId(reg, id, lookupFails, accessible, lookup);
            && (res == Db.NotFound ==> r == Err("File not found"))
            && (res == Db.NotProcessed ==> r == Err("File not processed"))
            && (res == Db.ResolutionError ==> r == Err("Server error while locating file"))
  {
  }

  /** As written, a thumbnail request for an unknown id gets the generic
      "Unknown error" where the file route says "File not found". */
  lemma ThumbnailMissingIsUnknown(reg: Db.Registry, id: string,
                                  accessible: string -> bool, lookup: string -> Option<string>)
    requires Db.SafeId(id)
    requires forall i :: 0 <= i < |reg.docs| ==> reg.docs[i].encryptedId != id
    ensures GetThumbnailByEncryptedIdAsWritten(reg, id, false, accessible, lookup) == Err("Unknown error")
    ensures GetFileByEncryptedId(reg, id, false, accessible, lookup) == Err("File not found")
  {
  }

  /** With the missing entry, every lookup code of the thumbnail route has
      its own message, and an unknown id is reported as not found. */
  lemma ThumbnailErrorsAreNamed(reg: Db.Registry, id: string, lookupFails: bool,
                                accessible: string -> bool, lookup: string -> Option<string>)
    ensures var res := Db.GetThumbFilePath(reg, JsString(id), lookupFails);
            var r := GetThumbnailByEncryptedId(reg, id, lookupFails, accessible, lookup);
            && (res == Db.NotFound ==> r == Err("Thumbnail not found"))
            && (res == Db.NotProcessed ==> r == Err("Thumbnail not processed"))
            && (res == Db.ResolutionError ==> r == Err("Server error while locating thumbnail"))
            && (r.Err? ==> r.error != "Unknown error")
  {
  }
}

=== FILE: file_service.dfy ===
/** The helpers of the file service that decide, name and route an upload:
    best-effort deletion with retries, the processing type of a file, the
    sanitised storage name, the per-type size ceilings, job ids and the
    queue a job lives in.  Clocks, random bytes and the outcome of each
    file-system call are parameters. */
module FileService {
  import opened Util
  import opened JsValues
  import opened MagicNumber

  // ---------------------------------------------------------------------
  // safeDeleteFile

  /** What one `unlink` attempt does. */
  datatype UnlinkOutcome = Unlinked | Missing | Failed

  /** Attempt `i` (from 0) of the sequence the file system will produce;
      attempts past its end fail. */
  function OutcomeAt(outcomes: seq<UnlinkOutcome>, i: nat): UnlinkOutcome {
    if i < |outcomes| then outcomes[i] else Failed
  }

  /** `safeDeleteFile(filePath, maxRetries)`: returns the number of unlink
      attempts made and the waits, in milliseconds, between them.  It never
      throws: the last failure is only logged. */
  method SafeDeleteFile(maxRetries: int, outcomes: seq<UnlinkOutcome>) returns (attempts: nat, waits: seq<nat>)
    ensures attempts <= if maxRetries < 0 then 0 else maxRetries
    ensures forall j :: 0 <= j < attempts - 1 ==> OutcomeAt(outcomes, j) == Failed
    ensures attempts < maxRetries ==> attempts > 0 && OutcomeAt(outcomes, attempts - 1) != Failed
    ensures |waits| == if attempts == 0 then 0 else attempts - 1
    ensures forall j :: 0 <= j < |waits| ==> waits[j] == 1000 * (j + 1)
  {
    attempts, waits := 0, [];
    var attempt: nat := 1;
    while attempt <= maxRetries
      invariant 1 <= attempt && (attempt == 1 || attempt <= maxRetries)
      invariant attempts == attempt - 1
      invariant forall j :: 0 <= j < attempts ==> OutcomeAt(outcomes, j) == Failed
      invariant |waits| == attempts
      invariant forall j :: 0 <= j < |waits| ==> waits[j] == 1000 * (j + 1)
      decreases maxRetries - attempt
    {
      attempts := attempt;
      if OutcomeAt(outcomes, attempt - 1) != Failed {
        return;
      }
      if attempt == maxRetries {
        return;
      }
      waits := waits + [attempt * 1000];
      attempt := attempt + 1;
    }
  }

  // ---------------------------------------------------------------------
  // getSecureFileType

  /** The processing type of a category: 1 image, 2 audio, 3 pdf,
      4 word document. */
  function TypeNumber(c: Category): (t: int)
    requires c != Unknown
    ensures 1 <= t <= 4 && t == -CategoryId(c)
  {
    match c
    case Image => 1
    case Audio => 2
    case Pdf => 3
    case Document => 4
  }

  function Abs(x: int): nat {
    if x < 0 then -x else x
  }

  /** No detection result, or one whose category id is 0 (unknown). */
  predicate Undetected(categoryId: Option<int>) {
    categoryId.None? || categoryId.value == 0
  }

  /** `getSecureFileType`: a nonzero detected category id wins; otherwise
      the content type decides, and anything unrecognised is an image. */
  function GetSecureFileType(categoryId: Option<int>, mimetype: string): (t: int)
    ensures categoryId.Some? && categoryId.value != 0 ==> t == Abs(categoryId.value)
    ensures (categoryId.None? || categoryId.value == 0) ==> 1 <= t <= 4
    ensures Undetected(categoryId) && StartsWith(mimetype, "image/") ==> t == 1
    ensures (Undetected(categoryId) && !StartsWith(mimetype, "image/")
             && StartsWith(mimetype, "audio/")) ==> t == 2
    ensures (Undetected(categoryId) && !StartsWith(mimetype, "image/") && !StartsWith(mimetype, "audio/")
             && mimetype == "application/pdf") ==> t == 3
    ensures (Undetected(categoryId) && !StartsWith(mimetype, "image/") && !StartsWith(mimetype, "audio/")
             && mimetype != "application/pdf"
             && (Contains(mimetype, "word") || mimetype == "application/msword" || mimetype == DocxMime)) ==> t == 4
    ensures (Undetected(categoryId) && !StartsWith(mimetype, "image/") && !StartsWith(mimetype, "audio/")
             && mimetype != "application/pdf"
             && !Contains(mimetype, "word") && mimetype != "application/msword" && mimetype != DocxMime) ==> t == 1
  {
    if categoryId.Some? && categoryId.value != 0 then Abs(categoryId.value)
    else if |mimetype| > 0 && StartsWith(mimetype, "image/") then 1
    else if |mimetype| > 0 && StartsWith(mimetype, "audio/") then 2
    else if |mimetype| > 0 && mimetype == "application/pdf" then 3
    else if |mimetype| > 0 && (Contains(mimetype, "word") || mimetype == "application/msword" || mimetype == DocxMime) then 4
    else 1
  }

  /** A detection that found a category decides the type, whatever the
      client claimed. */
  lemma SecureTypeFollowsDetection(buffer: seq<Byte>, filename: Option<string>, mime: Option<string>, claimed: string)
    requires DetectFileType(buffer, filename, mime).detectedCategory != Unknown
    ensures var d := DetectFileType(buffer, filename, mime);
            GetSecureFileType(Some(d.categoryId), claimed) == TypeNumber(d.detectedCategory)
  {
    DetectFacts(buffer, filename, mime);
  }

  /** `s` differs from `p` at position `i`, so it does not start with `p`. */
  lemma DiffersAt(s: string, p: string, i: nat)
    requires i < |p| && i < |s| && s[i] != p[i]
    ensures !StartsWith(s, p)
  {
    if |p| <= |s| {
      assert s[..|p|][i] == s[i];
    }
  }

  /** Without a detection result, every content type the detector accepts
      as a claim for a category leads to that category's type number. */
  lemma FallbackAgreesWithMimeMap(m: string, c: Category)
    requires c != Unknown && m in MimeTypeMap(c)
    ensures GetSecureFileType(None, m) == TypeNumber(c)
  {
    if c == Document || c == Pdf {
      assert m == "application/msword" || m == DocxMime || m == "application/pdf";
      DiffersAt(m, "image/", 0);
      DiffersAt(m, "audio/", 1);
    } else if c == Audio {
      assert m[0] == 'a';
      DiffersAt(m, "image/", 0);
      assert m[..6] == "audio/";
    } else {
      assert m[..6] == "image/";
    }
  }

  /** Without a detection result, the content type the detector would have
      reported leads to the same type as the detection would: the fallback
      agrees with the table on every row. */
  lemma FallbackAgreesWithTable(k: nat)
    requires k < |MagicSignatures|
    ensures MagicSignatures[k].category != Unknown
    ensures GetSecureFileType(None, MagicSignatures[k].mimeType) == TypeNumber(MagicSignatures[k].category)
  {
    TableIsConsistent();
    FallbackAgreesWithMimeMap(MagicSignatures[k].mimeType, MagicSignatures[k].category);
  }


  /** The two exact Word content types in the fallback are already caught by
      the test for `word`. */
  lemma WordTestSubsumesExactTypes()
    ensures Contains("application/msword", "word")
    ensures Contains(DocxMime, "word")
  {
    ContainsAt("application/msword", "word", 14);
    var front: string := "application/" + "vnd.openxmlformats-officedocument.";
    assert DocxMime == front + "word" + "processingml.document";
    assert DocxMime[|front|..|front| + 4] == "word";
    ContainsAt(DocxMime, "word", |front|);
  }

  // ---------------------------------------------------------------------
  // Names: path.extname, path.basename, the sanitised name

  function StripTrailingSlashes(s: string): (r: string)
    ensures |r| <= |s| && r == s[..|r|]
    ensures |r| > 0 ==> r[|r| - 1] != '/'
  {
    if |s| > 0 && s[|s| - 1] == '/' then StripTrailingSlashes(s[..|s| - 1]) else s
  }

  /** The last path component, as `path.basename` without a suffix. */
  function LastComponent(s: string): (r: string)
    ensures '/' !in r
  {
    AfterLast(StripTrailingSlashes(s), '/')
  }

  /** Position of the last occurrence of `c`. */
  function LastIndex(s: string, c: char): (r: Option<nat>)
    ensures r.Some? ==> r.value < |s| && s[r.value] == c && c !in s[r.value + 1..]
    ensures r.None? <==> c !in s
  {
    if |s| == 0 then None
    else if s[|s| - 1] == c then Some(|s| - 1)
    else
      var r := LastIndex(s[..|s| - 1], c);
      assert r.Some? ==> s[r.value + 1..] == s[..|s| - 1][r.value + 1..] + [s[|s| - 1]];
      assert r.None? ==> s == s[..|s| - 1] + [s[|s| - 1]];
      r
  }

  /** `path.extname` (POSIX): from the last dot of the last component to its
      end; empty when there is no dot, when the dot starts the component,
      and for `..`. */
  function ExtName(p: string): (e: string)
    ensures '/' !in e
    ensures |e| > 0 ==> e[0] == '.'
  {
    var b := LastComponent(p);
    match LastIndex(b, '.')
    case None => ""
    case Some(d) => if d == 0 || b == ".." then "" else b[d..]
  }

  /** `path.basename(p, path.extname(p))`: the last component without its
      extension. */
  function Stem(p: string): (s: string)
    ensures '/' !in s
  {
    var b := LastComponent(p);
    var e := ExtName(p);
    if |e| == 0 then b
    else
      var d := LastIndex(b, '.').value;
      b[..d]
  }

  /** `.slice(0, 50)` */
  function Take(s: string, n: nat): (r: string)
    ensures |r| <= n && |r| <= |s| && r == s[..|r|]
    ensures |s| <= n ==> r == s
    ensures |s| > n ==> |r| == n
  {
    if |s| <= n then s else s[..n]
  }

  const MaxStem: nat := 50

  /** The extension used for storage: the detected one when detection gave
      a non-empty one, else the extension of the original name. */
  function DetectedExtension(detected: Option<string>, originalname: string): (e: string)
    ensures detected.Some? && |detected.value| > 0 ==> e == detected.value
    ensures detected.None? || |detected.value| == 0 ==> e == ExtName(originalname)
  {
    if detected.Some? && |detected.value| > 0 then detected.value else ExtName(originalname)
  }

  /** The sanitised name: the stem with white-space runs turned into `_`,
      cut to fifty characters, then a dot and the extension with its first
      dot removed. */
  function SanitizedName(originalname: string, extension: string): (r: string)
    ensures var stem := Take(CollapseWhitespace(Stem(originalname)), MaxStem);
            && |stem| <= MaxStem && NoWhitespace(stem) && '/' !in stem
            && r == stem + "." + RemoveFirst(extension, '.')
  {
    CollapseKeepsSlashFree(Stem(originalname));
    Take(CollapseWhitespace(Stem(originalname)), MaxStem) + "." + RemoveFirst(extension, '.')
  }

  /** The stored name: the upload time in milliseconds, a dash and the
      sanitised name. */
  function StoredName(now: nat, sanitized: string): (r: string)
    ensures SplitDash(r) == Some((Decimal(now), sanitized))
    ensures DigitsValue(SplitDash(r).value.0) == Some(now)
  {
    SplitAfterDigits(now, sanitized);
    DecimalDigits(now);
    Decimal(now) + "-" + sanitized
  }

  /** An extension as the detector reports them: letters and digits only. */
  predicate PlainExtension(e: string) {
    |e| > 0 && AllAlnum(e)
  }

  /** The stem part of a sanitised name is at most fifty characters long
      and holds neither white space nor a slash; with a plain extension the
      whole stored name has no slash, so the file lands in its directory. */
  lemma SanitizedNameShape(originalname: string, extension: string, now: nat)
    requires PlainExtension(extension)
    ensures var stem := Take(CollapseWhitespace(Stem(originalname)), MaxStem);
            && |stem| <= MaxStem && NoWhitespace(stem) && '/' !in stem
            && SanitizedName(originalname, extension) == stem + "." + extension
            && '/' !in StoredName(now, SanitizedName(originalname, extension))
  {
    var s := Stem(originalname);
    var c := CollapseWhitespace(s);
    CollapseKeepsSlashFree(s);
    var stem := Take(c, MaxStem);
    assert '/' !in stem by {
      forall i | 0 <= i < |stem| ensures stem[i] != '/' {
        assert stem[i] == c[i];
      }
    }
    assert '.' !in extension by {
      forall i | 0 <= i < |extension| ensures extension[i] != '.' {
        assert IsAlnum(extension[i]);
      }
    }
    assert '/' !in extension by {
      forall i | 0 <= i < |extension| ensures extension[i] != '/' {
        assert IsAlnum(extension[i]);
      }
    }
    var d := Decimal(now);
    assert '/' !in d by {
      forall i | 0 <= i < |d| ensures d[i] != '/' {
        assert IsDigit(d[i]);
      }
    }
  }

  lemma {:induction false} CollapseKeepsSlashFree(s: string)
    requires '/' !in s
    ensures '/' !in CollapseWhitespace(s)
    decreases |s|
  {
    if |s| > 0 {
      if IsWhitespace(s[0]) {
        var t := TrimStart(s);
        assert '/' !in t by {
          forall i | 0 <= i < |t| ensures t[i] != '/' {
            assert t[i] == s[|s| - |t| + i];
          }
        }
        CollapseKeepsSlashFree(t);
      } else {
        assert '/' !in s[1..] by {
          forall i | 0 <= i < |s| - 1 ensures s[1..][i] != '/' {
            assert s[1..][i] == s[i + 1];
          }
        }
        CollapseKeepsSlashFree(s[1..]);
      }
    }
  }

  /** Letters and digits contain neither a dot nor a slash. */
  lemma PlainHasNoDot(e: string)
    requires AllAlnum(e)
    ensures '.' !in e && '/' !in e
  {
    forall i | 0 <= i < |e| ensures e[i] != '.' && e[i] != '/' {
      assert IsAlnum(e[i]);
    }
  }

  /** A name without a slash is its own last component. */
  lemma LastComponentOfPlain(n: string)
    requires |n| > 0 && '/' !in n
    ensures LastComponent(n) == n
  {
    assert n[|n| - 1] != '/';
    assert StripTrailingSlashes(n) == n;
    var b := AfterLast(n, '/');
  }

  /** The last dot of `head.ext` is the one before `ext` when `ext` has none. */
  lemma {:induction false} LastDotOfJoin(head: string, extension: string)
    requires '.' !in extension
    ensures LastIndex(head + "." + extension, '.') == Some(|head|)
    decreases |extension|
  {
    var n := head + "." + extension;
    if |extension| == 0 {
      assert n[|n| - 1] == '.';
    } else {
      var e := extension[..|extension| - 1];
      assert n[..|n| - 1] == head + "." + e;
      assert n[|n| - 1] == extension[|extension| - 1];
      LastDotOfJoin(head, e);
    }
  }

  /** A slash-free name ending in `.ext`, with a plain `ext`, has extension
      `.ext` unless the dot is its first character. */
  lemma ExtNameOfJoin(head: string, extension: string)
    requires |head| > 0 && head[0] != '.' && '/' !in head
    requires PlainExtension(extension)
    ensures ExtName(head + "." + extension) == "." + extension
  {
    PlainHasNoDot(extension);
    var n := head + "." + extension;
    assert '/' !in n;
    assert n[0] == head[0];
    LastComponentOfPlain(n);
    LastDotOfJoin(head, extension);
    assert n[|head|..] == "." + extension;
  }

  /** A decimal rendering holds no dash, slash or dot. */
  lemma DecimalHasNoMarks(n: nat)
    ensures '-' !in Decimal(n) && '/' !in Decimal(n) && '.' !in Decimal(n)
  {
    var d := Decimal(n);
    forall i | 0 <= i < |d| ensures d[i] != '-' && d[i] != '/' && d[i] != '.' {
      assert IsDigit(d[i]);
    }
  }

  /** A stored name built from a slash-free stem and a plain extension
      ends in that extension. */
  lemma StoredJoinExtension(now: nat, stem: string, extension: string)
    requires '/' !in stem && PlainExtension(extension)
    ensures ExtName(StoredName(now, stem + "." + extension)) == "." + extension
  {
    var d := Decimal(now);
    DecimalHasNoMarks(now);
    var head := d + "-" + stem;
    assert '/' !in head by {
      assert forall i :: 0 <= i < |d| ==> head[i] == d[i];
      assert forall i :: |d| < i < |head| ==> head[i] == stem[i - |d| - 1];
    }
    assert head[0] != '.' by {
      assert head[0] == d[0] && IsDigit(d[0]);
    }
    var name := StoredName(now, stem + "." + extension);
    assert name == head + "." + extension;
    ExtNameOfJoin(head, extension);
  }

  /** Reading the extension back from the stored name gives the detected
      extension: whatever the client called the file, it is stored under
      the type its bytes show. */
  lemma StoredNameKeepsExtension(originalname: string, extension: string, now: nat)
    requires PlainExtension(extension)
    ensures ExtName(StoredName(now, SanitizedName(originalname, extension))) == "." + extension
  {
    SanitizedNameShape(originalname, extension, now);
    var stem := Take(CollapseWhitespace(Stem(originalname)), MaxStem);
    StoredJoinExtension(now, stem, extension);
  }

  // ---------------------------------------------------------------------
  // Size ceilings

  /** The size settings as the environment provides them. */
  datatype Limits = Limits(imageMax: Option<string>, audioMax: Option<string>,
                           pdfMax: Option<string>, documentMax: Option<string>)

  /** `process.env.X || 'default'`: an unset or empty setting falls back. */
  function OrDefault(v: Option<string>, d: string): string {
    if v.Some? && |v.value| > 0 then v.value else d
  }

  /** The ceiling, in MB, for a processing type: `parseInt` of the image
      setting (NaN when unset), `parseFloat` of the others with defaults
      50, 50 and 25. */
  function Ceiling(fileType: int, env: Limits): (c: Number)
    requires 1 <= fileType <= 4
    ensures fileType == 1 && env.imageMax.None? ==> c == NaN
    ensures fileType == 1 && env.imageMax.Some? && ParseInt(env.imageMax.value).None? ==> c == NaN
    ensures fileType == 2 && (env.audioMax.None? || env.audioMax == Some("")) ==> c == Fin(50.0)
    ensures fileType == 3 && (env.pdfMax.None? || env.pdfMax == Some("")) ==> c == Fin(50.0)
    ensures fileType == 4 && (env.documentMax.None? || env.documentMax == Some("")) ==> c == Fin(25.0)
  {
    if fileType == 1 then
      (if env.imageMax.None? then NaN
       else match ParseInt(env.imageMax.value)
         case None => NaN
         case Some(k) => Fin(k as real))
    else if fileType == 2 then Fifty(); SettingOr(env.audioMax, "50", 50.0)
    else if fileType == 3 then Fifty(); SettingOr(env.pdfMax, "50", 50.0)
    else TwentyFive(); SettingOr(env.documentMax, "25", 25.0)
  }

  /** `parseFloat(process.env.X || d)`, where `d` reads as `dv`. */
  function SettingOr(v: Option<string>, d: string, dv: real): (c: Number)
    requires ParseFloat(d) == Fin(dv)
    ensures v.None? || v == Some("") ==> c == Fin(dv)
    ensures v.Some? && |v.value| > 0 ==> c == ParseFloat(v.value)
  {
    ParseFloat(OrDefault(v, d))
  }

  /** `sizeInMB > maxSize` */
  function TooLarge(sizeMB: real, ceiling: Number): (r: bool)
    ensures ceiling.Fin? ==> (r <==> sizeMB > ceiling.value)
    ensures ceiling.NaN? || ceiling.PosInf? ==> !r
  {
    match ceiling
    case Fin(c) => sizeMB > c
    case NegInf => true
    case PosInf => false
    case NaN => false
  }

  const NoLimits: Limits := Limits(None, None, None, None)

  lemma Fifty()
    ensures ParseFloat("50") == Fin(50.0)
  {
    assert Decimal(50) == "50" by {
      assert Decimal(5) == "5";
    }
    ParseFloatDecimal(50);
  }

  lemma TwentyFive()
    ensures ParseFloat("25") == Fin(25.0)
  {
    assert Decimal(25) == "25" by {
      assert Decimal(2) == "2";
    }
    ParseFloatDecimal(25);
  }

  /** With nothing configured, audio and pdf stop above 50 MB and documents
      above 25 MB. */
  lemma DefaultCeilings()
    ensures Ceiling(2, NoLimits) == Fin(50.0)
    ensures Ceiling(3, NoLimits) == Fin(50.0)
    ensures Ceiling(4, NoLimits) == Fin(25.0)
  {
    assert Ceiling(2, NoLimits) == ParseFloat("50");
    assert Ceiling(3, NoLimits) == ParseFloat("50");
    assert Ceiling(4, NoLimits) == ParseFloat("25");
    Fifty();
    TwentyFive();
  }

  /** With no image setting the ceiling is NaN and no image is ever too
      large: a comparison with NaN is false. */
  lemma UnsetImageCeiling(sizeMB: real)
    ensures Ceiling(1, NoLimits) == NaN
    ensures !TooLarge(sizeMB, Ceiling(1, NoLimits))
  {
  }

  /** A size ceiling written as a whole number of megabytes is honoured:
      a file is too large exactly when it is bigger. */
  lemma ConfiguredCeiling(fileType: int, mb: nat, sizeMB: real)
    requires 1 <= fileType <= 4
    ensures var env := Limits(Some(Decimal(mb)), Some(Decimal(mb)), Some(Decimal(mb)), Some(Decimal(mb)));
            Ceiling(fileType, env) == Fin(mb as real)
  {
    var env := Limits(Some(Decimal(mb)), Some(Decimal(mb)), Some(Decimal(mb)), Some(Decimal(mb)));
    if fileType == 1 {
      ParseIntDecimal(mb);
    } else {
      assert OrDefault(Some(Decimal(mb)), "50") == Decimal(mb);
      assert OrDefault(Some(Decimal(mb)), "25") == Decimal(mb);
      ParseFloatDecimal(mb);
    }
  }

  // ---------------------------------------------------------------------
  // Job ids and queues

  /** `generateJobId(documentId, fileType)`: `type-document-time`. */
  function GenerateJobId(documentId: nat, fileType: nat, now: nat): (id: string)
    ensures ParseJobId(id) == Some((fileType, documentId, now))
  {
    var t, d, n := Decimal(fileType), Decimal(documentId), Decimal(now);
    SplitAfterDigits(fileType, d + "-" + n);
    SplitAfterDigits(documentId, n);
    DecimalDigits(fileType);
    DecimalDigits(documentId);
    DecimalDigits(now);
    t + "-" + (d + "-" + n)
  }

  /** Position of the first occurrence of `c`. */
  function FirstIndex(s: string, c: char): (r: Option<nat>)
    ensures r.Some? ==> r.value < |s| && s[r.value] == c && c !in s[..r.value]
    ensures r.None? <==> c !in s
  {
    if |s| == 0 then None
    else if s[0] == c then Some(0)
    else
      var r := FirstIndex(s[1..], c);
      if r.None? then None
      else
        assert s[..r.value + 1] == [s[0]] + s[1..][..r.value];
        Some(r.value + 1)
  }

  /** A run of decimal digits read as a number. */
  function DigitsValue(s: string): Option<nat> {
    if |s| > 0 && AllDigits(s) then
      assert AllRadixDigits(s, 10) by {
        forall i | 0 <= i < |s| ensures IsRadixDigit(s[i], 10) {
          assert IsDigit(s[i]);
        }
      }
      Some(RadixValue(s, 10))
    else None
  }

  /** The text before and after the first dash. */
  function SplitDash(s: string): Option<(string, string)> {
    match FirstIndex(s, '-')
    case None => None
    case Some(i) => Some((s[..i], s[i + 1..]))
  }

  /** Reads a job id back into its type, document and time. */
  function ParseJobId(s: string): (r: Option<(nat, nat, nat)>)
    ensures r.Some? ==>
              exists i, j :: && 0 <= i < j < |s| && s[i] == '-' && s[j] == '-'
                             && '-' !in s[..i] && '-' !in s[i + 1..j]
                             && DigitsValue(s[..i]) == Some(r.value.0)
                             && DigitsValue(s[i + 1..j]) == Some(r.value.1)
                             && DigitsValue(s[j + 1..]) == Some(r.value.2)
  {
    match SplitDash(s)
    case None => None
    case Some((a, rest)) =>
      match SplitDash(rest)
      case None => None
      case Some((b, c)) =>
        match (DigitsValue(a), DigitsValue(b), DigitsValue(c))
        case (Some(t), Some(d), Some(n)) =>
          var i := FirstIndex(s, '-').value;
          var k := FirstIndex(rest, '-').value;
          assert rest == s[i + 1..];
          assert s[i + 1..][..k] == s[i + 1..i + 1 + k];
          assert s[i + 1..][k + 1..] == s[i + 1 + k + 1..];
          assert s[i + 1 + k] == rest[k];
          Some((t, d, n))
        case _ => None
  }

  lemma DecimalDigits(n: nat)
    ensures DigitsValue(Decimal(n)) == Some(n)
  {
    DecimalValue(n);
  }

  lemma FirstDashAfterDigits(n: nat, rest: string)
    ensures FirstIndex(Decimal(n) + "-" + rest, '-') == Some(|Decimal(n)|)
  {
    var d := Decimal(n);
    var s := d + "-" + rest;
    DecimalHasNoMarks(n);
    assert s[|d|] == '-';
    assert forall j :: 0 <= j < |d| ==> s[j] == d[j];
    assert forall j :: 0 <= j < |d| ==> s[j] != '-';
    assert forall j :: |d| < j <= |s| ==> s[..j][|d|] == '-';
  }

  lemma SplitAfterDigits(n: nat, rest: string)
    ensures SplitDash(Decimal(n) + "-" + rest) == Some((Decimal(n), rest))
  {
    var d := Decimal(n);
    var s := d + "-" + rest;
    FirstDashAfterDigits(n, rest);
    assert s[..|d|] == d;
    assert s[|d| + 1..] == rest;
  }

  /** Job ids can be read back: the type, the document and the time are
      recovered exactly. */
  lemma JobIdRoundTrip(documentId: nat, fileType: nat, now: nat)
    ensures ParseJobId(GenerateJobId(documentId, fileType, now)) == Some((fileType, documentId, now))
  {
    var t, d, n := Decimal(fileType), Decimal(documentId), Decimal(now);
    assert GenerateJobId(documentId, fileType, now) == t + "-" + (d + "-" + n);
    SplitAfterDigits(fileType, d + "-" + n);
    SplitAfterDigits(documentId, n);
    DecimalDigits(fileType);
    DecimalDigits(documentId);
    DecimalDigits(now);
  }

  datatype Queue = ImageQueue | AudioQueue | PdfQueue | DocumentQueue

  /** The queue the dispatcher adds a job of a processing type to; other
      types are unsupported. */
  function DispatchQueue(fileType: int): (q: Option<Queue>)
    ensures q.Some? <==> 1 <= fileType <= 4
  {
    if fileType == 1 then Some(ImageQueue)
    else if fileType == 2 then Some(AudioQueue)
    else if fileType == 3 then Some(PdfQueue)
    else if fileType == 4 then Some(DocumentQueue)
    else None
  }

  /** The queue `getJobStatus` looks in for the type given as text;
      anything but `1`..`4` means the image queue. */
  function StatusQueue(fileType: string): (q: Queue)
    ensures fileType !in {"1", "2", "3", "4"} ==> q == ImageQueue
  {
    if fileType == "1" then ImageQueue
    else if fileType == "2" then AudioQueue
    else if fileType == "3" then PdfQueue
    else if fileType == "4" then DocumentQueue
    else ImageQueue
  }

  /** What a status poll reports about a job. */
  datatype JobInfo = JobInfo(id: string, name: string, state: string, progress: int)

  /** `getJobStatus(jobId, fileType)`: look the job up in the chosen queue;
      a missing job throws `Job not found`. */
  function GetJobStatus(jobs: map<(Queue, string), JobInfo>, jobId: string, fileType: string): (r: Result<JobInfo, string>)
    ensures r.Ok? <==> (StatusQueue(fileType), jobId) in jobs
    ensures r.Err? ==> r.error == "Job not found"
  {
    if (StatusQueue(fileType), jobId) in jobs then Ok(jobs[(StatusQueue(fileType), jobId)]) else Err("Job not found")
  }

  /** The text of a supported type selects the queue that type is
      dispatched to. */
  lemma StatusOfDispatched(fileType: int)
    requires 1 <= fileType <= 4
    ensures StatusQueue(Decimal(fileType)) == DispatchQueue(fileType).value
  {
    assert Decimal(fileType) == [DigitChar(fileType)];
  }

  /** Polling with the type the job was dispatched under finds it in the
      queue it was added to. */
  lemma PollFindsDispatchedJob(jobs: map<(Queue, string), JobInfo>, fileType: nat, jobId: string)
    requires 1 <= fileType <= 4
    requires (DispatchQueue(fileType).value, jobId) in jobs
    ensures StatusQueue(Decimal(fileType)) == DispatchQueue(fileType).value
    ensures GetJobStatus(jobs, jobId, Decimal(fileType)) == Ok(jobs[(DispatchQueue(fileType).value, jobId)])
  {
    StatusOfDispatched(fileType);
  }
}

=== FILE: file_structure.dfy ===
/** The shard allocator: uploads live five directory levels below `uploads`,
    named by the five hashes of a single container record.  Each call walks
    from the deepest level up, replacing the name of every full level by a
    fresh one, persists each replacement, and makes sure the resulting path
    exists.

    The record is the row with id 1 of the container table, the cache is the
    cached copy of it, and the file system is a map from a path below
    `uploads` to the number of entries in that directory. */
module FileStructure {
  import opened Util
  import opened Crypto

  const Levels: nat := 5
  const HashLength: nat := 6

  /** The container record: `Layer1_Hash` .. `Layer5_Hash` and `fileCount`. */
  datatype FileContainer = FileContainer(hashes: seq<string>, fileCount: nat)

  /** Directories below `uploads`, each with its number of entries.  A path
      in `unreadable` exists but cannot be listed. */
  datatype FileSystem = FileSystem(dirs: map<seq<string>, nat>, unreadable: set<seq<string>>)

  /** Everything the allocator reads and writes. */
  datatype Store = Store(cache: Option<FileContainer>, record: Option<FileContainer>, fs: FileSystem)

  datatype AllocError =
    | RandomnessExhausted  // the random source ran out before a free name came up
    | RecordMissing        // an update addressed a record that does not exist

  predicate WellFormed(c: FileContainer) {
    |c.hashes| == Levels
  }

  /** `getTotalItemCount`: the number of entries, or nothing when the
      directory is missing or cannot be read. */
  function ItemCount(fs: FileSystem, path: seq<string>): (r: Option<nat>)
    ensures r.Some? <==> path in fs.dirs && path !in fs.unreadable
  {
    if path in fs.dirs && path !in fs.unreadable then Some(fs.dirs[path]) else None
  }

  /** `itemCount === null || itemCount < MAX_ITEMS_PER_LAYER` fails.  With
      the limit unset the comparison is always false, so every readable
      directory counts as full. */
  predicate IsFull(count: Option<nat>, limit: Option<nat>) {
    count.Some? && !(limit.Some? && count.value < limit.value)
  }

  /** A six-character name drawn from six random bytes. */
  function Hash6(random: seq<Byte>): (h: string)
    requires |random| >= HashLength
    ensures |h| == HashLength && AllAlnum(h)
  {
    TokenSpec(random[..HashLength]);
    Token(random[..HashLength])
  }

  /** The `j`-th name the random source offers. */
  function Candidate(random: seq<Byte>, j: nat): (h: string)
    requires HashLength * (j + 1) <= |random|
    ensures |h| == HashLength && AllAlnum(h)
  {
    Hash6(random[HashLength * j..])
  }

  /** Draw `n` (counting from 1) is the first whose name is free under `prefix`. */
  ghost predicate FirstFree(fs: FileSystem, prefix: seq<string>, random: seq<Byte>, name: string, n: nat) {
    && n >= 1 && HashLength * n <= |random|
    && name == Candidate(random, n - 1)
    && prefix + [name] !in fs.dirs
    && forall j :: 0 <= j < n - 1 ==> prefix + [Candidate(random, j)] in fs.dirs
  }

  /** Every name the random source offers is taken under `prefix`. */
  ghost predicate AllTaken(fs: FileSystem, prefix: seq<string>, random: seq<Byte>) {
    forall j :: 0 <= j && HashLength * (j + 1) <= |random| ==> prefix + [Candidate(random, j)] in fs.dirs
  }

  /** `generateUniqueHash`: draw names until one is not an existing
      directory under `prefix`.  Returns the name and the number of draws. */
  method GenerateUniqueHash(fs: FileSystem, prefix: seq<string>, random: seq<Byte>)
    returns (r: Result<(string, nat), AllocError>)
    ensures r.Ok? ==> FirstFree(fs, prefix, random, r.value.0, r.value.1)
    ensures r.Ok? ==> |r.value.0| == HashLength && AllAlnum(r.value.0) && prefix + [r.value.0] !in fs.dirs
    ensures r.Ok? ==> HashLength * r.value.1 <= |random|
    ensures r.Err? ==> r.error == RandomnessExhausted && AllTaken(fs, prefix, random)
  {
    var n: nat := 0;
    while HashLength * (n + 1) <= |random|
      invariant HashLength * n <= |random|
      invariant forall j :: 0 <= j < n ==> prefix + [Candidate(random, j)] in fs.dirs
      decreases |random| - HashLength * n
    {
      var name := Candidate(random, n);
      if prefix + [name] !in fs.dirs {
        return Ok((name, n + 1));
      }
      n := n + 1;
    }
    forall j | 0 <= j && HashLength * (j + 1) <= |random|
      ensures prefix + [Candidate(random, j)] in fs.dirs
    {
      assert j < n;
    }
    assert AllTaken(fs, prefix, random);
    return Err(RandomnessExhausted);
  }

  /** `prisma.fileContainer.update` of one layer of the record with id 1. */
  function UpdateLayer(record: Option<FileContainer>, level: nat, h: string): (r: Result<FileContainer, AllocError>)
    requires record.Some? ==> WellFormed(record.value)
    requires level < Levels
    ensures record.None? <==> r.Err?
    ensures r.Ok? ==> r.value == record.value.(hashes := record.value.hashes[level := h])
  {
    if record.None? then Err(RecordMissing)
    else Ok(record.value.(hashes := record.value.hashes[level := h]))
  }

  /** Level `j` was full when checked, under a prefix that still had its
      original names, and got a fresh six-character name that was not a
      directory there. */
  predicate Rehashed(fs: FileSystem, limit: Option<nat>, h0: seq<string>, hashes: seq<string>, j: nat)
    requires j < |h0| && j < |hashes|
  {
    && IsFull(ItemCount(fs, h0[..j + 1]), limit)
    && |hashes[j]| == HashLength && AllAlnum(hashes[j])
    && h0[..j] + [hashes[j]] !in fs.dirs
  }

  /** Once a level has been replaced, the record and the cache hold the
      latest record, whose deeper layers are the new names and whose other
      layers are those of the stored record. */
  predicate Persisted(record: Option<FileContainer>, latest: FileContainer, rec: Option<FileContainer>,
                      cached: Option<FileContainer>, hashes: seq<string>, k: nat)
  {
    && record.Some? && rec == Some(latest) && cached == Some(latest)
    && WellFormed(latest) && WellFormed(record.value) && |hashes| == Levels && k <= Levels
    && latest.fileCount == record.value.fileCount
    && latest.hashes[..k] == record.value.hashes[..k]
    && latest.hashes[k..] == hashes[k..]
  }

  /** What the walk leaves behind: the hashes, the latest record it read or
      wrote, the stored record and cache, the number of levels it kept, and
      the random bytes it used. */
  datatype WalkState = WalkState(
    hashes: seq<string>,
    latest: FileContainer,
    record: Option<FileContainer>,
    cache: Option<FileContainer>,
    kept: nat,
    used: nat)

  /** What holds after each level the walk has passed: the levels above
      `w.kept` keep their names, every deeper level was full and got a fresh
      name, and every new name was written to the record and the cache. */
  ghost predicate WalkInv(fs: FileSystem, start: FileContainer, record: Option<FileContainer>, cache: Option<FileContainer>,
                          limit: Option<nat>, random: seq<Byte>, w: WalkState)
  {
    && |start.hashes| == Levels
    && |w.hashes| == Levels && w.kept <= Levels && w.used <= |random|
    && w.hashes[..w.kept] == start.hashes[..w.kept]
    && (forall j :: w.kept <= j < Levels ==> Rehashed(fs, limit, start.hashes, w.hashes, j))
    && (w.kept == Levels ==> w.latest == start && w.record == record && w.cache == cache)
    && (w.kept < Levels ==> Persisted(record, w.latest, w.record, w.cache, w.hashes, w.kept))
  }

  /** The walk's outcome: the invariant, and the stopping level is missing,
      unreadable or below the limit. */
  ghost predicate WalkSpec(fs: FileSystem, start: FileContainer, record: Option<FileContainer>, cache: Option<FileContainer>,
                           limit: Option<nat>, random: seq<Byte>, w: WalkState)
  {
    && WalkInv(fs, start, record, cache, limit, random, w)
    && (w.kept > 0 ==> !IsFull(ItemCount(fs, start.hashes[..w.kept]), limit))
  }

  /** Why a walk may fail: it reached a full level `w.kept - 1` with the
      invariant intact, and either every name the remaining random bytes
      offer is already a directory there, or there is no stored record to
      write the new name to. */
  ghost predicate WalkStuck(fs: FileSystem, start: FileContainer, record: Option<FileContainer>, cache: Option<FileContainer>,
                            limit: Option<nat>, random: seq<Byte>, e: AllocError)
  {
    exists w :: && WalkInv(fs, start, record, cache, limit, random, w)
                && 0 < w.kept
                && IsFull(ItemCount(fs, w.hashes[..w.kept]), limit)
                && ((e == RandomnessExhausted && AllTaken(fs, w.hashes[..w.kept - 1], random[w.used..]))
                    || (e == RecordMissing && record.None? && w.record.None?))
  }

  /** The level walk, deepest level first.  `start` is the record or cached
      copy the call began with. */
  method Walk(fs: FileSystem, start: FileContainer, record: Option<FileContainer>, cache: Option<FileContainer>,
              limit: Option<nat>, random: seq<Byte>)
    returns (r: Result<WalkState, AllocError>)
    requires WellFormed(start)
    requires record.Some? ==> WellFormed(record.value)
    ensures r.Ok? ==> WalkSpec(fs, start, record, cache, limit, random, r.value)
    ensures r.Err? && r.error == RecordMissing ==> record.None?
    ensures r.Err? ==> WalkStuck(fs, start, record, cache, limit, random, r.error)
    ensures !IsFull(ItemCount(fs, start.hashes), limit) ==> r.Ok?
  {
    var w := WalkState(start.hashes, start, record, cache, Levels, 0);
    assert start.hashes[..Levels] == start.hashes;
    while w.kept > 0
      invariant WalkInv(fs, start, record, cache, limit, random, w)
      invariant w.kept < Levels ==> IsFull(ItemCount(fs, start.hashes), limit)
      decreases w.kept
    {
      var i := w.kept - 1;
      if !IsFull(ItemCount(fs, w.hashes[..i + 1]), limit) {
        return Ok(w);
      }
      var u := GenerateUniqueHash(fs, w.hashes[..i], random[w.used..]);
      if u.Err? {
        assert WalkStuck(fs, start, record, cache, limit, random, u.error) by {
          assert i == w.kept - 1;
        }
        return Err(u.error);
      }
      var (name, n) := u.value;
      var updated := UpdateLayer(w.record, i, name);
      if updated.Err? {
        WalkRecordPresent(fs, start, record, cache, limit, random, w);
        assert WalkStuck(fs, start, record, cache, limit, random, RecordMissing);
        return Err(updated.error);
      }
      w := WalkAdvance(fs, start, record, cache, limit, random, w, name, n);
    }
    return Ok(w);
  }

  lemma WalkRecordPresent(fs: FileSystem, start: FileContainer, record: Option<FileContainer>, cache: Option<FileContainer>,
                          limit: Option<nat>, random: seq<Byte>, w: WalkState)
    requires WalkInv(fs, start, record, cache, limit, random, w)
    requires w.record.None?
    ensures record.None?
  {
  }

  /** One full level replaced: the invariant holds one level up. */
  function WalkAdvance(fs: FileSystem, start: FileContainer, record: Option<FileContainer>, cache: Option<FileContainer>,
                       limit: Option<nat>, random: seq<Byte>, w: WalkState, name: string, n: nat): (next: WalkState)
    requires record.Some? ==> WellFormed(record.value)
    requires WalkInv(fs, start, record, cache, limit, random, w) && w.kept > 0 && w.record.Some?
    requires IsFull(ItemCount(fs, w.hashes[..w.kept]), limit)
    requires |name| == HashLength && AllAlnum(name) && w.hashes[..w.kept - 1] + [name] !in fs.dirs
    requires HashLength * n <= |random[w.used..]|
    ensures WalkInv(fs, start, record, cache, limit, random, next)
    ensures next.kept == w.kept - 1 && next.hashes == w.hashes[w.kept - 1 := name]
  {
    var i := w.kept - 1;
    var l := w.record.value.(hashes := w.record.value.hashes[i := name]);
    var next := WalkState(w.hashes[i := name], l, Some(l), Some(l), i, w.used + HashLength * n);
    assert w.hashes[..i + 1] == start.hashes[..i + 1] by {
      assert w.hashes[..i + 1] == w.hashes[..w.kept][..i + 1];
    }
    assert w.hashes[..i] == start.hashes[..i] by {
      assert w.hashes[..i] == w.hashes[..w.kept][..i];
    }
    RehashStep(fs, limit, start.hashes, w.hashes, i, name, next.hashes);
    PersistStep(record, w.latest, w.record, w.hashes, w.kept, name);
    next
  }

  lemma RehashStep(fs: FileSystem, limit: Option<nat>, h0: seq<string>, hashes: seq<string>, i: nat,
                   name: string, next: seq<string>)
    requires |h0| == Levels && |hashes| == Levels && i < Levels
    requires hashes[..i + 1] == h0[..i + 1]
    requires IsFull(ItemCount(fs, h0[..i + 1]), limit)
    requires |name| == HashLength && AllAlnum(name) && h0[..i] + [name] !in fs.dirs
    requires forall j :: i < j < Levels ==> Rehashed(fs, limit, h0, hashes, j)
    requires next == hashes[i := name]
    ensures forall j :: i <= j < Levels ==> Rehashed(fs, limit, h0, next, j)
    ensures next[..i] == h0[..i]
  {
    assert next[..i] == hashes[..i + 1][..i];
    forall j | i <= j < Levels
      ensures Rehashed(fs, limit, h0, next, j)
    {
      if j > i {
        assert Rehashed(fs, limit, h0, hashes, j);
        assert next[j] == hashes[j];
      }
    }
  }

  lemma PersistStep(record: Option<FileContainer>, latest: FileContainer, rec: Option<FileContainer>,
                    hashes: seq<string>, k: nat, name: string)
    requires 0 < k <= Levels && |hashes| == Levels
    requires record.Some? && WellFormed(record.value)
    requires k == Levels ==> rec == record
    requires k < Levels ==> Persisted(record, latest, rec, Some(latest), hashes, k)
    ensures var l := rec.value.(hashes := rec.value.hashes[k - 1 := name]);
            Persisted(record, l, Some(l), Some(l), hashes[k - 1 := name], k - 1)
  {
    var l := rec.value.(hashes := rec.value.hashes[k - 1 := name]);
    var h := hashes[k - 1 := name];
    assert l.hashes[..k - 1] == rec.value.hashes[..k - 1];
    if k < Levels {
      assert rec.value.hashes[..k - 1] == rec.value.hashes[..k][..k - 1];
      assert record.value.hashes[..k - 1] == record.value.hashes[..k][..k - 1];
      assert rec.value.hashes[k..] == hashes[k..];
      forall j | k - 1 <= j < Levels
        ensures l.hashes[j] == h[j]
      {
        if j >= k {
          assert rec.value.hashes[j] == rec.value.hashes[k..][j - k];
          assert hashes[j] == hashes[k..][j - k];
        }
      }
    }
    assert l.hashes[k - 1..] == h[k - 1..];
  }

  /** A layer name as the allocator makes them: six characters from the
      alphanumeric alphabet. */
  predicate GoodName(h: string) {
    |h| == HashLength && AllAlnum(h)
  }

  predicate GoodNames(c: FileContainer) {
    WellFormed(c) && forall i :: 0 <= i < Levels ==> GoodName(c.hashes[i])
  }

  /** The layer names joined without a separator. */
  function Concat(hs: seq<string>): string {
    if |hs| == 0 then "" else hs[0] + Concat(hs[1..])
  }

  /** Joining good names gives six alphanumeric characters per name. */
  lemma {:induction false} ConcatOfGoodNames(hs: seq<string>)
    requires forall i :: 0 <= i < |hs| ==> GoodName(hs[i])
    ensures |Concat(hs)| == HashLength * |hs| && AllAlnum(Concat(hs))
  {
    if |hs| > 0 {
      ConcatOfGoodNames(hs[1..]);
      var c := Concat(hs);
      forall i | 0 <= i < |c|
        ensures IsAlnum(c[i])
      {
        if i < HashLength {
          assert c[i] == hs[0][i];
        } else {
          assert c[i] == Concat(hs[1..])[i - HashLength];
        }
      }
    }
  }

  /** The parent of a non-empty path. */
  function Parent(path: seq<string>): seq<string>
    requires |path| > 0
  {
    path[..|path| - 1]
  }

  /** One `mkdir`: the directory appears empty and its parent, when it is a
      tracked directory, gains one entry. */
  function AddDir(fs: FileSystem, path: seq<string>): (r: FileSystem)
    requires |path| > 0 && path !in fs.dirs
    ensures r.dirs.Keys == fs.dirs.Keys + {path} && r.dirs[path] == 0
    ensures r.unreadable == fs.unreadable
    ensures forall p :: p in fs.dirs && p != Parent(path) ==> r.dirs[p] == fs.dirs[p]
    ensures Parent(path) in fs.dirs ==> r.dirs[Parent(path)] == fs.dirs[Parent(path)] + 1
  {
    var dirs := if Parent(path) in fs.dirs then fs.dirs[Parent(path) := fs.dirs[Parent(path)] + 1] else fs.dirs;
    fs.(dirs := dirs[path := 0])
  }

  /** `fs.mkdir(path, { recursive: true })`: every missing prefix of the path
      is created, shallowest first. */
  function MkdirP(fs: FileSystem, path: seq<string>): (r: FileSystem)
    ensures r.unreadable == fs.unreadable
    ensures fs.dirs.Keys <= r.dirs.Keys
    decreases |path|
  {
    if |path| == 0 then fs
    else
      var up := MkdirP(fs, Parent(path));
      if path in up.dirs then up else AddDir(up, path)
  }

  /** Afterwards every non-empty prefix of the path is a directory, and the
      only new directories are such prefixes. */
  lemma {:induction false} MkdirPCreatesPrefixes(fs: FileSystem, path: seq<string>)
    ensures forall i :: 0 < i <= |path| ==> path[..i] in MkdirP(fs, path).dirs
    ensures forall p :: p in MkdirP(fs, path).dirs && p !in fs.dirs ==> 0 < |p| <= |path| && p == path[..|p|]
    decreases |path|
  {
    if |path| > 0 {
      var up := Parent(path);
      MkdirPCreatesPrefixes(fs, up);
      forall i | 0 < i <= |path|
        ensures path[..i] in MkdirP(fs, path).dirs
      {
        if i < |path| {
          assert path[..i] == up[..i];
        } else {
          assert path[..i] == path;
        }
      }
      forall p | p in MkdirP(fs, path).dirs && p !in fs.dirs
        ensures 0 < |p| <= |path| && p == path[..|p|]
      {
        if p != path {
          assert p in MkdirP(fs, up).dirs;
          assert up[..|p|] == path[..|p|];
        }
      }
    }
  }

  /** When every prefix already exists, `mkdir -p` changes nothing. */
  lemma {:induction false} MkdirPOnExisting(fs: FileSystem, path: seq<string>)
    requires forall i :: 0 < i <= |path| ==> path[..i] in fs.dirs
    ensures MkdirP(fs, path) == fs
    decreases |path|
  {
    if |path| > 0 {
      var up := Parent(path);
      forall i | 0 < i <= |up|
        ensures up[..i] in fs.dirs
      {
        assert up[..i] == path[..i];
      }
      MkdirPOnExisting(fs, up);
      assert path[..|path|] == path;
    }
  }

  /** Creating the same path twice is the same as creating it once. */
  lemma MkdirPIdempotent(fs: FileSystem, path: seq<string>)
    ensures MkdirP(MkdirP(fs, path), path) == MkdirP(fs, path)
  {
    MkdirPCreatesPrefixes(fs, path);
    MkdirPOnExisting(MkdirP(fs, path), path);
  }

  /** What `getFolderHashAndFileCount` hands back. */
  datatype Allocation = Allocation(folderHash: string, fileCount: nat, hashes: seq<string>)

  predicate StoreWellFormed(s: Store) {
    && (s.cache.Some? ==> WellFormed(s.cache.value))
    && (s.record.Some? ==> WellFormed(s.record.value))
  }

  /** The cache is empty or holds the stored record. */
  predicate Consistent(s: Store) {
    s.cache.None? || s.cache == s.record
  }

  /** Every stored or cached name is a good name. */
  predicate StoreNamesGood(s: Store) {
    && (s.cache.Some? ==> GoodNames(s.cache.value))
    && (s.record.Some? ==> GoodNames(s.record.value))
  }

  /** The record the call starts from: the cached copy, else the stored
      record, else a fresh one made of five draws from the random source
      with a file count of zero. */
  function StartRecord(s: Store, random: seq<Byte>): (r: Option<FileContainer>)
    requires StoreWellFormed(s)
    ensures s.cache.Some? ==> r == s.cache
    ensures s.cache.None? && s.record.Some? ==> r == s.record
    ensures s.cache.None? && s.record.None? ==> (r.Some? <==> |random| >= HashLength * Levels)
    ensures r.Some? ==> WellFormed(r.value)
    ensures r.Some? && s.cache.None? && s.record.None? ==> GoodNames(r.value) && r.value.fileCount == 0
  {
    if s.cache.Some? then s.cache
    else if s.record.Some? then s.record
    else if |random| < HashLength * Levels then None
    else
      var c := FileContainer(seq(Levels, j requires 0 <= j < Levels => Candidate(random, j)), 0);
      assert forall j :: 0 <= j < Levels ==> GoodName(c.hashes[j]);
      Some(c)
  }

  /** The stored record and cache the walk starts with, and how many random
      bytes a fresh record took: the cached and stored copies as they are,
      else the stored record in both places, else the fresh record. */
  function WalkInputs(s: Store, random: seq<Byte>): (Option<FileContainer>, Option<FileContainer>, nat)
    requires StoreWellFormed(s)
  {
    if s.cache.Some? then (s.record, s.cache, 0)
    else if s.record.Some? then (s.record, s.record, 0)
    else (StartRecord(s, random), StartRecord(s, random), HashLength * Levels)
  }

  /** What a successful call promises: the names handed out, the stored
      record and the cache are those of a walk from the start record (every
      full level renamed, stopping below the first level that is not full),
      and the resulting path exists. */
  ghost predicate AllocSpec(s: Store, limit: Option<nat>, random: seq<Byte>, a: Allocation, s2: Store)
    requires StoreWellFormed(s)
  {
    && StartRecord(s, random).Some?
    && WalkInputs(s, random).2 <= |random|
    && (exists w :: && WalkSpec(s.fs, StartRecord(s, random).value, WalkInputs(s, random).0, WalkInputs(s, random).1,
                                limit, random[WalkInputs(s, random).2..], w)
                    && a.hashes == w.hashes && s2.record == w.record && s2.cache == w.cache)
    && |a.hashes| == Levels
    && a.hashes in s2.fs.dirs
    && s.fs.dirs.Keys <= s2.fs.dirs.Keys
    && (forall p :: p in s2.fs.dirs && p !in s.fs.dirs ==> 0 < |p| <= Levels && p == a.hashes[..|p|])
    && s2.fs.unreadable == s.fs.unreadable
    && s2.cache.Some? && WellFormed(s2.cache.value)
    && a.folderHash == Concat(s2.cache.value.hashes)
    && a.fileCount == s2.cache.value.fileCount
    && (forall i :: 0 <= i < Levels ==> GoodName(a.hashes[i]) || a.hashes[i] == StartRecord(s, random).value.hashes[i])
    && (Consistent(s) ==> Consistent(s2) && s2.cache.value.hashes == a.hashes && a.folderHash == Concat(a.hashes))
  }

  /** Why a call may fail: there is neither a cache, a record nor enough
      random bytes for a fresh record, or the walk from the start record got
      stuck. */
  ghost predicate AllocStuck(s: Store, limit: Option<nat>, random: seq<Byte>, e: AllocError)
    requires StoreWellFormed(s)
  {
    || (e == RandomnessExhausted && StartRecord(s, random).None?)
    || (&& StartRecord(s, random).Some?
        && WalkInputs(s, random).2 <= |random|
        && WalkStuck(s.fs, StartRecord(s, random).value, WalkInputs(s, random).0, WalkInputs(s, random).1,
                     limit, random[WalkInputs(s, random).2..], e))
  }

  /** `getFolderHashAndFileCount`: pick the record, walk the levels, create
      the resulting path, and report the concatenated hashes and the file
      count of the latest record. */
  method GetFolderHashAndFileCount(s: Store, limit: Option<nat>, random: seq<Byte>)
    returns (r: Result<(Allocation, Store), AllocError>)
    requires StoreWellFormed(s)
    ensures r.Ok? ==> AllocSpec(s, limit, random, r.value.0, r.value.1)
    ensures r.Ok? && StoreNamesGood(s) ==> |r.value.0.folderHash| == HashLength * Levels && AllAlnum(r.value.0.folderHash)
    ensures r.Err? && r.error == RecordMissing ==> s.record.None? && s.cache.Some?
    ensures r.Err? && s.cache.None? && s.record.None? && |random| < HashLength * Levels ==> r.error == RandomnessExhausted
    ensures r.Err? ==> AllocStuck(s, limit, random, r.error)
    ensures StartRecord(s, random).Some? && !IsFull(ItemCount(s.fs, StartRecord(s, random).value.hashes), limit) ==> r.Ok?
  {
    var first := StartRecord(s, random);
    if first.None? {
      return Err(RandomnessExhausted);
    }
    var start := first.value;
    var (record, cache, used) := WalkInputs(s, random);
    var walked := Walk(s.fs, start, record, cache, limit, random[used..]);
    if walked.Err? {
      return Err(walked.error);
    }
    var w := walked.value;
    var fs := if w.hashes in s.fs.dirs then s.fs else MkdirP(s.fs, w.hashes);
    var a := Allocation(Concat(w.latest.hashes), w.latest.fileCount, w.hashes);
    AllocFromWalk(s, limit, random, w);
    r := Ok((a, Store(w.cache, w.record, fs)));
  }

  /** A walk from the start record, followed by creating its path, meets
      the allocation contract. */
  lemma AllocFromWalk(s: Store, limit: Option<nat>, random: seq<Byte>, w: WalkState)
    requires StoreWellFormed(s) && StartRecord(s, random).Some?
    requires WalkInputs(s, random).2 <= |random|
    requires WalkSpec(s.fs, StartRecord(s, random).value, WalkInputs(s, random).0, WalkInputs(s, random).1,
                      limit, random[WalkInputs(s, random).2..], w)
    ensures var fs := if w.hashes in s.fs.dirs then s.fs else MkdirP(s.fs, w.hashes);
            AllocSpec(s, limit, random, Allocation(Concat(w.latest.hashes), w.latest.fileCount, w.hashes),
                      Store(w.cache, w.record, fs))
    ensures StoreNamesGood(s) ==> |Concat(w.latest.hashes)| == HashLength * Levels && AllAlnum(Concat(w.latest.hashes))
  {
    var start := StartRecord(s, random).value;
    var (record, cache, used) := WalkInputs(s, random);
    var fs := s.fs;
    if w.hashes !in fs.dirs {
      fs := MkdirP(s.fs, w.hashes);
      MkdirPCreatesPrefixes(s.fs, w.hashes);
      assert w.hashes[..Levels] == w.hashes;
    }
    var s2 := Store(w.cache, w.record, fs);
    WalkOutcome(s, limit, random, start, record, cache, used, w);
    var a := Allocation(Concat(w.latest.hashes), w.latest.fileCount, w.hashes);
    if StoreNamesGood(s) {
      ConcatOfGoodNames(w.latest.hashes);
    }
    assert AllocSpec(s, limit, random, a, s2);
  }

  /** From the caller's side: when the deepest folder of the start record
      is not full, the call hands out the start record's names unchanged
      and writes nothing. */
  lemma AllocKeepsNamesWhenNotFull(s: Store, limit: Option<nat>, random: seq<Byte>, a: Allocation, s2: Store)
    requires StoreWellFormed(s)
    requires AllocSpec(s, limit, random, a, s2)
    requires !IsFull(ItemCount(s.fs, StartRecord(s, random).value.hashes), limit)
    ensures a.hashes == StartRecord(s, random).value.hashes
    ensures s2.record == WalkInputs(s, random).0 && s2.cache == WalkInputs(s, random).1
  {
    var start := StartRecord(s, random).value;
    var (record, cache, used) := WalkInputs(s, random);
    var w :| && WalkSpec(s.fs, start, record, cache, limit, random[used..], w)
             && a.hashes == w.hashes && s2.record == w.record && s2.cache == w.cache;
    NotFullKeepsAll(s.fs, start, record, cache, limit, random[used..], w);
  }

  /** From the caller's side: with no per-layer limit and the start
      record's whole path present and readable, every one of the five
      names handed out is a fresh one replacing a full level. */
  lemma AllocRenamesEveryLevelWhenUnset(s: Store, random: seq<Byte>, a: Allocation, s2: Store)
    requires StoreWellFormed(s)
    requires AllocSpec(s, None, random, a, s2)
    requires var h := StartRecord(s, random).value.hashes;
             forall i :: 0 < i <= Levels ==> h[..i] in s.fs.dirs && h[..i] !in s.fs.unreadable
    ensures forall j :: 0 <= j < Levels ==> Rehashed(s.fs, None, StartRecord(s, random).value.hashes, a.hashes, j)
  {
    var start := StartRecord(s, random).value;
    var (record, cache, used) := WalkInputs(s, random);
    var w :| && WalkSpec(s.fs, start, record, cache, None, random[used..], w)
             && a.hashes == w.hashes && s2.record == w.record && s2.cache == w.cache;
    UnsetLimitRenamesEveryLevel(s.fs, start, record, cache, random[used..], w);
  }

  /** The walk's result seen from the store: the cache ends up holding the
      latest record, the names are good or inherited, and a consistent
      store stays consistent with the names it hands out. */
  lemma WalkOutcome(s: Store, limit: Option<nat>, random: seq<Byte>, start: FileContainer,
                    record: Option<FileContainer>, cache: Option<FileContainer>, used: nat, w: WalkState)
    requires StoreWellFormed(s)
    requires StartRecord(s, random) == Some(start) && used <= |random|
    requires s.cache.Some? ==> record == s.record && cache == s.cache
    requires s.cache.None? && s.record.Some? ==> record == s.record && cache == s.record
    requires s.cache.None? && s.record.None? ==> record == Some(start) && cache == Some(start)
    requires WalkSpec(s.fs, start, record, cache, limit, random[used..], w)
    ensures w.cache.Some? && w.cache.value == w.latest && WellFormed(w.latest)
    ensures forall i :: 0 <= i < Levels ==> GoodName(w.hashes[i]) || w.hashes[i] == start.hashes[i]
    ensures Consistent(s) ==> w.cache == w.record && w.latest.hashes == w.hashes
    ensures StoreNamesGood(s) ==> GoodNames(w.latest)
  {
    forall i | 0 <= i < Levels
      ensures GoodName(w.hashes[i]) || w.hashes[i] == start.hashes[i]
    {
      if i < w.kept {
        assert w.hashes[i] == w.hashes[..w.kept][i];
      } else {
        assert Rehashed(s.fs, limit, start.hashes, w.hashes, i);
      }
    }
    if w.kept == Levels {
      assert w.hashes == w.hashes[..Levels];
    } else {
      var k := w.kept;
      var rv := record.value;
      if Consistent(s) {
        assert rv == start;
        forall i | 0 <= i < Levels
          ensures w.latest.hashes[i] == w.hashes[i]
        {
          if i < k {
            assert w.latest.hashes[i] == w.latest.hashes[..k][i];
            assert rv.hashes[i] == rv.hashes[..k][i];
            assert w.hashes[i] == w.hashes[..k][i];
          } else {
            assert w.latest.hashes[i] == w.latest.hashes[k..][i - k];
            assert w.hashes[i] == w.hashes[k..][i - k];
          }
        }
      }
      if StoreNamesGood(s) {
        assert GoodNames(rv);
        forall i | 0 <= i < Levels
          ensures GoodName(w.latest.hashes[i])
        {
          if i < k {
            assert w.latest.hashes[i] == w.latest.hashes[..k][i];
            assert rv.hashes[i] == rv.hashes[..k][i];
          } else {
            assert w.latest.hashes[i] == w.latest.hashes[k..][i - k];
            assert w.hashes[i] == w.hashes[k..][i - k];
            assert Rehashed(s.fs, limit, start.hashes, w.hashes, i);
          }
        }
      }
    }
  }

  /** A deepest level below the limit ends the walk at once: no name
      changes and nothing is written. */
  lemma NotFullKeepsAll(fs: FileSystem, start: FileContainer, record: Option<FileContainer>,
                        cache: Option<FileContainer>, limit: Option<nat>, random: seq<Byte>, w: WalkState)
    requires WellFormed(start)
    requires WalkSpec(fs, start, record, cache, limit, random, w)
    requires !IsFull(ItemCount(fs, start.hashes), limit)
    ensures w.kept == Levels && w.hashes == start.hashes
    ensures w.latest == start && w.record == record && w.cache == cache
  {
    assert start.hashes[..Levels] == start.hashes;
    assert w.kept < Levels ==> Rehashed(fs, limit, start.hashes, w.hashes, Levels - 1);
    assert w.hashes == w.hashes[..Levels];
  }

  /** With no limit configured, `itemCount < MAX_ITEMS_PER_LAYER` never
      holds, so when the whole current path exists and is readable every
      one of the five levels gets a new name. */
  lemma UnsetLimitRenamesEveryLevel(fs: FileSystem, start: FileContainer, record: Option<FileContainer>,
                                    cache: Option<FileContainer>, random: seq<Byte>, w: WalkState)
    requires WellFormed(start)
    requires WalkSpec(fs, start, record, cache, None, random, w)
    requires forall i :: 0 < i <= Levels ==> start.hashes[..i] in fs.dirs && start.hashes[..i] !in fs.unreadable
    ensures w.kept == 0
    ensures forall j :: 0 <= j < Levels ==> Rehashed(fs, None, start.hashes, w.hashes, j)
  {
    assert forall i :: 0 < i <= Levels ==> ItemCount(fs, start.hashes[..i]).Some?;
  }
}

=== FILE: js_values.dfy ===
/** The JavaScript value coercions the registry and the request validators
    rely on: `parseInt`, `parseFloat`, `Number(...)` and `String(...)`.

    Numbers are kept as exact reals; rounding to double precision, overflow to
    Infinity and the sign of zero are not represented. */
module JsValues {
  import opened Util

  datatype Number = NaN | PosInf | NegInf | Fin(value: real)

  /** A value as it reaches a coercion.  `JsObject` stands for any object or
      array and carries the text `String(value)` yields for it. */
  datatype JsValue =
    | JsUndefined
    | JsNull
    | JsBool(b: bool)
    | JsNumber(n: Number)
    | JsString(s: string)
    | JsObject(text: string)

  /** `Number.isInteger` */
  predicate IsInteger(n: Number) {
    n.Fin? && n.value.Floor as real == n.value
  }

  function Pow10(k: nat): (r: real)
    ensures r >= 1.0
  {
    if k == 0 then 1.0 else 10.0 * Pow10(k - 1)
  }

  /** Ten to an integer power. */
  function Scale(e: int): (r: real)
    ensures r > 0.0
  {
    if e >= 0 then Pow10(e) else 1.0 / Pow10(-e)
  }

  /** Result of reading a numeric literal at the start of a string. */
  datatype Scan = Scan(value: real, length: nat)

  /** An optional exponent part `e[+-]digits`: its value and the characters it
      takes; `(0, 0)` when the text does not begin with a complete one. */
  function ScanExponent(s: string): (r: (int, nat))
    ensures r.1 <= |s|
  {
    if |s| > 0 && (s[0] == 'e' || s[0] == 'E') then
      var signed := |s| > 1 && (s[1] == '-' || s[1] == '+');
      var rest := if signed then s[2..] else s[1..];
      var k := RunLength(rest, 10);
      var v: int := RadixValue(rest[..k], 10);
      if k == 0 then (0, 0)
      else ((if signed && s[1] == '-' then -v else v), (if signed then 2 else 1) + k)
    else (0, 0)
  }

  /** The longest prefix of `u` that is an unsigned decimal literal
      (`digits [. digits] [exponent]`, with at least one mantissa digit). */
  function ScanDecimal(u: string): (r: Option<Scan>)
    ensures r.Some? ==> 0 < r.value.length <= |u|
    ensures r.Some? ==> IsDigit(u[0]) || u[0] == '.'
  {
    var i := RunLength(u, 10);
    var hasDot := i < |u| && u[i] == '.';
    var f := if hasDot then RunLength(u[i + 1..], 10) else 0;
    if i == 0 && f == 0 then None
    else
      var whole := RadixValue(u[..i], 10) as real;
      var frac := if hasDot then RadixValue(u[i + 1..][..f], 10) as real / Pow10(f) else 0.0;
      var m := if hasDot then i + 1 + f else i;
      var ex := ScanExponent(u[m..]);
      Some(Scan((whole + frac) * Scale(ex.0), m + ex.1))
  }

  /** A leading `+` or `-`: whether it negates, and the text after it. */
  function SplitSign(t: string): (bool, string) {
    if |t| > 0 && (t[0] == '-' || t[0] == '+') then (t[0] == '-', t[1..]) else (false, t)
  }

  /** The digits of `parseInt` after the sign: a `0x`/`0X` prefix selects
      base 16; no digit at all is NaN. */
  function ParseUnsignedInt(u: string): Option<nat> {
    var hex := |u| >= 2 && u[0] == '0' && (u[1] == 'x' || u[1] == 'X');
    var radix := if hex then 16 else 10;
    var body := if hex then u[2..] else u;
    var k := RunLength(body, radix);
    if k == 0 then None else Some(RadixValue(body[..k], radix))
  }

  /** `parseInt(s)` without a radix; `None` is NaN. */
  function ParseInt(s: string): Option<int> {
    var sign := SplitSign(TrimStart(s));
    match ParseUnsignedInt(sign.1)
    case None => None
    case Some(v) => Some(if sign.0 then -(v as int) else v)
  }

  /** `parseFloat(s)` */
  function ParseFloat(s: string): Number {
    var sign := SplitSign(TrimStart(s));
    if StartsWith(sign.1, "Infinity") then (if sign.0 then NegInf else PosInf)
    else match ScanDecimal(sign.1)
      case None => NaN
      case Some(sc) => Fin(if sign.0 then -sc.value else sc.value)
  }

  /** `Number(s)` on a string: the whole trimmed text must be a literal; the
      empty text is 0. */
  function StringToNumber(s: string): Number {
    var t := Trim(s);
    if |t| == 0 then Fin(0.0)
    else if |t| >= 2 && t[0] == '0' && t[1] in "xXoObB" then
      var radix := if t[1] in "xX" then 16 else if t[1] in "oO" then 8 else 2;
      var body := t[2..];
      if |body| > 0 && RunLength(body, radix) == |body| then
        Fin(RadixValue(body[..RunLength(body, radix)], radix) as real)
      else NaN
    else
      var (neg, u) := SplitSign(t);
      if u == "Infinity" then (if neg then NegInf else PosInf)
      else match ScanDecimal(u)
        case None => NaN
        case Some(sc) => if sc.length == |u| then Fin(if neg then -sc.value else sc.value) else NaN
  }

  /** `Number(v)` */
  function ToNumber(v: JsValue): Number {
    match v
    case JsUndefined => NaN
    case JsNull => Fin(0.0)
    case JsBool(b) => Fin(if b then 1.0 else 0.0)
    case JsNumber(n) => n
    case JsString(s) => StringToNumber(s)
    case JsObject(t) => StringToNumber(t)
  }

  /** `String(v)` for every value that is not a number. */
  function Text(v: JsValue): string
    requires !v.JsNumber?
  {
    match v
    case JsUndefined => "undefined"
    case JsNull => "null"
    case JsBool(b) => if b then "true" else "false"
    case JsString(s) => s
    case JsObject(t) => t
  }

  /** Truncation toward zero. */
  function Trunc(r: real): int {
    if r >= 0.0 then r.Floor else -((-r).Floor)
  }

  /** `parseInt(String(v))`.  For a finite number this is its integer part. */
  function ParseIntOf(v: JsValue): Option<int> {
    match v
    case JsNumber(n) => if n.Fin? then Some(Trunc(n.value)) else None
    case _ => ParseInt(Text(v))
  }

  /** `parseFloat(String(v))` for a value that is not a number. */
  function ParseFloatOf(v: JsValue): Number
    requires !v.JsNumber?
  {
    ParseFloat(Text(v))
  }

  lemma DecimalIsPlain(n: nat)
    ensures TrimStart(Decimal(n)) == Decimal(n)
    ensures Trim(Decimal(n)) == Decimal(n)
    ensures SplitSign(Decimal(n)) == (false, Decimal(n))
  {
    var d := Decimal(n);
    assert IsDigit(d[0]) && IsDigit(d[|d| - 1]);
    TrimStartKeeps(d);
    TrimEndKeeps(d);
  }

  /** A decimal rendering is read back by `parseInt`. */
  lemma ParseIntDecimal(n: nat)
    ensures ParseInt(Decimal(n)) == Some(n)
  {
    var d := Decimal(n);
    DecimalValue(n);
    RunLengthAll(d, 10);
    DecimalIsPlain(n);
    assert d[..|d|] == d;
    assert ParseUnsignedInt(d) == Some(n);
  }

  /** The decimal scanner reads all of a decimal rendering, and its value. */
  lemma ScanDecimalOfDecimal(n: nat)
    ensures ScanDecimal(Decimal(n)) == Some(Scan(n as real, |Decimal(n)|))
  {
    var d := Decimal(n);
    DecimalValue(n);
    RunLengthAll(d, 10);
    assert d[..|d|] == d;
    assert d[|d|..] == "";
    assert ScanExponent("") == (0, 0);
  }

  /** A decimal rendering is read back by `Number(...)`. */
  lemma StringToNumberDecimal(n: nat)
    ensures StringToNumber(Decimal(n)) == Fin(n as real)
  {
    var d := Decimal(n);
    DecimalIsPlain(n);
    ScanDecimalOfDecimal(n);
    assert IsDigit(d[0]);
  }

  /** A decimal rendering is read back by `parseFloat`. */
  lemma ParseFloatDecimal(n: nat)
    ensures ParseFloat(Decimal(n)) == Fin(n as real)
  {
    var d := Decimal(n);
    DecimalIsPlain(n);
    ScanDecimalOfDecimal(n);
    assert !StartsWith(d, "Infinity") by {
      assert IsDigit(d[0]);
      if |d| >= 8 {
        assert d[..8][0] != "Infinity"[0];
      }
    }
  }
}

=== FILE: magic_number.dfy ===
/** Content sniffing: the type of an upload is read from its leading bytes,
    never from the name or the content type the client claims.  The claims are
    only compared with what the bytes say, to raise a security-risk flag. */
module MagicNumber {
  import opened Util

  datatype Category = Image | Audio | Pdf | Document | Unknown

  /** One row of the signature table.  No row of the table uses a mask, so
      the optional mask of the table format is not represented. */
  datatype Signature = Signature(
    bytes: seq<Byte>,
    offset: nat,
    mimeType: string,
    category: Category,
    extension: string)

  /** The Word 2007 content type, kept in parts so that its pieces can be
      reasoned about. */
  const DocxMime: string := "application/" + "vnd.openxmlformats-officedocument." + "word" + "processingml.document"

  /** The signature table, in the order in which it is scanned. */
  const MagicSignatures: seq<Signature> := [
    // Images
    Signature([0x89, 0x50, 0x4E, 0x47, 0x0D, 0x0A, 0x1A, 0x0A], 0, "image/png", Image, "png"),
    Signature([0xFF, 0xD8, 0xFF], 0, "image/jpeg", Image, "jpg"),
    Signature([0x47, 0x49, 0x46, 0x38, 0x37, 0x61], 0, "image/gif", Image, "gif"),
    Signature([0x47, 0x49, 0x46, 0x38, 0x39, 0x61], 0, "image/gif", Image, "gif"),
    Signature([0x52, 0x49, 0x46, 0x46], 0, "image/webp", Image, "webp"),
    Signature([0x42, 0x4D], 0, "image/bmp", Image, "bmp"),
    Signature([0x3C, 0x73, 0x76, 0x67], 0, "image/svg+xml", Image, "svg"),
    Signature([0x3C, 0x3F, 0x78, 0x6D, 0x6C], 0, "image/svg+xml", Image, "svg"),
    // Audio
    Signature([0x49, 0x44, 0x33], 0, "audio/mpeg", Audio, "mp3"),
    Signature([0xFF, 0xFB], 0, "audio/mpeg", Audio, "mp3"),
    Signature([0xFF, 0xF3], 0, "audio/mpeg", Audio, "mp3"),
    Signature([0xFF, 0xF2], 0, "audio/mpeg", Audio, "mp3"),
    Signature([0x52, 0x49, 0x46, 0x46], 0, "audio/wav", Audio, "wav"),
    Signature([0x4F, 0x67, 0x67, 0x53], 0, "audio/ogg", Audio, "ogg"),
    Signature([0x66, 0x74, 0x79, 0x70, 0x4D, 0x34, 0x41], 4, "audio/m4a", Audio, "m4a"),
    Signature([0x66, 0x4C, 0x61, 0x43], 0, "audio/flac", Audio, "flac"),
    Signature([0xFF, 0xF1], 0, "audio/aac", Audio, "aac"),
    Signature([0xFF, 0xF9], 0, "audio/aac", Audio, "aac"),
    // PDF
    Signature([0x25, 0x50, 0x44, 0x46], 0, "application/pdf", Pdf, "pdf"),
    // Word documents
    Signature([0xD0, 0xCF, 0x11, 0xE0, 0xA1, 0xB1, 0x1A, 0xE1], 0, "application/msword", Document, "doc"),
    Signature([0x50, 0x4B, 0x03, 0x04], 0, DocxMime, Document, "docx"),
    Signature([0x50, 0x4B, 0x05, 0x06], 0, DocxMime, Document, "docx"),
    Signature([0x50, 0x4B, 0x07, 0x08], 0, DocxMime, Document, "docx")
  ]

  /** Content types accepted as claims for each category; none for `Unknown`. */
  function MimeTypeMap(c: Category): seq<string> {
    match c
    case Image => ["image/png", "image/jpeg", "image/gif", "image/webp", "image/bmp", "image/svg+xml"]
    case Audio => ["audio/mpeg", "audio/wav", "audio/ogg", "audio/m4a", "audio/flac", "audio/aac"]
    case Pdf => ["application/pdf"]
    case Document => ["application/msword", DocxMime]
    case Unknown => []
  }

  /** Internal routing id of a category; `Unknown` has none and gets 0. */
  function CategoryId(c: Category): (id: int)
    ensures c != Unknown <==> -4 <= id <= -1
    ensures c == Unknown <==> id == 0
  {
    match c
    case Image => -1
    case Audio => -2
    case Pdf => -3
    case Document => -4
    case Unknown => 0
  }

  /** Only the first 64 bytes of a buffer are ever inspected. */
  const HeaderSize: nat := 64

  function Header(buffer: seq<Byte>): (h: seq<Byte>)
    ensures |h| <= HeaderSize && |h| <= |buffer| && h == buffer[..|h|]
    ensures |buffer| >= HeaderSize ==> |h| == HeaderSize
  {
    if |buffer| < HeaderSize then buffer else buffer[..HeaderSize]
  }

  /** A signature matches when the header holds all of its bytes at its
      offset; a header too short for it is skipped, so nothing past the
      header is read. */
  predicate Matches(header: seq<Byte>, sig: Signature) {
    && sig.offset + |sig.bytes| <= |header|
    && forall i :: 0 <= i < |sig.bytes| ==> header[sig.offset + i] == sig.bytes[i]
  }

  /** Row `k` of `sigs` is the first row that matches. */
  predicate IsFirstMatch(header: seq<Byte>, sigs: seq<Signature>, k: nat) {
    && k < |sigs|
    && Matches(header, sigs[k])
    && forall j :: 0 <= j < k ==> !Matches(header, sigs[j])
  }

  /** The scan of the table: the first matching row, if any. */
  function FirstMatch(header: seq<Byte>, sigs: seq<Signature>): (r: Option<nat>)
    ensures r.Some? ==> r.value < |sigs|
  {
    if |sigs| == 0 then None
    else if Matches(header, sigs[0]) then Some(0)
    else match FirstMatch(header, sigs[1..])
      case None => None
      case Some(k) => Some(k + 1)
  }

  /** The scan finds the first matching row, and finds none only when no row
      matches. */
  lemma {:induction false} FirstMatchSpec(header: seq<Byte>, sigs: seq<Signature>)
    ensures var r := FirstMatch(header, sigs);
            && (r.Some? ==> IsFirstMatch(header, sigs, r.value))
            && (r.None? ==> forall j :: 0 <= j < |sigs| ==> !Matches(header, sigs[j]))
  {
    if |sigs| > 0 && !Matches(header, sigs[0]) {
      FirstMatchSpec(header, sigs[1..]);
      var r := FirstMatch(header, sigs[1..]);
      if r.None? {
        forall j | 1 <= j < |sigs|
          ensures !Matches(header, sigs[j])
        {
          assert sigs[j] == sigs[1..][j - 1];
        }
      } else {
        forall j | 1 <= j < r.value + 1
          ensures !Matches(header, sigs[j])
        {
          assert sigs[j] == sigs[1..][j - 1];
        }
      }
    }
  }

  datatype MismatchDetails = MismatchDetails(
    expectedCategory: string,
    actualCategory: Category,
    reason: string)

  datatype DetectionResult = DetectionResult(
    detectedMimeType: string,
    detectedCategory: Category,
    detectedExtension: string,
    categoryId: int,
    isValid: bool,
    securityRisk: bool,
    originalFilename: Option<string>,
    userProvidedMimeType: Option<string>,
    mismatchDetails: Option<MismatchDetails>)

  /** A claim counts only when it is given and non-empty (JavaScript truthiness). */
  predicate Present(claim: Option<string>) {
    claim.Some? && claim.value != ""
  }

  /** The lower-cased text after the last dot of a claimed file name. */
  function ClaimedExtension(filename: string): string {
    Lower(AfterLast(filename, '.'))
  }

  /** Claimed extensions accepted in place of a detected one. */
  function Aliases(extension: string): seq<string> {
    if extension == "jpg" then ["jpeg", "jpe"]
    else if extension == "jpeg" then ["jpg", "jpe"]
    else if extension == "htm" then ["html"]
    else if extension == "html" then ["htm"]
    else []
  }

  /** The claimed name has an extension that is neither the detected one nor an alias. */
  predicate ExtensionMismatch(sig: Signature, filename: Option<string>) {
    && Present(filename)
    && var ext := ClaimedExtension(filename.value);
    && ext != ""
    && ext != sig.extension
    && ext !in Aliases(sig.extension)
  }

  /** The claimed content type is foreign to the detected category. */
  predicate MimeMismatch(sig: Signature, mime: Option<string>) {
    && Present(mime)
    && mime.value != sig.mimeType
    && mime.value !in MimeTypeMap(sig.category)
  }

  /** The risk check in the order the service performs it. */
  function CheckSecurityRisk(sig: Signature, filename: Option<string>, mime: Option<string>): (r: bool)
    ensures r <==> ExtensionMismatch(sig, filename) || MimeMismatch(sig, mime)
    ensures !Present(filename) && !Present(mime) ==> !r
  {
    if !Present(filename) && !Present(mime) then false
    else if Present(filename)
      && ClaimedExtension(filename.value) != ""
      && ClaimedExtension(filename.value) != sig.extension
      && ClaimedExtension(filename.value) !in Aliases(sig.extension) then true
    else if Present(mime) && mime.value != sig.mimeType
      && mime.value !in MimeTypeMap(sig.category) then true
    else false
  }

  /** The sentence explaining a mismatch.  An extension difference is
      mentioned even when it is an accepted alias. */
  function MismatchReason(sig: Signature, filename: Option<string>, mime: Option<string>): (r: string)
    ensures !NameDiffers(sig, filename) && !MimeDiffers(sig, mime) ==> r == ""
    ensures NameDiffers(sig, filename) ==>
              StartsWith(r, NameSentence(ClaimedExtension(filename.value), sig.extension))
    ensures !NameDiffers(sig, filename) && MimeDiffers(sig, mime) ==>
              StartsWith(r, MimeSentence(mime.value, sig.mimeType))
  {
    var fromName := if NameDiffers(sig, filename) then NameSentence(ClaimedExtension(filename.value), sig.extension) + " " else "";
    var fromMime := if MimeDiffers(sig, mime) then MimeSentence(mime.value, sig.mimeType) + " " else "";
    if NameDiffers(sig, filename) then
      TrimKeepsSentence(NameSentence(ClaimedExtension(filename.value), sig.extension), fromMime);
      Trim(fromName + fromMime)
    else if MimeDiffers(sig, mime) then
      TrimKeepsSentence(MimeSentence(mime.value, sig.mimeType), "");
      assert fromName + fromMime == MimeSentence(mime.value, sig.mimeType) + " " + "";
      Trim(fromName + fromMime)
    else
      Trim(fromName + fromMime)
  }

  function NameSentence(claimed: string, detected: string): (r: string)
    ensures |r| > 0 && r[0] == 'F' && r[|r| - 1] == '.'
  {
    "Filename suggests '" + claimed + "' but magic number indicates '" + detected + "'."
  }

  function MimeSentence(claimed: string, detected: string): (r: string)
    ensures |r| > 0 && r[0] == 'U' && r[|r| - 1] == '.'
  {
    "User-provided MIME type '" + claimed + "' doesn't match detected type '" + detected + "'."
  }

  /** A claimed content type other than the detected one (one of the same
      category counts as different here). */
  predicate MimeDiffers(sig: Signature, mime: Option<string>) {
    Present(mime) && mime.value != sig.mimeType
  }

  /** The claimed name has an extension other than the detected one (an
      alias counts as different here). */
  predicate NameDiffers(sig: Signature, filename: Option<string>) {
    Present(filename) && ClaimedExtension(filename.value) != "" && ClaimedExtension(filename.value) != sig.extension
  }

  function GenerateMismatchDetails(sig: Signature, filename: Option<string>, mime: Option<string>): (d: MismatchDetails)
    ensures d.actualCategory == sig.category
    ensures d.expectedCategory == "as_claimed"
  {
    MismatchDetails("as_claimed", sig.category, MismatchReason(sig, filename, mime))
  }

  /** What every detection result satisfies: the claims are echoed, it is
      valid exactly when not risky, it carries details exactly when risky,
      and its id is its category's. */
  predicate WellFormedResult(r: DetectionResult, filename: Option<string>, mime: Option<string>) {
    && r.originalFilename == filename && r.userProvidedMimeType == mime
    && (r.isValid <==> !r.securityRisk)
    && (r.mismatchDetails.Some? <==> r.securityRisk)
    && r.categoryId == CategoryId(r.detectedCategory)
  }

  /** The result for bytes that match no signature. */
  function UnknownResult(filename: Option<string>, mime: Option<string>): (r: DetectionResult)
    ensures WellFormedResult(r, filename, mime)
    ensures r.detectedCategory == Unknown && r.securityRisk
  {
    DetectionResult(
      "application/octet-stream", Unknown, "bin", 0, false, true, filename, mime,
      Some(MismatchDetails("unknown", Unknown, "No matching magic number signature found")))
  }

  /** The result once row `sig` has matched. */
  function MatchedResult(sig: Signature, filename: Option<string>, mime: Option<string>): (r: DetectionResult)
    ensures WellFormedResult(r, filename, mime)
    ensures r.detectedMimeType == sig.mimeType && r.detectedCategory == sig.category && r.detectedExtension == sig.extension
    ensures r.securityRisk <==> ExtensionMismatch(sig, filename) || MimeMismatch(sig, mime)
  {
    var risk := CheckSecurityRisk(sig, filename, mime);
    DetectionResult(
      sig.mimeType, sig.category, sig.extension, CategoryId(sig.category), !risk, risk, filename, mime,
      if risk then Some(GenerateMismatchDetails(sig, filename, mime)) else None)
  }

  /** What the result for a matched row says: the row's content type,
      category and extension; a risk exactly when the claimed extension or
      content type disagrees; valid exactly when not risky; details exactly
      when risky; no claims, no risk. */
  lemma MatchedResultFacts(sig: Signature, filename: Option<string>, mime: Option<string>)
    ensures var r := MatchedResult(sig, filename, mime);
            && r.detectedMimeType == sig.mimeType && r.detectedCategory == sig.category
            && r.detectedExtension == sig.extension && r.categoryId == CategoryId(sig.category)
            && (r.securityRisk <==> ExtensionMismatch(sig, filename) || MimeMismatch(sig, mime))
            && (r.isValid <==> !r.securityRisk)
            && (r.mismatchDetails.Some? <==> r.securityRisk)
            && (r.mismatchDetails.Some? ==> r.mismatchDetails.value.actualCategory == sig.category)
            && (!Present(filename) && !Present(mime) ==> !r.securityRisk)
  {
  }

  /** Type detection for one buffer with the client's optional claims. */
  function DetectFileType(buffer: seq<Byte>, filename: Option<string>, mime: Option<string>): (r: DetectionResult)
    ensures WellFormedResult(r, filename, mime)
    ensures r.detectedCategory == Unknown <==>
              forall j :: 0 <= j < |MagicSignatures| ==> !Matches(Header(buffer), MagicSignatures[j])
    ensures r.detectedCategory != Unknown ==>
              exists k: nat :: IsFirstMatch(Header(buffer), MagicSignatures, k) && r == MatchedResult(MagicSignatures[k], filename, mime)
  {
    FirstMatchSpec(Header(buffer), MagicSignatures);
    TableIsConsistent();
    match FirstMatch(Header(buffer), MagicSignatures)
    case None => UnknownResult(filename, mime)
    case Some(k) => MatchedResult(MagicSignatures[k], filename, mime)
  }

  /** Whatever the bytes, the claims are echoed, the result is valid exactly
      when it is not risky, carries details exactly when risky, and its
      category id is the one of its category. */
  lemma DetectFacts(buffer: seq<Byte>, filename: Option<string>, mime: Option<string>)
    ensures var r := DetectFileType(buffer, filename, mime);
            && r.originalFilename == filename && r.userProvidedMimeType == mime
            && (r.isValid <==> !r.securityRisk)
            && (r.mismatchDetails.Some? <==> r.securityRisk)
            && r.categoryId == CategoryId(r.detectedCategory)
  {
    FirstMatchSpec(Header(buffer), MagicSignatures);
    var m := FirstMatch(Header(buffer), MagicSignatures);
    if m.Some? {
      MatchedResultFacts(MagicSignatures[m.value], filename, mime);
    }
  }

  /** The first matching row decides the result. */
  lemma DetectMatched(buffer: seq<Byte>, filename: Option<string>, mime: Option<string>, k: nat)
    requires IsFirstMatch(Header(buffer), MagicSignatures, k)
    ensures DetectFileType(buffer, filename, mime) == MatchedResult(MagicSignatures[k], filename, mime)
  {
    FirstMatchSpec(Header(buffer), MagicSignatures);
    var r := FirstMatch(Header(buffer), MagicSignatures);
    assert r.Some?;
    FirstMatchUnique(Header(buffer), MagicSignatures, r.value, k);
  }

  /** With no matching row the file is unknown, invalid and risky, with id 0
      and extension `bin`. */
  lemma DetectUnmatched(buffer: seq<Byte>, filename: Option<string>, mime: Option<string>)
    requires forall j :: 0 <= j < |MagicSignatures| ==> !Matches(Header(buffer), MagicSignatures[j])
    ensures var r := DetectFileType(buffer, filename, mime);
            && r == UnknownResult(filename, mime)
            && r.detectedMimeType == "application/octet-stream" && r.detectedExtension == "bin"
            && r.detectedCategory == Unknown && r.categoryId == 0 && !r.isValid && r.securityRisk
  {
    FirstMatchSpec(Header(buffer), MagicSignatures);
  }

  /** A file is `Unknown` exactly when no row matches its header; otherwise its
      category id is one of -1..-4 and the mismatch details name the detected
      category. */
  lemma DetectCategories(buffer: seq<Byte>, filename: Option<string>, mime: Option<string>)
    ensures var r := DetectFileType(buffer, filename, mime);
            && (r.detectedCategory == Unknown <==>
                  forall j :: 0 <= j < |MagicSignatures| ==> !Matches(Header(buffer), MagicSignatures[j]))
            && (r.detectedCategory != Unknown ==> -4 <= r.categoryId <= -1)
            && (r.detectedCategory != Unknown && r.mismatchDetails.Some? ==>
                  r.mismatchDetails.value.actualCategory == r.detectedCategory)
  {
    FirstMatchSpec(Header(buffer), MagicSignatures);
    var m := FirstMatch(Header(buffer), MagicSignatures);
    if m.Some? {
      TableIsConsistent();
      assert MagicSignatures[m.value].category != Unknown;
      MatchedResultFacts(MagicSignatures[m.value], filename, mime);
    }
  }

  /** `validateFileCategory`: the detected category is one of the allowed ones. */
  predicate ValidateFileCategory(d: DetectionResult, allowed: seq<Category>) {
    d.detectedCategory in allowed
  }

  /** Under the service's default categories a file passes the category
      check exactly when some signature row matches its header. */
  lemma DefaultCategoriesAdmitRecognised(buffer: seq<Byte>, filename: Option<string>, mime: Option<string>)
    ensures ValidateFileCategory(DetectFileType(buffer, filename, mime), [Image, Audio, Pdf, Document]) <==>
              exists j :: 0 <= j < |MagicSignatures| && Matches(Header(buffer), MagicSignatures[j])
  {
    var r := DetectFileType(buffer, filename, mime);
    assert r.detectedCategory == Unknown || r.detectedCategory in [Image, Audio, Pdf, Document] by {
      match r.detectedCategory
      case Unknown =>
      case Image =>
      case Audio =>
      case Pdf =>
      case Document =>
    }
  }

  // ---------------------------------------------------------------------
  // Properties of the table and of detection

  /** Every row names a real category and a content type its own category accepts. */
  lemma TableIsConsistent()
    ensures forall k :: 0 <= k < |MagicSignatures| ==>
              MagicSignatures[k].category != Unknown
              && MagicSignatures[k].mimeType in MimeTypeMap(MagicSignatures[k].category)
              && MagicSignatures[k].offset + |MagicSignatures[k].bytes| <= HeaderSize
  {
  }

  /** The two RIFF rows: row 4 (webp) and row 12 (wav) have the same bytes and offset. */
  lemma RiffRowsCoincide()
    ensures MagicSignatures[4].mimeType == "image/webp"
    ensures MagicSignatures[12].mimeType == "audio/wav"
    ensures MagicSignatures[4].bytes == MagicSignatures[12].bytes
    ensures MagicSignatures[4].offset == MagicSignatures[12].offset
  {
  }

  /** A buffer beginning `52 49 46 46` is always classified as webp. */
  lemma RiffIsWebp(buffer: seq<Byte>, filename: Option<string>, mime: Option<string>)
    requires |buffer| >= 4 && buffer[..4] == [0x52, 0x49, 0x46, 0x46]
    ensures DetectFileType(buffer, filename, mime).detectedMimeType == "image/webp"
    ensures DetectFileType(buffer, filename, mime).detectedCategory == Image
  {
    var h := Header(buffer);
    assert h[..4] == buffer[..4];
    assert h[0] == 0x52;
    assert Matches(h, MagicSignatures[4]);
    forall j | 0 <= j < 4
      ensures !Matches(h, MagicSignatures[j])
    {
      var sig := MagicSignatures[j];
      assert sig.offset == 0 && |sig.bytes| > 0 && sig.bytes[0] != 0x52;
      assert h[sig.offset + 0] != sig.bytes[0];
    }
    DetectMatched(buffer, filename, mime, 4);
    MatchedResultFacts(MagicSignatures[4], filename, mime);
  }

  lemma FirstMatchUnique(header: seq<Byte>, sigs: seq<Signature>, k: nat, k': nat)
    requires IsFirstMatch(header, sigs, k) && IsFirstMatch(header, sigs, k')
    ensures k == k'
  {
  }

  /** Whatever matches the wav row matches the webp row. */
  lemma RiffShadow(h: seq<Byte>)
    ensures Matches(h, MagicSignatures[12]) ==> Matches(h, MagicSignatures[4])
  {
    RiffRowsCoincide();
  }

  /** Row 12 is the only row that detects `audio/wav`. */
  lemma WavRow(k: nat)
    requires k < |MagicSignatures|
    ensures MagicSignatures[k].mimeType == "audio/wav" <==> k == 12
  {
  }

  /** No buffer is ever classified as WAV: the webp row shadows the wav row. */
  lemma WavIsUnreachable(buffer: seq<Byte>, filename: Option<string>, mime: Option<string>)
    ensures DetectFileType(buffer, filename, mime).detectedMimeType != "audio/wav"
  {
    var h := Header(buffer);
    FirstMatchSpec(h, MagicSignatures);
    var m := FirstMatch(h, MagicSignatures);
    if m.Some? {
      var k := m.value;
      DetectMatched(buffer, filename, mime, k);
      MatchedResultFacts(MagicSignatures[k], filename, mime);
      RiffShadow(h);
      WavRow(k);
    }
  }

  /** Bytes past the 64-byte header never change the detection. */
  lemma DetectionReadsOnlyHeader(buffer: seq<Byte>, tail: seq<Byte>, filename: Option<string>, mime: Option<string>)
    requires |buffer| >= HeaderSize
    ensures DetectFileType(buffer + tail, filename, mime) == DetectFileType(buffer, filename, mime)
  {
    assert (buffer + tail)[..HeaderSize] == buffer[..HeaderSize];
  }

  /** Each table content type belongs to exactly one category. */
  lemma MimeMapsAreDisjoint(c: Category, c': Category, m: string)
    requires m in MimeTypeMap(c) && m in MimeTypeMap(c')
    ensures c == c'
  {
  }

  /** A claimed content type of another category is a security risk. */
  lemma ForeignMimeIsRisk(buffer: seq<Byte>, filename: Option<string>, mime: string, claimed: Category)
    requires mime in MimeTypeMap(claimed)
    requires DetectFileType(buffer, filename, Some(mime)).detectedCategory !in {Unknown, claimed}
    ensures DetectFileType(buffer, filename, Some(mime)).securityRisk
  {
    FirstMatchSpec(Header(buffer), MagicSignatures);
    var m := FirstMatch(Header(buffer), MagicSignatures);
    if m.None? {
      DetectUnmatched(buffer, filename, Some(mime));
      assert false;
    }
    var k := m.value;
    var sig := MagicSignatures[k];
    DetectMatched(buffer, filename, Some(mime), k);
    MatchedResultFacts(sig, filename, Some(mime));
    TableIsConsistent();
    ForeignMimeMismatch(sig, mime, claimed);
  }

  lemma ForeignMimeMismatch(sig: Signature, mime: string, claimed: Category)
    requires sig.mimeType in MimeTypeMap(sig.category)
    requires mime in MimeTypeMap(claimed) && sig.category != claimed
    ensures MimeMismatch(sig, Some(mime))
  {
    if mime in MimeTypeMap(sig.category) {
      MimeMapsAreDisjoint(claimed, sig.category, mime);
    }
    if mime == sig.mimeType {
      MimeMapsAreDisjoint(claimed, sig.category, mime);
    }
  }

  /** A claimed content type of the detected category never raises the risk by
      itself: only the file name can. */
  lemma SameCategoryMimeIsNoRisk(buffer: seq<Byte>, filename: Option<string>, mime: string)
    requires DetectFileType(buffer, filename, Some(mime)).detectedCategory != Unknown
    requires mime in MimeTypeMap(DetectFileType(buffer, filename, Some(mime)).detectedCategory)
    ensures DetectFileType(buffer, filename, Some(mime)).securityRisk
            == DetectFileType(buffer, filename, None).securityRisk
  {
    FirstMatchSpec(Header(buffer), MagicSignatures);
    var m := FirstMatch(Header(buffer), MagicSignatures);
    if m.None? {
      DetectUnmatched(buffer, filename, Some(mime));
    } else {
      var sig := MagicSignatures[m.value];
      DetectMatched(buffer, filename, Some(mime), m.value);
      DetectMatched(buffer, filename, None, m.value);
      MatchedResultFacts(sig, filename, Some(mime));
      MatchedResultFacts(sig, filename, None);
    }
  }

  /** The extension rule: with no content type claimed, the risk is raised
      exactly when the claimed name's lower-cased last dot segment is
      non-empty, differs from the detected extension and is not one of its
      aliases. */
  lemma ExtensionRule(buffer: seq<Byte>, filename: string)
    requires DetectFileType(buffer, Some(filename), None).detectedCategory != Unknown
    ensures var r := DetectFileType(buffer, Some(filename), None);
            var ext := ClaimedExtension(filename);
            r.securityRisk <==> (ext != "" && ext != r.detectedExtension && ext !in Aliases(r.detectedExtension))
  {
    FirstMatchSpec(Header(buffer), MagicSignatures);
    var m := FirstMatch(Header(buffer), MagicSignatures);
    if m.None? {
      DetectUnmatched(buffer, Some(filename), None);
    } else {
      DetectMatched(buffer, Some(filename), None, m.value);
      MatchedResultFacts(MagicSignatures[m.value], Some(filename), None);
    }
  }

  lemma {:induction false} AfterLastOfJoin(s: string, t: string, sep: char)
    requires sep !in t
    ensures AfterLast(s + [sep] + t, sep) == t
    decreases |t|
  {
    var u := s + [sep] + t;
    if |t| > 0 {
      assert u[..|u| - 1] == s + [sep] + t[..|t| - 1];
      AfterLastOfJoin(s, t[..|t| - 1], sep);
    } else {
      assert u[|u| - 1] == sep;
    }
  }

  /** Claims that agree with the bytes are valid: naming the file with the
      detected extension and claiming the detected content type raises no risk. */
  lemma AgreeingClaimsAreValid(buffer: seq<Byte>, stem: string)
    requires DetectFileType(buffer, None, None).detectedCategory != Unknown
    ensures var d := DetectFileType(buffer, None, None);
            var r := DetectFileType(buffer, Some(stem + "." + d.detectedExtension), Some(d.detectedMimeType));
            r.isValid && !r.securityRisk && r.detectedCategory == d.detectedCategory
  {
    FirstMatchSpec(Header(buffer), MagicSignatures);
    var m := FirstMatch(Header(buffer), MagicSignatures);
    if m.None? {
      DetectUnmatched(buffer, None, None);
    } else {
      var sig := MagicSignatures[m.value];
      var name := stem + "." + sig.extension;
      DetectMatched(buffer, None, None, m.value);
      DetectMatched(buffer, Some(name), Some(sig.mimeType), m.value);
      MatchedResultFacts(sig, None, None);
      MatchedResultFacts(sig, Some(name), Some(sig.mimeType));
      TableExtensionsArePlain(m.value);
      AfterLastOfJoin(stem, sig.extension, '.');
      assert name == stem + ['.'] + sig.extension;
      assert ClaimedExtension(name) == sig.extension;
    }
  }

  /** Lower-case letters and digits only. */
  predicate PlainWord(s: string) {
    |s| == 0 || (('a' <= s[0] <= 'z' || '0' <= s[0] <= '9') && PlainWord(s[1..]))
  }

  lemma {:induction false} PlainWordFacts(s: string)
    requires PlainWord(s)
    ensures '.' !in s && Lower(s) == s
  {
    if |s| > 0 {
      PlainWordFacts(s[1..]);
      assert s == [s[0]] + s[1..];
    }
  }

  lemma ExtensionListed(k: nat)
    requires k < |MagicSignatures|
    ensures MagicSignatures[k].extension in ["png", "jpg", "gif", "webp", "bmp", "svg", "mp3", "wav", "ogg", "m4a", "flac", "aac", "pdf", "doc", "docx"]
  {
  }

  /** Every detected extension is lower case and has no dot. */
  lemma TableExtensionsArePlain(k: nat)
    requires k < |MagicSignatures|
    ensures '.' !in MagicSignatures[k].extension
    ensures Lower(MagicSignatures[k].extension) == MagicSignatures[k].extension
  {
    var e := MagicSignatures[k].extension;
    ExtensionListed(k);
    assert PlainWord(e);
    PlainWordFacts(e);
  }

  lemma PdfNameExtension()
    ensures ClaimedExtension("important_document.pdf") == "pdf"
  {
    AfterLastOfJoin("important_document", "pdf", '.');
    assert "important_document.pdf" == "important_document" + ['.'] + "pdf";
    assert PlainWord("pdf");
    PlainWordFacts("pdf");
  }

  /** The sixteen bytes a PNG file starts with. */
  const PngSample: seq<Byte> :=
    [0x89, 0x50, 0x4E, 0x47, 0x0D, 0x0A, 0x1A, 0x0A, 0x00, 0x00, 0x00, 0x0D, 0x49, 0x48, 0x44, 0x52]

  /** The PNG row, which comes first, matches the PNG sample. */
  lemma PngSampleHitsFirstRow()
    ensures IsFirstMatch(Header(PngSample), MagicSignatures, 0)
    ensures MagicSignatures[0].mimeType == "image/png" && MagicSignatures[0].category == Image
  {
    assert Header(PngSample) == PngSample;
    assert MagicSignatures[0] == Signature([0x89, 0x50, 0x4E, 0x47, 0x0D, 0x0A, 0x1A, 0x0A], 0, "image/png", Image, "png");
  }

  /** Naming a PNG `important_document.pdf` claims a foreign extension. */
  lemma PdfNameMisclaimsPng()
    ensures ExtensionMismatch(MagicSignatures[0], Some("important_document.pdf"))
  {
    PdfNameExtension();
    assert MagicSignatures[0].extension == "png";
  }

  /** The case the service was written for: PNG bytes named
      `important_document.pdf` and claimed as `application/pdf` are an image
      and a security risk. */
  lemma PngClaimedAsPdfIsRisk()
    ensures var r := DetectFileType(PngSample, Some("important_document.pdf"), Some("application/pdf"));
            r.detectedMimeType == "image/png" && r.detectedCategory == Image
            && r.categoryId == -1 && r.securityRisk && !r.isValid
  {
    PngSampleHitsFirstRow();
    DetectMatched(PngSample, Some("important_document.pdf"), Some("application/pdf"), 0);
    MatchedResultFacts(MagicSignatures[0], Some("important_document.pdf"), Some("application/pdf"));
    PdfNameMisclaimsPng();
  }
}

=== FILE: rate_limit.dfy ===
/** The fixed-window rate limiter keyed by client address.

    The counter store is a map from keys to a count and the second at which
    the key expires; a key read at or after its expiry is absent.  The clock
    is a parameter.  Counts are kept as integers: the store only ever holds
    what the limiter wrote, so reading one back with `parseInt` gives the
    same number. */
module RateLimit {
  import opened Util

  /** `new FixedWindowRateLimit(max, window)`; `window` is in seconds. */
  datatype Limiter = Limiter(max: int, window: int)

  datatype Counter = Counter(count: int, expiresAt: int)

  type Store = map<string, Counter>

  datatype Outcome =
    | Passed
      /** 400, `IP address is required` */
    | MissingAddress
      /** 429, `Rate limit exceeded` */
    | Limited(retryAfterSeconds: int)
      /** Redis refuses `SET ... EX` with an expiry that is not positive;
          the rejected promise escapes the handler and no response is sent */
    | StoreRefused

  datatype Step = Step(outcome: Outcome, store: Store)

  /** `x-forwarded-for || socket.remoteAddress`: the first present,
      non-empty one. */
  function ClientAddress(forwarded: Option<string>, remote: Option<string>): (r: Option<string>)
    ensures r.Some? ==> |r.value| > 0
    ensures r.Some? ==> r == forwarded || r == remote
    ensures r.None? <==> (forwarded.None? || forwarded.value == "") && (remote.None? || remote.value == "")
  {
    if forwarded.Some? && forwarded.value != "" then forwarded
    else if remote.Some? && remote.value != "" then remote
    else None
  }

  function Key(address: string): string {
    "rate_limit:" + address
  }

  lemma KeyInjective(a: string, b: string)
    requires Key(a) == Key(b)
    ensures a == b
  {
    var prefix := "rate_limit:";
    assert a == Key(a)[|prefix|..];
    assert b == Key(b)[|prefix|..];
  }

  /** `parseInt(await get(key) || '0')` at second `now`. */
  function CurrentCount(store: Store, key: string, now: int): int {
    if key in store && now < store[key].expiresAt then store[key].count else 0
  }

  /** Only `key` may differ between the two stores. */
  ghost predicate OthersUnchanged(before: Store, after: Store, key: string) {
    forall k :: k != key ==> (k in before <==> k in after) && (k in before ==> before[k] == after[k])
  }

  /** One request through the limiter. */
  function Handle(lim: Limiter, store: Store, now: int, forwarded: Option<string>, remote: Option<string>): (r: Step)
    ensures r.outcome.MissingAddress? <==> ClientAddress(forwarded, remote).None?
    ensures !r.outcome.Passed? ==> r.store == store
    ensures r.outcome.Limited? ==> r.outcome.retryAfterSeconds == lim.window
    ensures r.outcome.StoreRefused? <==>
              ClientAddress(forwarded, remote).Some? && lim.window <= 0
              && CurrentCount(store, Key(ClientAddress(forwarded, remote).value), now) == 0
    ensures ClientAddress(forwarded, remote).Some? ==>
              var key := Key(ClientAddress(forwarded, remote).value);
              var c := CurrentCount(store, key, now);
              && (r.outcome.Limited? <==> c != 0 && c >= lim.max)
              && OthersUnchanged(store, r.store, key)
              && (r.outcome.Passed? ==> CurrentCount(r.store, key, now) == (if c == 0 then 1 else c + 1))
  {
    match ClientAddress(forwarded, remote)
    case None => Step(MissingAddress, store)
    case Some(address) =>
      var key := Key(address);
      var c := CurrentCount(store, key, now);
      if c == 0 then
        if lim.window <= 0 then Step(StoreRefused, store)
        else Step(Passed, store[key := Counter(1, now + lim.window)])
      else if c < lim.max then Step(Passed, store[key := store[key].(count := c + 1)])
      else Step(Limited(lim.window), store)
  }

  /** A run of requests from one address at the seconds `times`, in order:
      how many passed, and the store afterwards. */
  function Run(lim: Limiter, store: Store, address: string, times: seq<int>): (r: (nat, Store))
    ensures r.0 <= |times|
    ensures OthersUnchanged(store, r.1, Key(address))
    ensures address == "" ==> r == (0, store)
    decreases |times|
  {
    if |times| == 0 then (0, store)
    else
      var before := Run(lim, store, address, times[..|times| - 1]);
      var step := Handle(lim, before.1, times[|times| - 1], Some(address), None);
      (if step.outcome.Passed? then before.0 + 1 else before.0, step.store)
  }

  function Min(a: int, b: int): int { if a <= b then a else b }

  function Max(a: int, b: int): int { if a >= b then a else b }

  /** Requests from one address that all fall in the window its first
      request opens: exactly the first `max(max, 1)` of them pass, and the
      counter holds that number until the window ends. */
  lemma {:induction false} WindowAdmits(lim: Limiter, store: Store, address: string, times: seq<int>)
    requires lim.window > 0 && address != "" && |times| >= 1
    requires CurrentCount(store, Key(address), times[0]) == 0
    requires forall i :: 0 <= i < |times| ==> times[0] <= times[i] < times[0] + lim.window
    ensures Run(lim, store, address, times).0 == Min(|times|, Max(lim.max, 1))
    ensures var after := Run(lim, store, address, times).1;
            Key(address) in after && after[Key(address)] == Counter(Min(|times|, Max(lim.max, 1)), times[0] + lim.window)
    decreases |times|
  {
    var key := Key(address);
    var n := |times|;
    if n > 1 {
      var prefix := times[..n - 1];
      assert prefix[0] == times[0];
      WindowAdmits(lim, store, address, prefix);
      var before := Run(lim, store, address, prefix);
      assert CurrentCount(before.1, key, times[n - 1]) == before.0;
    }
  }

  /** Every address has its own budget: a request from one never changes
      the counter of another. */
  lemma OtherAddressesUnaffected(lim: Limiter, store: Store, now: int, address: string, other: string)
    requires address != "" && other != address
    ensures var after := Handle(lim, store, now, Some(address), None).store;
            CurrentCount(after, Key(other), now) == CurrentCount(store, Key(other), now)
  {
    if Key(other) == Key(address) {
      KeyInjective(other, address);
    }
  }

  /** Once the window has ended the next request opens a new one. */
  lemma ExpiredWindowReopens(lim: Limiter, store: Store, now: int, address: string)
    requires address != "" && lim.window > 0
    requires Key(address) in store && store[Key(address)].expiresAt <= now
    ensures var step := Handle(lim, store, now, Some(address), None);
            step.outcome.Passed? && step.store[Key(address)] == Counter(1, now + lim.window)
  {
  }
}

=== FILE: route_gate.dfy ===
/** The web client's route gate: a request for a page that is not public
    and carries no `access_token` cookie is sent to the login page.

    The gate only runs on paths its matcher selects; both are pure functions
    of the pathname and of whether the cookie is present.  The matcher is
    read as a regular expression anchored at both ends of the pathname, in
    which an unescaped `.` stands for any character. */
module RouteGate {
  import opened Util

  datatype Decision = Next | Redirect(location: string)

  const LoginPath: string := "/login"

  /** Auth pages, framework assets, the API and anything that looks like a
      file name. */
  predicate Public(path: string) {
    || StartsWith(path, "/login")
    || StartsWith(path, "/admin")
    || StartsWith(path, "/signup")
    || StartsWith(path, "/_next/")
    || StartsWith(path, "/api/")
    || Contains(path, ".")
  }

  /** The middleware body; `cookie` is the `access_token` cookie if sent. */
  function Gate(path: string, cookie: Option<string>): (r: Decision)
    ensures r.Redirect? ==> r.location == LoginPath
  {
    if Public(path) then Next
    else if cookie.None? then Redirect(LoginPath)
    else Next
  }

  /** Public paths pass whatever the cookie; other paths pass exactly when
      the cookie is sent, whatever its value. */
  lemma GateDecision(path: string, cookie: Option<string>)
    ensures Public(path) ==> Gate(path, cookie) == Next
    ensures !Public(path) ==> (Gate(path, cookie) == Next <==> cookie.Some?)
    ensures cookie.Some? ==> Gate(path, cookie) == Gate(path, Some(""))
  {
  }

  /** The login page itself is public, so the redirect cannot loop. */
  lemma RedirectTargetPasses(path: string, cookie: Option<string>)
    requires Gate(path, cookie).Redirect?
    ensures Gate(Gate(path, cookie).location, None) == Next
  {
    assert StartsWith(LoginPath, "/login");
  }

  /** `favicon.ico` as the matcher's pattern reads it: the dot is any
      character. */
  predicate FaviconPattern(rest: string) {
    |rest| >= 11 && rest[..7] == "favicon" && rest[8..11] == "ico"
  }

  /** The matcher as written: `/((?!api|_next/static|_next/image|favicon.ico).*)`. */
  predicate Matched(path: string) {
    |path| >= 1 && path[0] == '/' &&
    var rest := path[1..];
    !(StartsWith(rest, "api") || StartsWith(rest, "_next/static") || StartsWith(rest, "_next/image")
      || FaviconPattern(rest))
  }

  /** The matcher as its comment describes it: only `/api/`, the two asset
      folders and the literal `/favicon.ico` are skipped. */
  predicate MatchedCorrected(path: string) {
    |path| >= 1 && path[0] == '/' &&
    var rest := path[1..];
    !(StartsWith(rest, "api/") || StartsWith(rest, "_next/static") || StartsWith(rest, "_next/image")
      || StartsWith(rest, "favicon.ico"))
  }

  /** What a request meets: the gate where the matcher selects the path,
      otherwise nothing. */
  function Effective(path: string, cookie: Option<string>): (r: Decision)
    ensures !Matched(path) ==> r == Next
    ensures Matched(path) ==> r == Gate(path, cookie)
    ensures r.Redirect? ==> r == Gate(path, cookie)
  {
    if Matched(path) then Gate(path, cookie) else Next
  }

  function EffectiveCorrected(path: string, cookie: Option<string>): (r: Decision)
    ensures !MatchedCorrected(path) ==> r == Next
    ensures MatchedCorrected(path) ==> r == Gate(path, cookie)
    ensures r.Redirect? ==> r == Gate(path, cookie)
  {
    if MatchedCorrected(path) then Gate(path, cookie) else Next
  }

  lemma StartsAfterSlash(path: string, prefix: string, longer: string)
    requires |path| >= 1 && path[0] == '/'
    requires |longer| >= 1 && longer[0] == '/'
    requires StartsWith(path[1..], prefix) && StartsWith(prefix, longer[1..])
    ensures StartsWith(path, longer)
  {
    assert path[..|longer|] == [path[0]] + path[1..][..|longer| - 1];
    assert longer == [longer[0]] + longer[1..];
  }

  /** With the corrected matcher every path it skips is one the gate lets
      through anyway, so skipping the gate never changes the decision. */
  lemma CorrectedMatcherIsTransparent(path: string, cookie: Option<string>)
    requires |path| >= 1 && path[0] == '/'
    ensures EffectiveCorrected(path, cookie) == Gate(path, cookie)
  {
    if !MatchedCorrected(path) {
      var rest := path[1..];
      if StartsWith(rest, "api/") {
        StartsAfterSlash(path, "api/", "/api/");
      } else if StartsWith(rest, "_next/static") {
        StartsAfterSlash(path, "_next/static", "/_next/");
      } else if StartsWith(rest, "_next/image") {
        StartsAfterSlash(path, "_next/image", "/_next/");
      } else {
        assert rest[7] == '.';
        assert path[8..9] == ".";
        ContainsAt(path, ".", 8);
      }
    }
  }

  /** The matcher as written skips every path beginning `/api`, so a page
      such as `/apikeys` is served without the cookie even though the gate
      would send it to the login page. */
  lemma MatcherSkipsApiLikePage()
    ensures Effective("/apikeys", None) == Next
    ensures Gate("/apikeys", None) == Redirect(LoginPath)
  {
    var p := "/apikeys";
    assert p[1..][..3] == "api";
    assert !StartsWith(p, "/login") by { assert p[..6][1] != "/login"[1]; }
    assert !StartsWith(p, "/admin") by { assert p[..6][2] != "/admin"[2]; }
    assert !StartsWith(p, "/signup") by { assert p[..7][1] != "/signup"[1]; }
    assert !StartsWith(p, "/_next/") by { assert p[..7][1] != "/_next/"[1]; }
    assert !StartsWith(p, "/api/") by { assert p[..5][4] != "/api/"[4]; }
    assert !Contains(p, ".") by {
      forall i | 0 <= i < |p| ensures p[i] != '.' { }
      NoDotNoContains(p);
    }
  }

  lemma {:induction false} NoDotNoContains(s: string)
    requires forall i :: 0 <= i < |s| ==> s[i] != '.'
    ensures !Contains(s, ".")
    decreases |s|
  {
    if |s| > 0 {
      assert s[..1][0] != "."[0];
      assert forall i :: 0 <= i < |s[1..]| ==> s[1..][i] == s[i + 1];
      NoDotNoContains(s[1..]);
    }
  }
}

=== FILE: schemas.dfy ===
/** The request validators of the document service, as predicates and
    coercions over the fields of a request object.

    A request is a map from field names to values; a missing field reads
    as `undefined`.  A schema either yields the parsed record or the list
    of the fields that failed, in the order the schema declares them.
    Fields the schema does not name are dropped. */
module DocumentSchemas {
  import opened Util
  import opened JsValues
  import Db = DbOperations
  import DocumentQueries

  type Fields = map<string, JsValue>

  function Get(f: Fields, k: string): JsValue {
    if k in f then f[k] else JsUndefined
  }

  /** `z.number()`: a number that is not NaN. */
  function AsNumber(v: JsValue): (r: Option<Number>)
    ensures r.Some? <==> v.JsNumber? && !v.n.NaN?
    ensures r.Some? ==> r.value == v.n
  {
    if v.JsNumber? && !v.n.NaN? then Some(v.n) else None
  }

  /** `z.number().int()` */
  function AsInteger(v: JsValue): (r: Option<int>)
    ensures r.Some? <==> v.JsNumber? && IsInteger(v.n)
    ensures r.Some? ==> v.n == Fin(r.value as real)
  {
    if v.JsNumber? && IsInteger(v.n) then Some(v.n.value.Floor) else None
  }

  function AsString(v: JsValue): Option<string> {
    if v.JsString? then Some(v.s) else None
  }

  /** The field names among `names` whose parse failed. */
  function Failing(names: seq<string>, ok: seq<bool>): (r: seq<string>)
    requires |names| == |ok|
    ensures |r| <= |names|
    ensures forall i :: 0 <= i < |names| && !ok[i] ==> names[i] in r
    ensures forall x :: x in r ==> exists i :: 0 <= i < |names| && names[i] == x && !ok[i]
  {
    if |names| == 0 then []
    else (if ok[0] then [] else [names[0]]) + Failing(names[1..], ok[1..])
  }

  /** With distinct names, a name is listed exactly when its own parse failed. */
  lemma FailingListsExactly(names: seq<string>, ok: seq<bool>, i: nat)
    requires |names| == |ok| && i < |names|
    requires forall a :: 0 <= a < |names| ==> |names[a]| > 0
    requires forall a, b :: 0 <= a < |names| && 0 <= b < |names| && a != b ==> names[a][0] != names[b][0]
    ensures names[i] in Failing(names, ok) <==> !ok[i]
  {
    if names[i] in Failing(names, ok) {
      var j :| 0 <= j < |names| && names[j] == names[i] && !ok[j];
      assert j == i;
    }
  }

  // ---------------------------------------------------------------------
  // insertInitialDocumentSchema

  datatype InsertInput = InsertInput(docType: int, displayName: string, encryptedId: string,
                                     originalSize: Number, fileExt: string)

  function InsertInitialDocument(f: Fields): (r: Result<InsertInput, seq<string>>)
    ensures r.Ok? <==> && AsInteger(Get(f, "docType")).Some? && Get(f, "displayName").JsString?
                       && Get(f, "encryptedId").JsString? && AsNumber(Get(f, "originalSize")).Some?
                       && Get(f, "fileExt").JsString?
  {
    var t := AsInteger(Get(f, "docType"));
    var name := AsString(Get(f, "displayName"));
    var enc := AsString(Get(f, "encryptedId"));
    var size := AsNumber(Get(f, "originalSize"));
    var ext := AsString(Get(f, "fileExt"));
    if t.Some? && name.Some? && enc.Some? && size.Some? && ext.Some? then
      Ok(InsertInput(t.value, name.value, enc.value, size.value, ext.value))
    else
      Err(Failing(["docType", "displayName", "encryptedId", "originalSize", "fileExt"],
                  [t.Some?, name.Some?, enc.Some?, size.Some?, ext.Some?]))
  }

  /** Input the schema accepts with a finite size is input the registry
      insert accepts, given a fresh encrypted id. */
  lemma InsertSchemaFitsInsert(reg: Db.Registry, f: Fields)
    requires InsertInitialDocument(f).Ok? && InsertInitialDocument(f).value.originalSize.Fin?
    requires forall i :: 0 <= i < |reg.docs| ==> reg.docs[i].encryptedId != InsertInitialDocument(f).value.encryptedId
    ensures Db.Insert(reg, Get(f, "docType"), Get(f, "displayName"), Get(f, "encryptedId"),
                      Get(f, "originalSize"), Get(f, "fileExt")).Ok?
  {
  }

  // ---------------------------------------------------------------------
  // updateDocumentStatusSchema

  /** The `currentFileSize` preprocessing: a string goes through
      `parseFloat`, anything else is left as it is. */
  function PreprocessSize(v: JsValue): JsValue {
    if v.JsString? then JsNumber(ParseFloat(v.s)) else v
  }

  /** The `isCompressed` preprocessing: a number means `=== 1`, a string
      means `parseInt(...) === 1`, anything else is left as it is. */
  function PreprocessCompressed(v: JsValue): (r: JsValue)
    ensures v.JsNumber? ==> r == JsBool(v.n == Fin(1.0))
    ensures v.JsString? ==> r == JsBool(ParseInt(v.s) == Some(1))
    ensures !v.JsNumber? && !v.JsString? ==> r == v
  {
    match v
    case JsNumber(n) => JsBool(n == Fin(1.0))
    case JsString(s) => JsBool(ParseInt(s) == Some(1))
    case _ => v
  }

  /** `isCompressed` after preprocessing and `z.boolean()`. */
  function CoerceCompressed(v: JsValue): (r: Option<bool>)
    ensures r.Some? <==> v.JsNumber? || v.JsString? || v.JsBool?
    ensures v.JsBool? ==> r == Some(v.b)
  {
    var p := PreprocessCompressed(v);
    if p.JsBool? then Some(p.b) else None
  }

  /** `z.string().nullable()` */
  function AsNullableString(v: JsValue): (r: Option<Option<string>>)
    ensures r.Some? <==> v.JsString? || v.JsNull?
  {
    match v
    case JsString(s) => Some(Some(s))
    case JsNull => Some(None)
    case _ => None
  }

  datatype UpdateStatusInput = UpdateStatusInput(documentId: int, documentPath: string, currentFileSize: Number,
                                                 isCompressed: bool, thumbFilePath: Option<string>)

  function UpdateDocumentStatusInput(f: Fields): (r: Result<UpdateStatusInput, seq<string>>)
    ensures r.Ok? <==> && AsInteger(Get(f, "documentId")).Some? && Get(f, "documentPath").JsString?
                       && AsNumber(PreprocessSize(Get(f, "currentFileSize"))).Some?
                       && CoerceCompressed(Get(f, "isCompressed")).Some?
                       && AsNullableString(Get(f, "thumbFilePath")).Some?
  {
    var id := AsInteger(Get(f, "documentId"));
    var path := AsString(Get(f, "documentPath"));
    var size := AsNumber(PreprocessSize(Get(f, "currentFileSize")));
    var done := CoerceCompressed(Get(f, "isCompressed"));
    var thumb := AsNullableString(Get(f, "thumbFilePath"));
    if id.Some? && path.Some? && size.Some? && done.Some? && thumb.Some? then
      Ok(UpdateStatusInput(id.value, path.value, size.value, done.value, thumb.value))
    else
      Err(Failing(["documentId", "documentPath", "currentFileSize", "isCompressed", "thumbFilePath"],
                  [id.Some?, path.Some?, size.Some?, done.Some?, thumb.Some?]))
  }

  /** The schema's reading of the flag agrees with the registry's on
      booleans, numbers and numeric strings. */
  lemma CompressedAgreesWithRegistry(v: JsValue)
    requires v.JsBool? || v.JsNumber? || (v.JsString? && ParseInt(v.s).Some?)
    ensures Db.CoerceIsProcessed(v) == Ok(CoerceCompressed(v).value)
  {
  }

  /** They part on a string that is no number: the schema reads it as
      `false` where the registry refuses it. */
  lemma CompressedWordIsFalse()
    ensures CoerceCompressed(JsString("true")) == Some(false)
    ensures Db.CoerceIsProcessed(JsString("true")).Err?
  {
    Db.IsProcessedWordRefused();
  }

  // ---------------------------------------------------------------------
  // updateFileStatusSchema

  datatype Status = Pending | Processing | Completed | Failed

  function ParseStatus(v: JsValue): (r: Option<Status>)
    ensures r.Some? ==> v.JsString?
  {
    if v == JsString("PENDING") then Some(Pending)
    else if v == JsString("PROCESSING") then Some(Processing)
    else if v == JsString("COMPLETED") then Some(Completed)
    else if v == JsString("FAILED") then Some(Failed)
    else None
  }

  /** The text of each status. */
  function StatusText(s: Status): string {
    match s
    case Pending => "PENDING"
    case Processing => "PROCESSING"
    case Completed => "COMPLETED"
    case Failed => "FAILED"
  }

  /** The enumeration accepts exactly the four texts. */
  lemma StatusRoundTrip(v: JsValue)
    ensures ParseStatus(v).Some? <==> exists s: Status :: v == JsString(StatusText(s))
    ensures ParseStatus(v).Some? ==> v == JsString(StatusText(ParseStatus(v).value))
  {
    if ParseStatus(v).None? {
      forall s: Status ensures v != JsString(StatusText(s)) {
        match s
        case Pending =>
        case Processing =>
        case Completed =>
        case Failed =>
      }
    } else {
      var s := ParseStatus(v).value;
      assert v == JsString(StatusText(s));
    }
  }

  datatype FileStatusInput = FileStatusInput(documentId: string, status: Status, retriesCount: Option<int>)

  /** `retriesCount: z.number().int().optional()` */
  function OptionalInteger(v: JsValue): (r: Option<Option<int>>)
    ensures r.Some? <==> v.JsUndefined? || AsInteger(v).Some?
  {
    if v.JsUndefined? then Some(None)
    else if AsInteger(v).Some? then Some(AsInteger(v))
    else None
  }

  function UpdateFileStatusInput(f: Fields): (r: Result<FileStatusInput, seq<string>>)
    ensures r.Ok? <==> Get(f, "documentId").JsString? && ParseStatus(Get(f, "status")).Some?
                       && OptionalInteger(Get(f, "retriesCount")).Some?
    ensures r.Ok? && "retriesCount" !in f ==> r.value.retriesCount.None?
  {
    var id := AsString(Get(f, "documentId"));
    var status := ParseStatus(Get(f, "status"));
    var retries := OptionalInteger(Get(f, "retriesCount"));
    if id.Some? && status.Some? && retries.Some? then
      Ok(FileStatusInput(id.value, status.value, retries.value))
    else
      Err(Failing(["documentId", "status", "retriesCount"], [id.Some?, status.Some?, retries.Some?]))
  }

  // ---------------------------------------------------------------------
  // fetchDocumentsSchema, fetchDocumentsByNameSchema, fetchDocumentsByIdSchema

  /** `z.coerce.number().int().min(lo).max(hi).default(d)`: an undefined
      value takes the default; anything else is passed through `Number`
      and must be a whole number in range. */
  function CoerceInRange(v: JsValue, lo: int, hi: Option<int>, d: int): (r: Option<int>)
    ensures v.JsUndefined? ==> r == Some(d)
    ensures !v.JsUndefined? ==>
              (r.Some? <==> (IsInteger(ToNumber(v)) && lo <= ToNumber(v).value.Floor
                             && (hi.None? || ToNumber(v).value.Floor <= hi.value)))
    ensures !v.JsUndefined? && r.Some? ==> ToNumber(v) == Fin(r.value as real)
  {
    if v.JsUndefined? then Some(d)
    else
      var n := ToNumber(v);
      if IsInteger(n) && lo <= n.value.Floor && (hi.None? || n.value.Floor <= hi.value) then Some(n.value.Floor)
      else None
  }

  datatype Listing = Listing(pageNo: int, docType: int)

  function FetchDocuments(f: Fields): (r: Result<Listing, seq<string>>)
    ensures r.Ok? ==> r.value.pageNo >= 1 && 0 <= r.value.docType <= 4
    ensures r.Ok? <==> CoerceInRange(Get(f, "pageNo"), 1, None, 1).Some?
                       && CoerceInRange(Get(f, "docType"), 0, Some(4), 0).Some?
    ensures r.Ok? ==> r.value == Listing(CoerceInRange(Get(f, "pageNo"), 1, None, 1).value,
                                         CoerceInRange(Get(f, "docType"), 0, Some(4), 0).value)
    ensures r.Err? ==> && ("pageNo" in r.error <==> CoerceInRange(Get(f, "pageNo"), 1, None, 1).None?)
                       && ("docType" in r.error <==> CoerceInRange(Get(f, "docType"), 0, Some(4), 0).None?)
  {
    var page := CoerceInRange(Get(f, "pageNo"), 1, None, 1);
    var t := CoerceInRange(Get(f, "docType"), 0, Some(4), 0);
    if page.Some? && t.Some? then Ok(Listing(page.value, t.value))
    else
      var names, ok := ["pageNo", "docType"], [page.Some?, t.Some?];
      FailingListsExactly(names, ok, 0);
      FailingListsExactly(names, ok, 1);
      Err(Failing(names, ok))
  }

  /** An empty request lists the first page of every type. */
  lemma FetchDocumentsDefaults()
    ensures FetchDocuments(map[]) == Ok(Listing(1, 0))
  {
  }

  /** A listing the schema accepts is one the paging never refuses. */
  lemma AcceptedListingPages(reg: Db.Registry, f: Fields)
    requires FetchDocuments(f).Ok?
    ensures var l := FetchDocuments(f).value;
            DocumentQueries.GetDocumentByPage(reg, l.pageNo, Some(l.docType)).Ok?
  {
  }

  datatype NameSearch = NameSearch(pageNo: int, name: string, docType: int)

  /** The name search's page number: `parseInt(String(value))`, which must
      be a whole number of at least 1; there is no default. */
  function SearchPage(v: JsValue): (r: Option<int>)
    ensures r.Some? <==> ParseIntOf(v).Some? && ParseIntOf(v).value >= 1
    ensures r.Some? ==> r.value >= 1
  {
    match ParseIntOf(v)
    case None => None
    case Some(k) => if k >= 1 then Some(k) else None
  }

  /** The fields the name search reports, each listed exactly when its own
      check failed. */
  function NameSearchErrors(pageOk: bool, nameOk: bool, typeOk: bool): (e: seq<string>)
    ensures "pageNo" in e <==> !pageOk
    ensures "name" in e <==> !nameOk
    ensures "docType" in e <==> !typeOk
  {
    var names, ok := ["pageNo", "name", "docType"], [pageOk, nameOk, typeOk];
    FailingListsExactly(names, ok, 0);
    FailingListsExactly(names, ok, 1);
    FailingListsExactly(names, ok, 2);
    Failing(names, ok)
  }

  function FetchDocumentsByName(f: Fields): (r: Result<NameSearch, seq<string>>)
    ensures r.Ok? ==> r.value.pageNo >= 1 && |r.value.name| >= 1 && 0 <= r.value.docType <= 4
    ensures r.Ok? ==> Get(f, "name") == JsString(r.value.name)
    ensures r.Ok? <==> && SearchPage(Get(f, "pageNo")).Some?
                       && Get(f, "name").JsString? && |Get(f, "name").s| >= 1
                       && CoerceInRange(Get(f, "docType"), 0, Some(4), 0).Some?
    ensures r.Ok? ==> && r.value.pageNo == SearchPage(Get(f, "pageNo")).value
                      && r.value.docType == CoerceInRange(Get(f, "docType"), 0, Some(4), 0).value
    ensures r.Err? ==> && ("pageNo" in r.error <==> SearchPage(Get(f, "pageNo")).None?)
                       && ("name" in r.error <==> !(Get(f, "name").JsString? && |Get(f, "name").s| >= 1))
                       && ("docType" in r.error <==> CoerceInRange(Get(f, "docType"), 0, Some(4), 0).None?)
  {
    var page := SearchPage(Get(f, "pageNo"));
    var name := AsString(Get(f, "name"));
    var nameOk := name.Some? && |name.value| >= 1;
    var t := CoerceInRange(Get(f, "docType"), 0, Some(4), 0);
    if page.Some? && nameOk && t.Some? then Ok(NameSearch(page.value, name.value, t.value))
    else Err(NameSearchErrors(page.Some?, nameOk, t.Some?))
  }

  /** Unlike the listing, the name search has no default page: a request
      without one is refused. */
  lemma NameSearchNeedsPage(f: Fields)
    requires "pageNo" !in f
    ensures FetchDocumentsByName(f).Err?
    ensures "pageNo" in FetchDocumentsByName(f).error
  {
    var t := "undefined";
    assert !IsWhitespace(t[0]);
    assert TrimStart(t) == t;
    assert SplitSign(t) == (false, t);
    assert RunLength(t, 10) == 0 by {
      assert DigitValue('u') == 30;
    }
    assert ParseUnsignedInt(t) == None;
  }

  function FetchDocumentById(f: Fields): (r: Result<string, seq<string>>)
    ensures r.Ok? <==> Get(f, "id").JsString? && |Get(f, "id").s| >= 1
    ensures r.Ok? ==> r.value == Get(f, "id").s
    ensures r.Err? ==> r.error == ["id"]
  {
    var id := AsString(Get(f, "id"));
    if id.Some? && |id.value| >= 1 then Ok(id.value) else Err(["id"])
  }
}

=== FILE: secure_validation.dfy ===
/** The upload-validation middleware: every uploaded file is sniffed, checked
    against the allowed categories and, in strict mode, against the risk flag.
    Strict mode refuses the whole request if any file is refused; otherwise
    the request proceeds with the accepted files only, each relabelled with
    its detected content type. */
module SecureValidation {
  import opened Util
  import opened MagicNumber

  /** The middleware options once the defaults are filled in. */
  datatype Policy = Policy(allowed: seq<Category>, rejectOnMismatch: bool, logSuspicious: bool)

  const AllCategories: seq<Category> := [Image, Audio, Pdf, Document]

  /** No options given: all four categories, strict, logging. */
  const DefaultPolicy: Policy := Policy(AllCategories, true, true)

  /** The policy prepared for the upload route. */
  const UploadPolicy: Policy := Policy(AllCategories, true, true)

  /** The permissive policy: risky files pass, only the category is enforced. */
  const LenientPolicy: Policy := Policy(AllCategories, false, true)

  /** A file as the multipart parser delivers it; the buffer may be missing. */
  datatype UploadedFile = UploadedFile(originalname: string, mimetype: string, buffer: Option<seq<Byte>>)

  datatype FileField = FileField(name: string, files: seq<UploadedFile>)

  /** `req.files`: absent, an array, or an object of named arrays. */
  datatype RequestFiles =
    | NoFiles
    | FileArray(files: seq<UploadedFile>)
    | FileFields(fields: seq<FileField>)

  /** `Object.values(fields).flat()`: the fields' files in field order. */
  function Flatten(fields: seq<FileField>): (r: seq<UploadedFile>)
    ensures |fields| == 0 ==> r == []
    ensures |fields| > 0 ==> r == Flatten(fields[..|fields| - 1]) + fields[|fields| - 1].files
  {
    if |fields| == 0 then [] else Flatten(fields[..|fields| - 1]) + fields[|fields| - 1].files
  }

  /** An accepted file: the claimed content type replaced by the detected one,
      with the detection attached. */
  datatype ValidatedFile = ValidatedFile(
    originalname: string,
    mimetype: string,
    buffer: seq<Byte>,
    detection: DetectionResult,
    isSecure: bool,
    actualCategory: Category,
    actualExtension: string)

  datatype Rejection = Rejection(
    filename: string,
    reason: string,
    securityRisk: bool,
    detectedType: string,
    claimedType: string)

  datatype Verdict = Accepted(file: ValidatedFile) | Rejected(rejection: Rejection)

  /** How a category is spelled in messages and in the options. */
  function CategoryName(c: Category): string {
    match c
    case Image => "image"
    case Audio => "audio"
    case Pdf => "pdf"
    case Document => "document"
    case Unknown => "unknown"
  }

  /** `names.join(', ')` */
  function JoinNames(cs: seq<Category>): string {
    if |cs| == 0 then ""
    else if |cs| == 1 then CategoryName(cs[0])
    else CategoryName(cs[0]) + ", " + JoinNames(cs[1..])
  }

  /** `value || 'unknown'` */
  function OrUnknown(s: string): string {
    if s == "" then "unknown" else s
  }

  /** A file together with the detection the middleware runs on it: none
      when the buffer is missing. */
  datatype Inspected = Inspected(file: UploadedFile, detection: Option<DetectionResult>)

  /** The detection of one file, with its name and content type as claims. */
  function Inspect(f: UploadedFile): (x: Inspected)
    ensures x.file == f
    ensures x.detection.Some? <==> f.buffer.Some?
  {
    match f.buffer
    case None => Inspected(f, None)
    case Some(b) => Inspected(f, Some(DetectFileType(b, Some(f.originalname), Some(f.mimetype))))
  }

  /** The detection of every file, in input order. */
  function InspectAll(fs: seq<UploadedFile>): (xs: seq<Inspected>)
    ensures |xs| == |fs|
    ensures forall i :: 0 <= i < |fs| ==> xs[i] == Inspect(fs[i])
  {
    seq(|fs|, i requires 0 <= i < |fs| => Inspect(fs[i]))
  }

  /** The decision for one file, in the order the middleware checks:
      missing buffer, category, then risk in strict mode. */
  function Classify(p: Policy, x: Inspected): (v: Verdict)
    ensures x.detection.None? ==> v.Rejected? && !v.rejection.securityRisk
    ensures v.Accepted? <==>
              x.detection.Some? && x.file.buffer.Some? && ValidateFileCategory(x.detection.value, p.allowed)
              && !(x.detection.value.securityRisk && p.rejectOnMismatch)
    ensures v.Accepted? ==> && v.file.originalname == x.file.originalname
                            && Some(v.file.buffer) == x.file.buffer
                            && Some(v.file.detection) == x.detection
                            && v.file.mimetype == v.file.detection.detectedMimeType
                            && v.file.actualCategory == v.file.detection.detectedCategory
                            && v.file.actualExtension == v.file.detection.detectedExtension
                            && v.file.actualCategory in p.allowed
                            && v.file.isSecure == !v.file.detection.securityRisk
    ensures v.Rejected? ==> && v.rejection.filename == x.file.originalname
                            && v.rejection.claimedType == OrUnknown(x.file.mimetype)
    ensures v.Rejected? && x.detection.Some? && x.file.buffer.Some? ==>
              && v.rejection.securityRisk == x.detection.value.securityRisk
              && v.rejection.detectedType == x.detection.value.detectedMimeType
  {
    var f := x.file;
    if x.detection.None? || f.buffer.None? then
      Rejected(Rejection(f.originalname, "File buffer is empty", false, "unknown", OrUnknown(f.mimetype)))
    else
      var d := x.detection.value;
      if !ValidateFileCategory(d, p.allowed) then
        Rejected(Rejection(
          f.originalname,
          "File type '" + CategoryName(d.detectedCategory) + "' is not allowed. Allowed types: " + JoinNames(p.allowed),
          d.securityRisk, d.detectedMimeType, OrUnknown(f.mimetype)))
      else if d.securityRisk && p.rejectOnMismatch then
        var why := if d.mismatchDetails.Some? && d.mismatchDetails.value.reason != "" then d.mismatchDetails.value.reason
                   else "File type mismatch";
        Rejected(Rejection(f.originalname, "Security risk detected: " + why, true, d.detectedMimeType, OrUnknown(f.mimetype)))
      else
        Accepted(ValidatedFile(
          f.originalname, d.detectedMimeType, f.buffer.value, d, !d.securityRisk, d.detectedCategory, d.detectedExtension))
  }

  /** The accepted files, in input order. */
  function AcceptedOf(p: Policy, xs: seq<Inspected>): seq<ValidatedFile> {
    if |xs| == 0 then []
    else
      var v := Classify(p, xs[|xs| - 1]);
      AcceptedOf(p, xs[..|xs| - 1]) + (if v.Accepted? then [v.file] else [])
  }

  /** The rejections, in input order. */
  function RejectionsOf(p: Policy, xs: seq<Inspected>): seq<Rejection> {
    if |xs| == 0 then []
    else
      var v := Classify(p, xs[|xs| - 1]);
      RejectionsOf(p, xs[..|xs| - 1]) + (if v.Rejected? then [v.rejection] else [])
  }

  /** A file is logged as a security alert when logging is on and its
      detection is risky. */
  predicate Alerts(p: Policy, x: Inspected) {
    p.logSuspicious && x.detection.Some? && x.detection.value.securityRisk
  }

  /** The names logged as security alerts, in input order. */
  function AlertsOf(p: Policy, xs: seq<Inspected>): seq<string> {
    if |xs| == 0 then []
    else AlertsOf(p, xs[..|xs| - 1]) + (if Alerts(p, xs[|xs| - 1]) then [xs[|xs| - 1].file.originalname] else [])
  }

  datatype Summary = Summary(
    totalFiles: nat,
    validatedFiles: nat,
    rejectedFiles: nat,
    rejectionDetails: seq<Rejection>,
    hasSecurityRisks: bool)

  /** The part of a rejection the 400 response lists. */
  datatype RejectionBrief = RejectionBrief(filename: string, reason: string, securityRisk: bool)

  datatype Outcome =
    | PassThrough
    | BadRequest(rejectedFiles: seq<RejectionBrief>)
    | Proceed(files: seq<ValidatedFile>, summary: Summary)

  predicate AnyRisk(rs: seq<Rejection>) {
    exists i :: 0 <= i < |rs| && rs[i].securityRisk
  }

  function Brief(rs: seq<Rejection>): (r: seq<RejectionBrief>)
    ensures |r| == |rs|
    ensures forall i :: 0 <= i < |rs| ==>
              r[i] == RejectionBrief(rs[i].filename, rs[i].reason, rs[i].securityRisk)
  {
    if |rs| == 0 then [] else [RejectionBrief(rs[0].filename, rs[0].reason, rs[0].securityRisk)] + Brief(rs[1..])
  }

  /** The files the loop walks over. */
  function FilesOf(req: RequestFiles): seq<UploadedFile> {
    match req
    case NoFiles => []
    case FileArray(fs) => fs
    case FileFields(fields) => Flatten(fields)
  }

  /** `!req.files || (Array.isArray(req.files) && req.files.length === 0)`:
      an object of fields, even an empty one, does not skip the check. */
  predicate Skips(req: RequestFiles) {
    req.NoFiles? || (req.FileArray? && |req.files| == 0)
  }

  /** One more file extends each of the three lists by its own contribution. */
  lemma PartitionStep(p: Policy, xs: seq<Inspected>, i: nat)
    requires i < |xs|
    ensures var v := Classify(p, xs[i]);
            && AcceptedOf(p, xs[..i + 1]) == AcceptedOf(p, xs[..i]) + (if v.Accepted? then [v.file] else [])
            && RejectionsOf(p, xs[..i + 1]) == RejectionsOf(p, xs[..i]) + (if v.Rejected? then [v.rejection] else [])
            && AlertsOf(p, xs[..i + 1]) == AlertsOf(p, xs[..i]) + (if Alerts(p, xs[i]) then [xs[i].file.originalname] else [])
  {
    assert xs[..i + 1][..i] == xs[..i];
  }

  /** Splits the inspected files into accepted and rejected ones, and collects
      the alert log. */
  method Partition(p: Policy, xs: seq<Inspected>) returns (validated: seq<ValidatedFile>, rejected: seq<Rejection>, alerts: seq<string>)
    ensures validated == AcceptedOf(p, xs)
    ensures rejected == RejectionsOf(p, xs)
    ensures alerts == AlertsOf(p, xs)
    ensures |validated| + |rejected| == |xs|
  {
    validated, rejected, alerts := [], [], [];
    var i := 0;
    while i < |xs|
      invariant 0 <= i <= |xs|
      invariant validated == AcceptedOf(p, xs[..i])
      invariant rejected == RejectionsOf(p, xs[..i])
      invariant alerts == AlertsOf(p, xs[..i])
      invariant |validated| + |rejected| == i
    {
      var v := Classify(p, xs[i]);
      PartitionStep(p, xs, i);
      alerts := alerts + (if Alerts(p, xs[i]) then [xs[i].file.originalname] else []);
      validated := validated + (if v.Accepted? then [v.file] else []);
      rejected := rejected + (if v.Rejected? then [v.rejection] else []);
      i := i + 1;
    }
    assert xs[..i] == xs;
  }

  /** `rejectedFiles.some(rf => rf.securityRisk)` */
  method HasSecurityRisks(rs: seq<Rejection>) returns (risky: bool)
    ensures risky == AnyRisk(rs)
  {
    risky := false;
    var i := 0;
    while i < |rs|
      invariant 0 <= i <= |rs|
      invariant risky <==> exists j :: 0 <= j < i && rs[j].securityRisk
    {
      risky := risky || rs[i].securityRisk;
      i := i + 1;
    }
  }

  /** The middleware: the outcome of the request and the alerts it logs. */
  method SecureFileValidation(p: Policy, req: RequestFiles) returns (outcome: Outcome, alerts: seq<string>)
    ensures Skips(req) ==> outcome == PassThrough && alerts == []
    ensures !Skips(req) ==> alerts == AlertsOf(p, InspectAll(FilesOf(req)))
    ensures outcome == Validate(p, req)
  {
    if Skips(req) {
      return PassThrough, [];
    }
    var files := FilesOf(req);
    var xs := InspectAll(files);
    var validated, rejected;
    validated, rejected, alerts := Partition(p, xs);
    if |rejected| > 0 && p.rejectOnMismatch {
      outcome := BadRequest(Brief(rejected));
      assert outcome == Decide(p, xs);
      return;
    }
    var risky := HasSecurityRisks(rejected);
    outcome := Proceed(validated, Summary(|files|, |validated|, |rejected|, rejected, risky));
    assert outcome == Decide(p, xs);
  }

  /** What happens once the files are inspected: refuse the request in
      strict mode when any file is refused, or proceed with the accepted
      files and the summary. */
  function Decide(p: Policy, xs: seq<Inspected>): (o: Outcome)
    ensures !o.PassThrough?
    ensures o.BadRequest? <==> p.rejectOnMismatch && exists i :: 0 <= i < |xs| && Classify(p, xs[i]).Rejected?
    ensures o.BadRequest? ==> o.rejectedFiles == Brief(RejectionsOf(p, xs))
    ensures o.Proceed? ==> forall v :: v in o.files <==> exists i :: 0 <= i < |xs| && Classify(p, xs[i]) == Accepted(v)
    ensures o.Proceed? ==> && o.summary.totalFiles == |xs|
                           && o.summary.validatedFiles == |o.files|
                           && o.summary.validatedFiles + o.summary.rejectedFiles == |xs|
                           && o.summary.rejectionDetails == RejectionsOf(p, xs)
                           && (o.summary.hasSecurityRisks <==> exists j :: 0 <= j < |o.summary.rejectionDetails| && o.summary.rejectionDetails[j].securityRisk)
  {
    CountsAddUp(p, xs);
    SomeRejected(p, xs);
    AcceptedMembershipAll(p, xs);
    var rs := RejectionsOf(p, xs);
    if |rs| > 0 && p.rejectOnMismatch then BadRequest(Brief(rs))
    else Proceed(AcceptedOf(p, xs), Summary(|xs|, |AcceptedOf(p, xs)|, |rs|, rs, AnyRisk(rs)))
  }

  /** The middleware as a function. */
  function Validate(p: Policy, req: RequestFiles): (o: Outcome)
    ensures o.PassThrough? <==> Skips(req)
    ensures o.BadRequest? <==>
              && !Skips(req) && p.rejectOnMismatch
              && exists i :: 0 <= i < |FilesOf(req)| && Classify(p, Inspect(FilesOf(req)[i])).Rejected?
    ensures o.Proceed? ==> && o.summary.totalFiles == |FilesOf(req)|
                           && o.summary.validatedFiles + o.summary.rejectedFiles == |FilesOf(req)|
                           && o.summary.validatedFiles == |o.files|
  {
    if Skips(req) then PassThrough else Decide(p, InspectAll(FilesOf(req)))
  }

  // ---------------------------------------------------------------------
  // Properties

  /** Every file is either accepted or rejected, never both and never lost. */
  lemma {:induction false} CountsAddUp(p: Policy, xs: seq<Inspected>)
    ensures |AcceptedOf(p, xs)| + |RejectionsOf(p, xs)| == |xs|
  {
    if |xs| > 0 {
      CountsAddUp(p, xs[..|xs| - 1]);
    }
  }

  /** Classification is file by file: the lists of a concatenation are the
      concatenations of the lists, so input order is kept. */
  lemma {:induction false} SplitsOverConcat(p: Policy, xs: seq<Inspected>, ys: seq<Inspected>)
    ensures AcceptedOf(p, xs + ys) == AcceptedOf(p, xs) + AcceptedOf(p, ys)
    ensures RejectionsOf(p, xs + ys) == RejectionsOf(p, xs) + RejectionsOf(p, ys)
    decreases |ys|
  {
    if |ys| == 0 {
      assert xs + ys == xs;
    } else {
      var init := ys[..|ys| - 1];
      assert (xs + ys)[..|xs + ys| - 1] == xs + init;
      assert (xs + ys)[|xs + ys| - 1] == ys[|ys| - 1];
      SplitsOverConcat(p, xs, init);
    }
  }

  /** Some file is refused exactly when the list of refusals is not empty. */
  lemma {:induction false} SomeRejected(p: Policy, xs: seq<Inspected>)
    ensures |RejectionsOf(p, xs)| > 0 <==> exists i :: 0 <= i < |xs| && Classify(p, xs[i]).Rejected?
  {
    if |xs| > 0 {
      var init := xs[..|xs| - 1];
      SomeRejected(p, init);
      if exists i :: 0 <= i < |init| && Classify(p, init[i]).Rejected? {
        var i :| 0 <= i < |init| && Classify(p, init[i]).Rejected?;
        assert xs[i] == init[i];
      }
      if exists i :: 0 <= i < |xs| && Classify(p, xs[i]).Rejected? {
        var i :| 0 <= i < |xs| && Classify(p, xs[i]).Rejected?;
        if i < |init| {
          assert init[i] == xs[i];
        }
      }
    }
  }

  lemma AcceptedMembershipAll(p: Policy, xs: seq<Inspected>)
    ensures forall v :: v in AcceptedOf(p, xs) <==> exists i :: 0 <= i < |xs| && Classify(p, xs[i]) == Accepted(v)
  {
    forall v {
      AcceptedMembership(p, xs, v);
    }
  }

  /** A validated file is in the output exactly when some input file was
      accepted as it. */
  lemma {:induction false} AcceptedMembership(p: Policy, xs: seq<Inspected>, v: ValidatedFile)
    ensures v in AcceptedOf(p, xs) <==> exists i :: 0 <= i < |xs| && Classify(p, xs[i]) == Accepted(v)
  {
    if |xs| > 0 {
      var init := xs[..|xs| - 1];
      AcceptedMembership(p, init, v);
      if exists i :: 0 <= i < |init| && Classify(p, init[i]) == Accepted(v) {
        var i :| 0 <= i < |init| && Classify(p, init[i]) == Accepted(v);
        assert xs[i] == init[i];
      }
      if exists i :: 0 <= i < |xs| && Classify(p, xs[i]) == Accepted(v) {
        var i :| 0 <= i < |xs| && Classify(p, xs[i]) == Accepted(v);
        if i < |init| {
          assert init[i] == xs[i];
        }
      }
    }
  }

  /** Every accepted file carries its detected content type, an allowed
      category, and in strict mode no risk. */
  lemma AcceptedAreSafe(p: Policy, xs: seq<Inspected>)
    ensures forall v :: v in AcceptedOf(p, xs) ==>
              && v.mimetype == v.detection.detectedMimeType
              && v.actualCategory in p.allowed
              && (p.rejectOnMismatch ==> v.isSecure)
  {
    forall v | v in AcceptedOf(p, xs)
      ensures && v.mimetype == v.detection.detectedMimeType
              && v.actualCategory in p.allowed
              && (p.rejectOnMismatch ==> v.isSecure)
    {
      AcceptedMembership(p, xs, v);
      var i :| 0 <= i < |xs| && Classify(p, xs[i]) == Accepted(v);
    }
  }

  /** The detection of a file that has a buffer. */
  function Detection(f: UploadedFile): DetectionResult
    requires f.buffer.Some?
  {
    Inspect(f).detection.value
  }

  /** Under the named policies a file whose bytes match no signature is refused. */
  lemma UnknownIsRejected(p: Policy, f: UploadedFile)
    requires p in {DefaultPolicy, UploadPolicy, LenientPolicy}
    requires f.buffer.Some? && Detection(f).detectedCategory == Unknown
    ensures Classify(p, Inspect(f)).Rejected?
  {
  }

  /** A risky file of an allowed category is refused exactly in strict mode. */
  lemma RiskyRejectedIffStrict(p: Policy, f: UploadedFile)
    requires f.buffer.Some? && Detection(f).securityRisk && Detection(f).detectedCategory in p.allowed
    ensures Classify(p, Inspect(f)).Rejected? <==> p.rejectOnMismatch
  {
  }

  /** The lenient policy accepts every buffered file of the four categories,
      risky or not. */
  lemma LenientAcceptsKnown(f: UploadedFile)
    requires f.buffer.Some? && Detection(f).detectedCategory != Unknown
    ensures Classify(LenientPolicy, Inspect(f)).Accepted?
  {
  }

  /** The upload policy refuses PNG bytes sent as `important_document.pdf`
      with content type `application/pdf`, flagging the refusal as a risk. */
  lemma DisguisedPngIsRefused()
    ensures var f := UploadedFile("important_document.pdf", "application/pdf", Some(PngSample));
            var v := Classify(UploadPolicy, Inspect(f));
            v.Rejected? && v.rejection.securityRisk && v.rejection.detectedType == "image/png"
  {
    PngClaimedAsPdfIsRisk();
  }

  /** Strict mode is all or nothing: the request either fails, listing at
      least one file, or proceeds with every one of its files. */
  lemma StrictIsAllOrNothing(p: Policy, req: RequestFiles)
    requires p.rejectOnMismatch && !Skips(req)
    ensures Validate(p, req).BadRequest? || Validate(p, req).Proceed?
    ensures Validate(p, req).Proceed? ==> |Validate(p, req).files| == |FilesOf(req)|
    ensures Validate(p, req).BadRequest? ==> |Validate(p, req).rejectedFiles| > 0
  {
    CountsAddUp(p, InspectAll(FilesOf(req)));
  }

  /** In lenient mode the request always proceeds, and the summary accounts
      for every file. */
  lemma LenientAlwaysProceeds(p: Policy, req: RequestFiles)
    requires !p.rejectOnMismatch && !Skips(req)
    ensures Validate(p, req).Proceed?
    ensures var s := Validate(p, req).summary;
            s.validatedFiles + s.rejectedFiles == s.totalFiles && s.totalFiles == |FilesOf(req)|
  {
    CountsAddUp(p, InspectAll(FilesOf(req)));
  }

  /** No files, or an empty array, leave the request untouched; an empty set
      of named fields still produces an (empty) summary. */
  lemma EmptyInputs(p: Policy)
    ensures Validate(p, NoFiles) == PassThrough
    ensures Validate(p, FileArray([])) == PassThrough
    ensures Validate(p, FileFields([])) == Proceed([], Summary(0, 0, 0, [], false))
  {
    assert Flatten([]) == [];
  }
}

=== FILE: upload_intake.dfy ===
/** The intake of one securely validated upload: the encrypted id, the
    registry row, the stored name, the size ceiling and the job that is
    queued for the file's processing type.

    The allocation, the random bytes of the token, the clock readings and
    the domain name are parameters.  The registry insert is the positional
    call the insert's signature asks for; the service's own call passes one
    object instead, which the registry refuses (see
    `DbOperations.ObjectCallInsertFails`). */
module UploadIntake {
  import opened Util
  import opened JsValues
  import opened MagicNumber
  import opened FileService
  import Db = DbOperations
  import Crypto

  /** An uploaded file as the multipart parser hands it over, with the
      detection result the validator attaches when it has run. */
  datatype Upload = Upload(originalname: string, mimetype: string, sizeMB: real, detection: Option<DetectionResult>)

  /** Where the shard allocator placed the file. */
  datatype Placement = Placement(folderHash: string, hashes: seq<string>)

  /** What a queued job carries besides its id: the temporary copy of the
      upload and the path the worker writes its output to, both relative
      to the project root and given as path components. */
  datatype JobSpec = JobSpec(documentId: nat, tempInput: seq<string>, finalFilePath: seq<string>)

  /** One entry of the upload response. */
  datatype Entry =
    | Queued(name: string, jobId: string, link: string, thumb: string, fileType: int, queue: Queue, job: JobSpec)
    | Errored(name: string, error: string)

  /** The bytes `generateHash(70)` draws. */
  const TokenLength: nat := 70

  /** `folderHash + generateHash(70)` */
  function EncryptedId(folderHash: string, tokenBytes: seq<Byte>): (enc: string)
    requires |tokenBytes| == TokenLength
    ensures |enc| == |folderHash| + TokenLength && enc[..|folderHash|] == folderHash
    ensures forall i :: |folderHash| <= i < |enc| ==> enc[i] == Crypto.Charset[tokenBytes[i - |folderHash|] % 62]
  {
    Crypto.TokenSpec(tokenBytes);
    folderHash + Crypto.Token(tokenBytes)
  }

  /** `${DOMAIN_NAME}/api/file/v1/<kind>/<encryptedId>` */
  function Link(domain: string, kind: string, encryptedId: string): string {
    domain + "/api/file/v1/" + kind + "/" + encryptedId
  }

  /** The processing type the service uses for an upload. */
  function FileTypeOf(u: Upload): (t: int) {
    GetSecureFileType(if u.detection.Some? then Some(u.detection.value.categoryId) else None, u.mimetype)
  }

  /** The extension the file is stored and registered under. */
  function ExtensionOf(u: Upload): string {
    DetectedExtension(if u.detection.Some? then Some(u.detection.value.detectedExtension) else None, u.originalname)
  }

  /** The name the worker writes: images become `.webp`, audio `.wav`,
      everything else keeps the stored name. */
  function OutputName(fileType: int, fileName: string): (out: string)
    ensures fileType != 1 && fileType != 2 ==> out == fileName
    ensures fileType == 1 && |fileName| > 0 && fileName[0] != '.' && '/' !in fileName ==> ExtName(out) == "." + Webp
    ensures fileType == 2 && |fileName| > 0 && fileName[0] != '.' && '/' !in fileName ==> ExtName(out) == "." + Wav
  {
    if fileType == 1 then ReplacedExtension(fileName, Webp); Stem(fileName) + "." + Webp
    else if fileType == 2 then ReplacedExtension(fileName, Wav); Stem(fileName) + "." + Wav
    else fileName
  }

  /** A stored name given a plain extension in place of its own ends in
      that extension. */
  lemma ReplacedExtension(fileName: string, extension: string)
    requires PlainExtension(extension)
    ensures |fileName| > 0 && fileName[0] != '.' && '/' !in fileName ==>
              ExtName(Stem(fileName) + "." + extension) == "." + extension
  {
    if |fileName| > 0 && fileName[0] != '.' && '/' !in fileName {
      StemExtension(fileName, extension);
    }
  }

  const Webp: string := "webp"
  const Wav: string := "wav"

  /** The temporary copy: `uploads/temp/temp-<fileName>`. */
  function TempInput(fileName: string): seq<string> {
    ["uploads", "temp", "temp-" + fileName]
  }

  /** Why a file of an accepted type is not queued, if it is not: an
      unsupported type, or a size above the ceiling of its type. */
  function Refusal(fileType: int, sizeMB: real, env: Limits): (r: Option<string>)
    ensures r.None? <==> 1 <= fileType <= 4 && !TooLarge(sizeMB, Ceiling(fileType, env))
    ensures !(1 <= fileType <= 4) ==> r == Some("Unsupported file type")
    ensures 1 <= fileType <= 4 && r.Some? ==> r == Some("File too large")
  {
    if !(1 <= fileType <= 4) then Some("Unsupported file type")
    else if TooLarge(sizeMB, Ceiling(fileType, env)) then Some("File too large")
    else None
  }

  /** What the processing step's own I/O throws, if it throws: the
      `fs.writeFile` of the temporary copy or the queue's `add`.  The
      handler reports an `Error` by its message and anything else as
      "Processing failed". */
  datatype Thrown = ErrorThrown(message: string) | OtherThrown

  function ThrownMessage(t: Thrown): string {
    match t
    case ErrorThrown(m) => m
    case OtherThrown => "Processing failed"
  }

  /** With nothing configured, images of any size are taken, audio and
      PDFs up to 50 MB and documents up to 25 MB. */
  lemma RefusalWithoutSettings(fileType: int, sizeMB: real)
    requires 1 <= fileType <= 4
    ensures fileType == 1 ==> Refusal(fileType, sizeMB, NoLimits).None?
    ensures fileType == 2 || fileType == 3 ==> (Refusal(fileType, sizeMB, NoLimits).None? <==> sizeMB <= 50.0)
    ensures fileType == 4 ==> (Refusal(fileType, sizeMB, NoLimits).None? <==> sizeMB <= 25.0)
  {
    DefaultCeilings();
    UnsetImageCeiling(sizeMB);
  }

  /** The `switch` on the processing type after the row exists: the
      per-type size check, then the temporary copy and the job, either of
      which may throw (`io`). */
  function Dispatch(u: Upload, documentId: nat, encryptedId: string, hashes: seq<string>,
                    env: Limits, domain: string, now: nat, jobTime: nat, io: Option<Thrown>): (e: Entry)
    ensures e.name == SanitizedName(u.originalname, ExtensionOf(u))
    ensures e.Errored? <==> Refusal(FileTypeOf(u), u.sizeMB, env).Some? || io.Some?
    ensures Refusal(FileTypeOf(u), u.sizeMB, env).Some? ==> e == Errored(e.name, Refusal(FileTypeOf(u), u.sizeMB, env).value)
    ensures Refusal(FileTypeOf(u), u.sizeMB, env).None? && io.Some? ==> e == Errored(e.name, ThrownMessage(io.value))
    ensures e.Queued? ==> && e.fileType == FileTypeOf(u) && 1 <= e.fileType <= 4
                          && ParseJobId(e.jobId) == Some((e.fileType, documentId, jobTime))
                          && DispatchQueue(e.fileType) == Some(e.queue)
                          && e.link == Link(domain, "files", encryptedId)
                          && e.thumb == Link(domain, "thumb", encryptedId)
                          && e.job.documentId == documentId
                          && |e.job.finalFilePath| == |hashes| + 2
                          && e.job.finalFilePath[..|hashes| + 1] == ["uploads"] + hashes
  {
    var fileType := FileTypeOf(u);
    var sanitized := SanitizedName(u.originalname, ExtensionOf(u));
    var fileName := StoredName(now, sanitized);
    match Refusal(fileType, u.sizeMB, env)
    case Some(e) => Errored(sanitized, e)
    case None =>
      if io.Some? then Errored(sanitized, ThrownMessage(io.value))
      else Queued(sanitized, GenerateJobId(documentId, fileType, jobTime),
             Link(domain, "files", encryptedId), Link(domain, "thumb", encryptedId), fileType,
             DispatchQueue(fileType).value,
             JobSpec(documentId, TempInput(fileName), ["uploads"] + hashes + [OutputName(fileType, fileName)]))
  }

  /** The registry insert of the intake, with the arguments in the order
      the insert declares them. */
  function InsertUpload(reg: Db.Registry, u: Upload, encryptedId: string): (r: Result<(Db.Registry, nat), Db.DbError>) {
    Db.Insert(reg, JsNumber(Fin(FileTypeOf(u) as real)), JsString(u.originalname), JsString(encryptedId),
              JsNumber(Fin(u.sizeMB)), JsString(ExtensionOf(u)))
  }

  /** `processIndividualSecureFile`: the row is inserted first, and only
      then is the size checked. */
  function IntakeFile(reg: Db.Registry, p: Placement, tokenBytes: seq<Byte>, u: Upload,
                      env: Limits, domain: string, now: nat, jobTime: nat, io: Option<Thrown>): (r: Result<(Db.Registry, Entry), Db.DbError>)
    requires |tokenBytes| == TokenLength
    ensures var enc := EncryptedId(p.folderHash, tokenBytes);
            && (r.Err? <==> exists i :: 0 <= i < |reg.docs| && reg.docs[i].encryptedId == enc)
            && (r.Err? ==> r.error == Db.UniqueViolation)
            && (r.Ok? ==> r.value.0 == Db.Registry(reg.docs + [RowFor(reg, u, enc)], reg.nextId + 1))
            && (r.Ok? ==> r.value.1 == Dispatch(u, reg.nextId, enc, p.hashes, env, domain, now, jobTime, io))
  {
    var enc := EncryptedId(p.folderHash, tokenBytes);
    InsertUploadFacts(reg, u, enc);
    match InsertUpload(reg, u, enc)
    case Err(e) => Err(e)
    case Ok((reg', id)) => Ok((reg', Dispatch(u, id, enc, p.hashes, env, domain, now, jobTime, io)))
  }

  /** The intake with the size and type checks made before the row is
      inserted: a refused file leaves the registry as it was. */
  function IntakeFileCheckedFirst(reg: Db.Registry, p: Placement, tokenBytes: seq<Byte>, u: Upload,
                                  env: Limits, domain: string, now: nat, jobTime: nat, io: Option<Thrown>): (r: Result<(Db.Registry, Entry), Db.DbError>)
    requires |tokenBytes| == TokenLength
  {
    match Refusal(FileTypeOf(u), u.sizeMB, env)
    case Some(e) => Ok((reg, Errored(SanitizedName(u.originalname, ExtensionOf(u)), e)))
    case None => IntakeFile(reg, p, tokenBytes, u, env, domain, now, jobTime, io)
  }

  /** The row the intake adds for an upload. */
  function RowFor(reg: Db.Registry, u: Upload, encryptedId: string): Db.Document {
    Db.Document(reg.nextId, FileTypeOf(u), u.originalname, encryptedId, u.sizeMB, ExtensionOf(u),
                false, None, None, None, None)
  }

  /** The intake fails only when the encrypted id is already taken; when
      it succeeds the registry gains exactly the unprocessed row of the
      upload, under the next id. */
  lemma IntakeRecordsRow(reg: Db.Registry, p: Placement, tokenBytes: seq<Byte>, u: Upload,
                         env: Limits, domain: string, now: nat, jobTime: nat, io: Option<Thrown>)
    requires |tokenBytes| == TokenLength
    ensures var enc := EncryptedId(p.folderHash, tokenBytes);
            var r := IntakeFile(reg, p, tokenBytes, u, env, domain, now, jobTime, io);
            && (r.Err? <==> exists i :: 0 <= i < |reg.docs| && reg.docs[i].encryptedId == enc)
            && (r.Err? ==> r.error == Db.UniqueViolation)
            && (r.Ok? ==> r.value.0 == Db.Registry(reg.docs + [RowFor(reg, u, enc)], reg.nextId + 1))
            && (r.Ok? ==> r.value.1 == Dispatch(u, reg.nextId, enc, p.hashes, env, domain, now, jobTime, io))
  {
    InsertUploadFacts(reg, u, EncryptedId(p.folderHash, tokenBytes));
  }

  lemma InsertUploadFacts(reg: Db.Registry, u: Upload, enc: string)
    ensures var r := InsertUpload(reg, u, enc);
            && (r.Err? <==> exists i :: 0 <= i < |reg.docs| && reg.docs[i].encryptedId == enc)
            && (r.Err? ==> r.error == Db.UniqueViolation)
            && (r.Ok? ==> r.value == (Db.Registry(reg.docs + [RowFor(reg, u, enc)], reg.nextId + 1), reg.nextId))
  {
    Db.InsertedRow(reg, FileTypeOf(u), u.originalname, enc, u.sizeMB, ExtensionOf(u));
  }

  /** With a placement of good names the encrypted id is one hundred
      letters and digits, so the path lookups accept it. */
  lemma EncryptedIdShape(folderHash: string, tokenBytes: seq<Byte>)
    requires |tokenBytes| == TokenLength
    requires |folderHash| == 30 && AllAlnum(folderHash)
    ensures var enc := EncryptedId(folderHash, tokenBytes);
            |enc| == 100 && AllAlnum(enc) && Db.SafeId(enc)
  {
    var t := Crypto.Token(tokenBytes);
    Crypto.TokenSpec(tokenBytes);
    var enc := folderHash + t;
    assert forall i :: 0 <= i < |folderHash| ==> enc[i] == folderHash[i];
    assert forall i :: |folderHash| <= i < |enc| ==> enc[i] == t[i - |folderHash|];
  }

  /** Right after the intake the new document's file and thumbnail both
      resolve to "not processed" (-2). */
  lemma IntakeThenResolve(reg: Db.Registry, p: Placement, tokenBytes: seq<Byte>, u: Upload,
                          env: Limits, domain: string, now: nat, jobTime: nat, io: Option<Thrown>, f: Db.PathField)
    requires |tokenBytes| == TokenLength
    requires Db.Valid(reg) && |p.folderHash| == 30 && AllAlnum(p.folderHash)
    requires IntakeFile(reg, p, tokenBytes, u, env, domain, now, jobTime, io).Ok?
    ensures var enc := EncryptedId(p.folderHash, tokenBytes);
            Db.Resolve(IntakeFile(reg, p, tokenBytes, u, env, domain, now, jobTime, io).value.0, JsString(enc), false, f)
            == Db.NotProcessed
  {
    var enc := EncryptedId(p.folderHash, tokenBytes);
    EncryptedIdShape(p.folderHash, tokenBytes);
    Db.InsertThenResolve(reg, JsNumber(Fin(FileTypeOf(u) as real)), JsString(u.originalname), enc,
                         JsNumber(Fin(u.sizeMB)), JsString(ExtensionOf(u)), f);
  }

  /** The service inserts the row before the processing step checks the
      size ceiling.  With the insert made positional, a file over its
      ceiling is answered with an error entry, yet its row stays in the
      registry, unprocessed, with no job that would ever process it.  (With
      the service's one-object call the insert itself fails first, outside
      the handler that builds error entries, so no row is written.) */
  lemma IntakeLeavesOrphanRow(reg: Db.Registry, p: Placement, tokenBytes: seq<Byte>, u: Upload,
                              env: Limits, domain: string, now: nat, jobTime: nat, io: Option<Thrown>)
    requires |tokenBytes| == TokenLength
    requires 1 <= FileTypeOf(u) <= 4 && TooLarge(u.sizeMB, Ceiling(FileTypeOf(u), env))
    requires forall i :: 0 <= i < |reg.docs| ==> reg.docs[i].encryptedId != EncryptedId(p.folderHash, tokenBytes)
    ensures var r := IntakeFile(reg, p, tokenBytes, u, env, domain, now, jobTime, io);
            && r.Ok? && r.value.1 == Errored(SanitizedName(u.originalname, ExtensionOf(u)), "File too large")
            && |r.value.0.docs| == |reg.docs| + 1
            && r.value.0.docs[|reg.docs|].encryptedId == EncryptedId(p.folderHash, tokenBytes)
            && !r.value.0.docs[|reg.docs|].isProcessed
  {
    IntakeRecordsRow(reg, p, tokenBytes, u, env, domain, now, jobTime, io);
  }

  /** Checking first, a refused file leaves the registry unchanged, and a
      file that passes is taken in exactly as before. */
  lemma CheckedFirstLeavesNoRow(reg: Db.Registry, p: Placement, tokenBytes: seq<Byte>, u: Upload,
                                env: Limits, domain: string, now: nat, jobTime: nat, io: Option<Thrown>)
    requires |tokenBytes| == TokenLength
    ensures var r := IntakeFileCheckedFirst(reg, p, tokenBytes, u, env, domain, now, jobTime, io);
            && (Refusal(FileTypeOf(u), u.sizeMB, env).Some? ==> r.Ok? && r.value.0 == reg && r.value.1.Errored?)
            && (Refusal(FileTypeOf(u), u.sizeMB, env).None? ==> r == IntakeFile(reg, p, tokenBytes, u, env, domain, now, jobTime, io))
            && (io.None? && r.Ok? && r.value.1.Errored? ==> r.value.0 == reg)
  {
    if Refusal(FileTypeOf(u), u.sizeMB, env).None? {
      var r := IntakeFile(reg, p, tokenBytes, u, env, domain, now, jobTime, io);
      if r.Ok? {
        var enc := EncryptedId(p.folderHash, tokenBytes);
        var ins := InsertUpload(reg, u, enc);
        assert r.value.1 == Dispatch(u, ins.value.1, enc, p.hashes, env, domain, now, jobTime, io);
      }
    }
  }

  /** A queued job's id reads back as its type, its document and the
      time, and a status poll with that type looks in the queue the job
      was added to. */
  lemma QueuedJobIsFound(u: Upload, documentId: nat, encryptedId: string, hashes: seq<string>,
                         env: Limits, domain: string, now: nat, jobTime: nat, io: Option<Thrown>,
                         jobs: map<(Queue, string), JobInfo>)
    requires Dispatch(u, documentId, encryptedId, hashes, env, domain, now, jobTime, io).Queued?
    ensures var e := Dispatch(u, documentId, encryptedId, hashes, env, domain, now, jobTime, io);
            && 1 <= e.fileType <= 4
            && ParseJobId(e.jobId) == Some((e.fileType, documentId, jobTime))
            && StatusQueue(Decimal(e.fileType)) == e.queue
            && (GetJobStatus(jobs, e.jobId, Decimal(e.fileType)).Ok? <==> (e.queue, e.jobId) in jobs)
  {
    var t := FileTypeOf(u);
    assert Refusal(t, u.sizeMB, env).None?;
    JobIdRoundTrip(documentId, t, jobTime);
    StatusOfDispatched(t);
  }

  /** Documents and pdfs are written under their stored name, so the file
      on disk carries the detected extension; images are written as
      `.webp` and audio as `.wav`.  Every output lands in the allocated
      directory. */
  lemma OutputKeepsExtension(u: Upload, documentId: nat, encryptedId: string, hashes: seq<string>,
                             env: Limits, domain: string, now: nat, jobTime: nat, io: Option<Thrown>)
    requires PlainExtension(ExtensionOf(u))
    requires Dispatch(u, documentId, encryptedId, hashes, env, domain, now, jobTime, io).Queued?
    ensures var e := Dispatch(u, documentId, encryptedId, hashes, env, domain, now, jobTime, io);
            var out := e.job.finalFilePath[|e.job.finalFilePath| - 1];
            && e.job.finalFilePath == ["uploads"] + hashes + [out]
            && (e.fileType >= 3 ==> ExtName(out) == "." + ExtensionOf(u))
            && (e.fileType == 1 ==> ExtName(out) == "." + Webp)
            && (e.fileType == 2 ==> ExtName(out) == "." + Wav)
  {
    var t := FileTypeOf(u);
    assert Refusal(t, u.sizeMB, env).None?;
    var fileName := StoredName(now, SanitizedName(u.originalname, ExtensionOf(u)));
    var e := Dispatch(u, documentId, encryptedId, hashes, env, domain, now, jobTime, io);
    assert e.fileType == t;
    assert e.job.finalFilePath == ["uploads"] + hashes + [OutputName(t, fileName)];
    StoredNameFacts(now, u.originalname, ExtensionOf(u));
    OutputNameExtension(t, fileName, ExtensionOf(u));
  }

  /** The stored name is a non-empty, slash-free name that starts with a
      digit and ends in the detected extension. */
  lemma StoredNameFacts(now: nat, originalname: string, extension: string)
    requires PlainExtension(extension)
    ensures var fileName := StoredName(now, SanitizedName(originalname, extension));
            && |fileName| > 0 && fileName[0] != '.' && '/' !in fileName
            && ExtName(fileName) == "." + extension
  {
    var fileName := StoredName(now, SanitizedName(originalname, extension));
    StoredNameKeepsExtension(originalname, extension, now);
    SanitizedNameShape(originalname, extension, now);
    assert fileName[0] == Decimal(now)[0] && IsDigit(Decimal(now)[0]);
  }

  /** The extension of the name the worker writes, by processing type. */
  lemma OutputNameExtension(t: int, fileName: string, extension: string)
    requires |fileName| > 0 && fileName[0] != '.' && '/' !in fileName
    requires ExtName(fileName) == "." + extension
    ensures var out := OutputName(t, fileName);
            && (t != 1 && t != 2 ==> ExtName(out) == "." + extension)
            && (t == 1 ==> ExtName(out) == "." + Webp)
            && (t == 2 ==> ExtName(out) == "." + Wav)
  {
    if t == 1 {
      ConvertedName(fileName, 1, Webp);
    } else if t == 2 {
      ConvertedName(fileName, 2, Wav);
    }
  }

  lemma ConvertedName(fileName: string, t: int, extension: string)
    requires t == 1 || t == 2
    requires extension == if t == 1 then Webp else Wav
    requires |fileName| > 0 && fileName[0] != '.' && '/' !in fileName
    ensures ExtName(OutputName(t, fileName)) == "." + extension
  {
    StemExtension(fileName, extension);
  }

  /** Replacing the extension of a stored name gives a name with the new
      extension. */
  lemma StemExtension(fileName: string, extension: string)
    requires PlainExtension(extension)
    requires |fileName| > 0 && fileName[0] != '.' && '/' !in fileName
    ensures ExtName(Stem(fileName) + "." + extension) == "." + extension
  {
    LastComponentOfPlain(fileName);
    var s := Stem(fileName);
    assert |s| > 0 && s[0] == fileName[0] by {
      if |ExtName(fileName)| > 0 {
        var d := LastIndex(fileName, '.').value;
        assert d != 0;
        assert s == fileName[..d];
      }
    }
    ExtNameOfJoin(s, extension);
  }
}

=== FILE: util.dfy ===
/** Shared value types and string helpers for the ingestion model.

    Strings are `seq<char>`.  Where the service relies on JavaScript string
    built-ins (`split(...).pop()`, `startsWith`, `includes`, `/\s+/g`,
    `toLowerCase`) the helper here states the behaviour the model relies on. */
module Util {

  type Byte = x: int | 0 <= x < 256

  datatype Option<+T> = None | Some(value: T)

  datatype Result<+T, +E> = Ok(value: T) | Err(error: E)

  /** `s.startsWith(prefix)` */
  predicate StartsWith(s: string, prefix: string) {
    |prefix| <= |s| && s[..|prefix|] == prefix
  }

  /** `s.includes(sub)`: `sub` occurs at some position of `s`. */
  predicate Contains(s: string, sub: string)
    decreases |s|
  {
    StartsWith(s, sub) || (|s| > 0 && Contains(s[1..], sub))
  }

  lemma {:induction false} ContainsAt(s: string, sub: string, i: nat)
    requires i + |sub| <= |s| && s[i..i + |sub|] == sub
    ensures Contains(s, sub)
    decreases i
  {
    if i == 0 {
      assert s[..|sub|] == sub;
    } else {
      assert s[1..][i - 1..i - 1 + |sub|] == s[i..i + |sub|];
      ContainsAt(s[1..], sub, i - 1);
    }
  }

  /** ASCII letters and digits, the class `[A-Za-z0-9]`. */
  predicate IsAlnum(c: char) {
    ('A' <= c <= 'Z') || ('a' <= c <= 'z') || ('0' <= c <= '9')
  }

  predicate AllAlnum(s: string) {
    forall i :: 0 <= i < |s| ==> IsAlnum(s[i])
  }

  predicate IsDigit(c: char) {
    '0' <= c <= '9'
  }

  predicate AllDigits(s: string) {
    forall i :: 0 <= i < |s| ==> IsDigit(s[i])
  }

  /** The characters JavaScript counts as white space in `\s` and in `trim`:
      WhiteSpace and LineTerminator of ECMA-262. */
  predicate IsWhitespace(c: char) {
    c == ' ' || c == '\t' || c == '\n' || c == '\r' || c == '\U{B}' || c == '\U{C}'
    || c == '\U{A0}' || c == '\U{1680}' || ('\U{2000}' <= c <= '\U{200A}')
    || c == '\U{2028}' || c == '\U{2029}' || c == '\U{202F}' || c == '\U{205F}'
    || c == '\U{3000}' || c == '\U{FEFF}'
  }

  predicate NoWhitespace(s: string) {
    forall i :: 0 <= i < |s| ==> !IsWhitespace(s[i])
  }

  /** Lower-casing as `toLowerCase` does it on ASCII letters. */
  function LowerChar(c: char): (r: char)
    ensures 'A' <= c <= 'Z' ==> 'a' <= r <= 'z'
    ensures !('A' <= c <= 'Z') ==> r == c
  {
    if 'A' <= c <= 'Z' then (c as int + 32) as char else c
  }

  function Lower(s: string): (r: string)
    ensures |r| == |s|
    ensures forall i :: 0 <= i < |s| ==> r[i] == LowerChar(s[i])
  {
    if |s| == 0 then "" else [LowerChar(s[0])] + Lower(s[1..])
  }

  /** `s.split(sep).pop()`: the text after the last `sep`, or all of `s` when
      `sep` does not occur. */
  function AfterLast(s: string, sep: char): (r: string)
    ensures |r| <= |s| && r == s[|s| - |r|..]
    ensures sep !in r
    ensures |r| < |s| ==> s[|s| - |r| - 1] == sep
  {
    if |s| == 0 then ""
    else if s[|s| - 1] == sep then ""
    else AfterLast(s[..|s| - 1], sep) + [s[|s| - 1]]
  }

  /** Drops leading white space (`trimStart`). */
  function TrimStart(s: string): (r: string)
    ensures |r| <= |s| && r == s[|s| - |r|..]
    ensures |r| > 0 ==> !IsWhitespace(r[0])
    ensures forall i :: 0 <= i < |s| - |r| ==> IsWhitespace(s[i])
  {
    if |s| > 0 && IsWhitespace(s[0]) then
      var r := TrimStart(s[1..]);
      assert forall i :: 1 <= i < |s| - |r| ==> s[i] == s[1..][i - 1];
      r
    else s
  }

  lemma TrimStartKeeps(s: string)
    requires |s| > 0 && !IsWhitespace(s[0])
    ensures TrimStart(s) == s
  {
  }

  /** Drops trailing white space (`trimEnd`). */
  function TrimEnd(s: string): (r: string)
    ensures |r| <= |s| && r == s[..|r|]
    ensures |r| > 0 ==> !IsWhitespace(r[|r| - 1])
  {
    if |s| > 0 && IsWhitespace(s[|s| - 1]) then TrimEnd(s[..|s| - 1]) else s
  }

  lemma TrimEndKeeps(s: string)
    requires |s| > 0 && !IsWhitespace(s[|s| - 1])
    ensures TrimEnd(s) == s
  {
  }

  function Trim(s: string): string {
    TrimEnd(TrimStart(s))
  }

  /** `trimEnd` keeps every character up to the last one that is not
      white space. */
  lemma {:induction false} TrimEndKeepsUpTo(s: string, i: nat)
    requires i < |s| && !IsWhitespace(s[i])
    ensures |TrimEnd(s)| > i
    decreases |s|
  {
    if IsWhitespace(s[|s| - 1]) {
      TrimEndKeepsUpTo(s[..|s| - 1], i);
    }
  }

  /** A sentence followed by a space and anything else is still at the
      front once the whole is trimmed. */
  lemma TrimKeepsSentence(head: string, rest: string)
    requires |head| > 0 && !IsWhitespace(head[0]) && !IsWhitespace(head[|head| - 1])
    ensures StartsWith(Trim(head + " " + rest), head)
  {
    var s := head + " " + rest;
    assert s[..|head|] == head;
    TrimKeepsHead(s, head);
  }

  /** A text that starts with a phrase whose first and last characters are
      not white space still starts with it once trimmed. */
  lemma TrimKeepsHead(s: string, head: string)
    requires StartsWith(s, head) && |head| > 0
    requires !IsWhitespace(head[0]) && !IsWhitespace(head[|head| - 1])
    ensures StartsWith(Trim(s), head)
  {
    TrimStartKeeps(s);
    TrimEndKeepsUpTo(s, |head| - 1);
    var r := TrimEnd(s);
    assert r[..|head|] == s[..|head|];
  }

  /** `s.replace(/\s+/g, '_')`: every maximal run of white space becomes one `_`. */
  function CollapseWhitespace(s: string): (r: string)
    ensures NoWhitespace(r)
    ensures |r| <= |s|
    decreases |s|
  {
    if |s| == 0 then ""
    else if IsWhitespace(s[0]) then "_" + CollapseWhitespace(TrimStart(s))
    else [s[0]] + CollapseWhitespace(s[1..])
  }

  /** A string without white space is left as it is. */
  lemma {:induction false} CollapseWhitespaceFixes(s: string)
    requires NoWhitespace(s)
    ensures CollapseWhitespace(s) == s
    decreases |s|
  {
    if |s| > 0 {
      CollapseWhitespaceFixes(s[1..]);
    }
  }

  /** Replacing white-space runs twice is the same as replacing them once. */
  lemma CollapseWhitespaceIdempotent(s: string)
    ensures CollapseWhitespace(CollapseWhitespace(s)) == CollapseWhitespace(s)
  {
    CollapseWhitespaceFixes(CollapseWhitespace(s));
  }

  /** The first occurrence of `c` removed, as `s.replace(c, '')` does with a
      one-character string pattern. */
  function RemoveFirst(s: string, c: char): (r: string)
    ensures c in s ==> |r| == |s| - 1
    ensures c !in s ==> r == s
  {
    if |s| == 0 then ""
    else if s[0] == c then s[1..]
    else [s[0]] + RemoveFirst(s[1..], c)
  }

  function DigitChar(d: nat): (c: char)
    requires d < 10
    ensures IsDigit(c)
  {
    ('0' as int + d) as char
  }

  /** Base-10 rendering of a natural number, as `${n}` prints it. */
  function Decimal(n: nat): (r: string)
    ensures |r| >= 1 && AllDigits(r)
    ensures |r| > 1 ==> r[0] != '0'
    decreases n
  {
    if n < 10 then [DigitChar(n)] else Decimal(n / 10) + [DigitChar(n % 10)]
  }

  /** The value of a digit character in bases up to 36, or -1 for a
      character that is no digit. */
  function DigitValue(c: char): (v: int)
    ensures -1 <= v < 36
    ensures IsDigit(c) <==> 0 <= v < 10
  {
    if '0' <= c <= '9' then c as int - '0' as int
    else if 'a' <= c <= 'z' then c as int - 'a' as int + 10
    else if 'A' <= c <= 'Z' then c as int - 'A' as int + 10
    else -1
  }

  predicate IsRadixDigit(c: char, radix: nat) {
    0 <= DigitValue(c) < radix
  }

  predicate AllRadixDigits(s: string, radix: nat) {
    forall i :: 0 <= i < |s| ==> IsRadixDigit(s[i], radix)
  }

  /** Length of the longest prefix of `s` made of digits of `radix`. */
  function RunLength(s: string, radix: nat): (k: nat)
    ensures k <= |s|
    ensures AllRadixDigits(s[..k], radix)
    ensures k < |s| ==> !IsRadixDigit(s[k], radix)
  {
    if |s| > 0 && IsRadixDigit(s[0], radix) then
      var k := 1 + RunLength(s[1..], radix);
      assert s[..k] == [s[0]] + s[1..][..k - 1];
      k
    else 0
  }

  lemma {:induction false} RunLengthAll(s: string, radix: nat)
    requires AllRadixDigits(s, radix)
    ensures RunLength(s, radix) == |s|
  {
    if |s| > 0 {
      RunLengthAll(s[1..], radix);
    }
  }

  /** The number a string of digits denotes in `radix`, most significant first. */
  function RadixValue(s: string, radix: nat): nat
    requires AllRadixDigits(s, radix)
  {
    if |s| == 0 then 0 else RadixValue(s[..|s| - 1], radix) * radix + DigitValue(s[|s| - 1])
  }

  /** Rendering a number in decimal and reading the digits back gives the number. */
  lemma {:induction false} DecimalValue(n: nat)
    ensures AllRadixDigits(Decimal(n), 10)
    ensures RadixValue(Decimal(n), 10) == n
    decreases n
  {
    if n >= 10 {
      DecimalValue(n / 10);
      var d := Decimal(n);
      assert d[..|d| - 1] == Decimal(n / 10);
    }
  }

  /** Distinct numbers render differently. */
  lemma DecimalInjective(m: nat, n: nat)
    requires Decimal(m) == Decimal(n)
    ensures m == n
  {
    DecimalValue(m);
    DecimalValue(n);
  }
}
